=== FILE: README.md ===
# OwO farm bot: captcha handling and feature rules, in Dafny

This project models the core of a Discord self-bot that farms the OwO game
bot. It covers two parts of that bot.

The first part is the subsystem that gets past the captchas OwO injects:

- the coordinator `CaptchaService.handleCaptcha`, with its dedup window,
  process-wide lock, retry budget and backoff;
- solver selection from the configuration;
- the round-robin failover solver with its sequential, panic and
  hard-timeout phases;
- the two polling provider adapters (YesCaptcha and 2Crawler);
- the retry helpers and the token-bucket rate limiter that every outgoing
  command goes through;
- the statistics counters.

The second part is the feature rules that turn OwO's replies into commands
and cooldowns: boss, quest, daily, checklist, lootbox, event box and cookie.

Every network call, Discord call, sleep, clock read and random draw is a
parameter:

- provider and HTTP outcomes are oracles, given as a sequence of answers
  indexed by call number, each with the time it took;
- clocks are explicit fields or out-parameters;
- `Math.random()` and `ranInt` draws are reals in [0, 1).

`ranInt(lo, hi)` is taken as `Math.floor(u * (hi - lo + 1)) + lo`, the same
formula as `delayWithJitter`. `src/utils/math.ts` is not part of this model.

The modules follow the source files:

- `CaptchaService` models `src/services/CaptchaService.ts`. Solver selection
  and the link-flow order are pure. A `Coordinator` class holds the static
  lock, the timestamps and the counters, and `handleCaptcha`'s retry
  recursion becomes mutually recursive methods.
- `Failover` models `src/services/solvers/FailoverCaptchaSolver.ts` as a
  class with the cursor and the failure-count map; its loops are methods.
- `YesCaptcha` and `TwoCrawler` model the two provider adapters. Their poll
  loops are methods over a sequence of poll replies.
- `Polling` is shared by the adapters: the capped multiplicative backoff, in
  exact `real` arithmetic.
- `Retry` models `src/utils/retry.ts`: the `withRetry` loop and
  `delayWithJitter`.
- `RateLimit` models `src/utils/rateLimit.ts` as class `RateLimiter`, with
  the queue, the tokens and the timestamps.
- `Statistics` models `src/services/StatisticsService.ts` as class
  `StatisticsService`, which holds a `Snapshot` value.
- `AutoBoss`, `AutoQuest`, `AutoDaily`, `AutoChecklist`, `AutoLootbox`,
  `AutoEventBox` and `AutoCookie` model `src/features/*.ts` as pure
  decision functions. The quest reroll state is a class.
- `Common` and `Text` are helpers. They hold options and results,
  `Math.floor`, `Math.round` and `ranInt`, and the string scanners that
  stand for the regular expressions.

Where the code and its comments or documentation disagree, the model follows
the code:

- `handleCaptcha` retries every failure, including "Account is banned." and
  the failover solver's hard timeout (`src/services/CaptchaService.ts:448`).
  Only the delay differs, and only for rate-limited errors.
- 2Crawler's "fa" status is thrown inside the `try` and caught, so polling
  goes on (`src/services/solvers/TwoCrawlerSolver.ts:102-117`).
- The failover image loop's comment says each solver is tried at least
  twice. With a switch threshold of 1, the loop stops after one full circle,
  so each provider is tried once (`src/services/solvers/FailoverCaptchaSolver.ts:78-99`).
- After a failed sequential round, the 2000 ms pause branch of the failover
  hCaptcha loop can never run. Such a round always ends before 3 min + 70 s,
  so the 5 s pause is taken (`Failover.RoundPauseAlwaysFull`).
- The hard 9-minute limit is only tested between rounds. A panic round that
  starts just before it can run up to 120 s more, so the call can end about
  665 s in. `Failover.FailoverCaptchaSolver.SolveHcaptcha` gives the clock of
  the whole run as a sum of the providers' times and the pauses. From that
  sum it bounds the end of the run and shows that giving up comes only after
  a failed panic round whose end, plus the 5 s pause, is at or past 9 min.

## Model

| member | source | states |
|---|---|---|
| `CaptchaService.ProviderOf` | src/services/CaptchaService.ts:43-52 | a name selects a provider exactly when it is "yescaptcha", "2captcha" or "2crawler", and the provider's name is that name |
| `CaptchaService.ProviderNameRoundTrip` | src/services/CaptchaService.ts:43-49 | naming a provider and reading the name back gives the same provider |
| `CaptchaService.CreateSingleSolver` | src/services/CaptchaService.ts:42-54 | a solver exists iff the provider name is known; it is that provider with the given key |
| `CaptchaService.CreateSolver` | src/services/CaptchaService.ts:59-85 | no solver iff the provider or key is missing or the primary is unknown; a failover over [primary, backup] with their keys iff the backup provider and key are set and the backup is known; otherwise the primary alone |
| `CaptchaService.FailoverOrder` | src/services/CaptchaService.ts:76-79 | with a usable backup the rotation order is primary, then backup |
| `CaptchaService.RateLimitedAnywhere` | src/services/CaptchaService.ts:443-445 | a message is rate-limited wherever '密钥错误', '屏蔽' or 'blocked' stands in it |
| `CaptchaService.PlainMessageNotRateLimited` | src/services/CaptchaService.ts:443-445 | a message with no 'k' and no character at or above U+5BC6, the first character of '密钥错误', is not rate-limited |
| `CaptchaService.BannedIsNotRateLimited` | src/services/CaptchaService.ts:192-194 | "Account is banned." is not rate-limited, so it gets the normal backoff |
| `CaptchaService.RetryDelay` | src/services/CaptchaService.ts:449-463 | rate-limited: [15000, 25000); otherwise within [BASE_DELAY, MAX_DELAY] = [3000, 40000] |
| `CaptchaService.JitterWindow` | src/services/CaptchaService.ts:457-458 | the jittered base lies within ±30 % of the base |
| `CaptchaService.RetryDelayWindow` | src/services/CaptchaService.ts:456-462 | the non-rate-limited delay for retry r lies in [max(0.7·3000·2^r, 3000), min(1.3·3000·2^r, 40000)] |
| `CaptchaService.RetryBases` | src/typings/constants.ts:73-78 | the backoff bases for retries 0 to 3 are 3, 6, 12 and 24 s |
| `CaptchaService.PostSolveDelay` | src/services/CaptchaService.ts:388-390 | [30, 60) s after a repeat captcha, else [15, 25) s |
| `CaptchaService.KindOf` | src/services/CaptchaService.ts:325-353 | an image captcha iff there is an attachment URL; otherwise a link captcha iff the content with its invisible characters deleted, or the first button, holds an http(s) URL |
| `CaptchaService.StripInvisible` | src/services/CaptchaService.ts:248 | deleting control, separator and format characters: none remains, no other character is added, and text without them is unchanged |
| `CaptchaService.StripIdempotent` | src/services/CaptchaService.ts:248 | stripping a second time changes nothing |
| `CaptchaService.VerifyError` | src/services/CaptchaService.ts:206-227 | a status outside 2xx fails with the HTTP client's "Request failed with status code" message; a 2xx other than 200 with "Failed to verify captcha: " followed by the status, its text and the body |
| `CaptchaService.SolveImage` | src/services/CaptchaService.ts:113-125 | one provider call iff a solver is configured; success iff the solver answers and OwO confirms; no solver gives "Captcha solver is not configured." |
| `CaptchaService.SolveLink` | src/services/CaptchaService.ts:127-231 | banned fails before any provider call, even when the captcha is inactive; inactive succeeds with no provider call; a provider call happens only for an active captcha of an unbanned account; a non-200 verification fails |
| `CaptchaService.AttemptStep` | src/services/CaptchaService.ts:325-371 | at most one provider call per attempt; a message with neither attachment nor URL succeeds with none |
| `CaptchaService.Coordinator.constructor` | src/services/CaptchaService.ts:234-239 | the static state at process start, at an epoch clock reading of at least 10 s: lock free, all times 0 |
| `CaptchaService.Coordinator.AwaitLock` | src/services/CaptchaService.ts:259-266 | at most 60 one-second polls; the wait ends early exactly when the other holder releases within them |
| `CaptchaService.Coordinator.Begin` | src/services/CaptchaService.ts:276-315 | takes the lock; start time and progress stamp reset on the first attempt only; repeat iff `lastSolveTime > 0` and less than 5 min ago; the repeat warning is sent on the first attempt only |
| `CaptchaService.Coordinator.Succeed` | src/services/CaptchaService.ts:373-436 | solved count +1; the post-solve delay passes; the lock is released and `lastSolveTime` stamped at release; `captchaDetected` is cleared; farming resumes iff `autoResume` |
| `CaptchaService.Coordinator.ScheduleRetry` | src/services/CaptchaService.ts:449-494 | a still-trying notice iff more than 3 min since the start and more than 2 min since the last one; the clock advances by the retry delay |
| `CaptchaService.Coordinator.HandleCaptcha` | src/services/CaptchaService.ts:246-537 | within 10 s of the last solve: returns at once, clears `captchaDetected`, leaves the lock and contacts no provider; otherwise the lock is free again on return; success counts one solve in at most 5 − retries attempts; giving up uses all remaining attempts and counts exactly one failure; at most one provider call per attempt; exactly one final notice, and it is the last |
| `CaptchaService.Coordinator.Attempt` | src/services/CaptchaService.ts:276-496 | one attempt after the lock: 3–8 s reaction on the first attempt, then success or the failure path, with the same guarantees |
| `CaptchaService.Coordinator.AfterFailure` | src/services/CaptchaService.ts:437-536 | after a failed attempt: a later success needs at least one more attempt; at retries = 4 it gives up after this attempt, counting one failure; the lock is released on return and the final notice is last |
| `CaptchaService.InterimThenFinal` | src/services/CaptchaService.ts:297-315 | interim notices followed by one final notice end with it |
| `CaptchaService.InterimThen` | src/services/CaptchaService.ts:470-495 | interim notices before a retry keep the retry's final notice last |
| `Failover.WithTimeout` | src/services/solvers/FailoverCaptchaSolver.ts:115-128 | an answer within the limit passes unchanged; a slower one becomes the timeout error at the limit |
| `Failover.EarliestFrom` | src/services/solvers/FailoverCaptchaSolver.ts:177-178 | the earliest successful answer of a parallel round, or none iff every answer failed |
| `Failover.LatestFrom` | src/services/solvers/FailoverCaptchaSolver.ts:179-183 | the time at which the last answer of a parallel round settles |
| `Failover.PanicOutcome` | src/services/solvers/FailoverCaptchaSolver.ts:157-188 | a panic round succeeds iff some provider succeeds within 120 s, with the earliest success; otherwise it fails after the slowest one |
| `Failover.FullCircle` | src/services/solvers/FailoverCaptchaSolver.ts:98 | after a ≤ n steps from the start the cursor is back at the start iff a = n |
| `Failover.ModSucc` | src/services/solvers/FailoverCaptchaSolver.ts:40 | advancing the cursor k times is adding k modulo n |
| `Failover.RotationDistinct` | src/services/solvers/FailoverCaptchaSolver.ts:192-237 | the first n providers of a rotation are distinct |
| `Failover.RotationCovers` | src/services/solvers/FailoverCaptchaSolver.ts:192-237 | every provider comes up within n steps of a rotation |
| `Failover.FullTurn` | src/services/solvers/FailoverCaptchaSolver.ts:93-100 | a full turn tries each provider exactly once |
| `Failover.FailoverCaptchaSolver.constructor` | src/services/solvers/FailoverCaptchaSolver.ts:14-26 | a non-empty provider list; cursor 0; every failure count 0 |
| `Failover.FailoverCaptchaSolver.CurrentProviderName` | src/services/solvers/FailoverCaptchaSolver.ts:255-257 | the name at the cursor, one of the providers |
| `Failover.FailoverCaptchaSolver.ProviderNames` | src/services/solvers/FailoverCaptchaSolver.ts:262-264 | the provider names in order |
| `Failover.FailoverCaptchaSolver.SwitchToNextSolver` | src/services/solvers/FailoverCaptchaSolver.ts:38-44 | the cursor advances by one modulo n and stays in [0, n) |
| `Failover.FailoverCaptchaSolver.RecordFailure` | src/services/solvers/FailoverCaptchaSolver.ts:50-62 | switch iff the count + 1 reaches the threshold, then that count resets to 0; with threshold 1 it always switches |
| `Failover.FailoverCaptchaSolver.RecordSuccess` | src/services/solvers/FailoverCaptchaSolver.ts:67-69 | that provider's count becomes 0 |
| `Failover.FailoverCaptchaSolver.SolveImage` | src/services/solvers/FailoverCaptchaSolver.ts:74-106 | tries providers in round-robin order from the cursor, at most n calls; returns the first success unchanged and leaves the cursor on it; when all fail, each provider was tried exactly once, the cursor is back at the start and the error carries the "All providers failed for image captcha. Last error: " prefix |
| `Failover.FailoverCaptchaSolver.FailAndSwitch` | src/services/solvers/FailoverCaptchaSolver.ts:222-232 | a failed call advances the cursor by one |
| `Failover.FailoverCaptchaSolver.SequentialCall` | src/services/solvers/FailoverCaptchaSolver.ts:203-236 | one sequential call: the next provider in rotation, capped at 69 s, then the 1 s pause on failure |
| `Failover.FailoverCaptchaSolver.SequentialRound` | src/services/solvers/FailoverCaptchaSolver.ts:192-237 | the k-th attempt of a round uses provider (start + k) mod n; a round makes at least one and at most 2n attempts; the first starts at once, each next one when the previous failed plus 1 s; attempts start only before 3 min; a failed round ends 1 s after its last call, with that call's error as last error, and stops short of 2n attempts only at ≥ 3 min; it ends before 3 min + 70 s with the cursor one past the last provider tried; a success comes at the winning call's end and leaves the cursor on the provider that answered |
| `Failover.FailoverCaptchaSolver.SolveHcaptcha` | src/services/solvers/FailoverCaptchaSolver.ts:134-250 | sequential attempts rotate and all start before 3 min, at most 2n per sequential round; the first starts at 0 ms, and each next one starts when the previous one failed, plus 1 s, plus 5 s after a round of 2n; the first panic round starts when the last sequential round's pause ends, once the next sequential call would start at ≥ 3 min; each later panic round starts 5 s after the previous one settled, all before 9 min; `onPanic` fires at most once, and once iff a panic round ran; success is the last call's or last panic round's answer after all earlier ones failed, at that call's or round's end; giving up comes only after a failed panic round whose end plus 5 s is ≥ 9 min, with the hard-timeout message carrying the attempt count and the aggregate rejection as last error; the cursor ends on the provider that answered after a sequential success, else advanced once per sequential attempt |
| `Failover.FailoverCaptchaSolver.Rounds` | src/services/solvers/FailoverCaptchaSolver.ts:142-247 | the outer loop keeps the round invariant, the clock (`Clocked`), the `panicTriggered` latch and the per-round attempt bound until a round succeeds or the clock at its head is ≥ 9 min |
| `Failover.FailoverCaptchaSolver.Round` | src/services/solvers/FailoverCaptchaSolver.ts:146-247 | one pass of the outer loop: a panic round from 3 min on, else a sequential round; it keeps the round invariant and the clock, sets the latch and fires `onPanic` on the first panic round only, counts one more round of at most 2n attempts per sequential round, and time advances or the call succeeds |
| `Failover.FailoverCaptchaSolver.PanicPass` | src/services/solvers/FailoverCaptchaSolver.ts:150-189 | the panic branch: the latch and `onPanic` on the first panic round only, then a parallel round that starts on the clock and keeps it, whether it fails or succeeds |
| `Failover.FailoverCaptchaSolver.SequentialPass` | src/services/solvers/FailoverCaptchaSolver.ts:191-246 | the normal branch: a sequential round, starting on a round boundary, then the 5 s pause; the clock and last error stay as `Clocked` says |
| `Failover.FailoverCaptchaSolver.ParallelRound` | src/services/solvers/FailoverCaptchaSolver.ts:157-188 | one `Promise.any` round over every provider, started now: its outcome is `PanicOutcome` of that round, its start is recorded, and a failed round is followed by the 5 s pause |
| `Failover.HardTimeoutMessage` | src/services/solvers/FailoverCaptchaSolver.ts:249 | the message names the number of attempts |
| `Failover.RotatedExtend` | src/services/solvers/FailoverCaptchaSolver.ts:203-205 | one more attempt extends the rotation record |
| `Failover.RotatedLater` | src/services/solvers/FailoverCaptchaSolver.ts:197-201 | the rotation record stays valid as time passes |
| `Failover.NextTryAt` | src/services/solvers/FailoverCaptchaSolver.ts:212-246 | the next sequential call starts between 1 s and 75 s after the previous one, exactly its time plus 1 s inside a round |
| `Failover.PacedExtend` | src/services/solvers/FailoverCaptchaSolver.ts:196-236 | a call started when `NextTryAt` says keeps the calls paced |
| `Failover.InsideRound` | src/services/solvers/FailoverCaptchaSolver.ts:194-196 | inside a round of 2n attempts no call but the last closes the round |
| `Failover.RoundFull` | src/services/solvers/FailoverCaptchaSolver.ts:194-196 | a round of 2n attempts ends on a round boundary |
| `Failover.ClockedRoundStart` | src/services/solvers/FailoverCaptchaSolver.ts:146-196 | a sequential round starts only on a round boundary, before any panic round, at the end of the previous round's pause |
| `Failover.ClockedSequential` | src/services/solvers/FailoverCaptchaSolver.ts:239-246 | a failed sequential round and its 5 s pause keep the clock and last error |
| `Failover.ClockedPanic` | src/services/solvers/FailoverCaptchaSolver.ts:150-188 | a panic round starts when the sequential mode is over or 5 s after the previous panic round, and keeps the clock whether it fails or succeeds |
| `Failover.RoundPause` | src/services/solvers/FailoverCaptchaSolver.ts:240-246 | the pause after a round is 5 s, 2 s or none, and never runs past 9 min |
| `Failover.RoundPauseAlwaysFull` | src/services/solvers/FailoverCaptchaSolver.ts:240-246 | after any failed sequential round the pause is the full 5 s |
| `Failover.Create` | src/services/solvers/FailoverCaptchaSolver.ts:14-17 | an empty list is rejected with "[FailoverSolver] At least one solver is required"; otherwise a fresh solver at cursor 0 |
| `YesCaptcha.TaskErrorMessage` | src/services/solvers/YesCaptchaSolver.ts:114-117 | the errorId ≠ 0 message contains "Task error" |
| `YesCaptcha.Classify` | src/services/solvers/YesCaptchaSolver.ts:114-149 | ready iff errorId 0 and status "ready"; fatal iff errorId ≠ 0 or a failure mentioning "Task error"; any other request failure is retried |
| `YesCaptcha.PollTaskResult` | src/services/solvers/YesCaptchaSolver.ts:83-163 | at most 40 polls with the capped backoff; the time check passed before each; all but the last kept polling; returns the ready reply; ends on a fatal error, on a failure at attempt ≥ 39, at ≥ 120 s or after 40 polls with the source's messages |
| `YesCaptcha.PollOnce` | src/services/solvers/YesCaptchaSolver.ts:100-157 | one poll: the sleep, the request and its classification |
| `YesCaptcha.TimelineStep` | src/services/solvers/YesCaptchaSolver.ts:90-101 | a poll extends the timeline by its sleep and its request time |
| `YesCaptcha.PollDelayWindow` | src/services/solvers/YesCaptchaSolver.ts:86-149 | the poll delays never decrease and stay in [3000, 10000] |
| `YesCaptcha.SolveImage` | src/services/solvers/YesCaptchaSolver.ts:165-184 | returns `solution.text` iff errorId = 0, else the "Image-to-text task failed" error |
| `YesCaptcha.SolveHcaptcha` | src/services/solvers/YesCaptchaSolver.ts:186-214 | a creation error fails before polling, with no time spent; once the task exists it is polled exactly as `pollTaskResult` polls (its timeline and how it ended); the answer is the polling error, the "HCaptcha solution failed" error, or the token; success iff the polled reply is ready and has a solution, returning `gRecaptchaResponse` |
| `TwoCrawler.Classify` | src/services/solvers/TwoCrawlerSolver.ts:97-117 | solved iff status "su" with a non-empty solution; "su" without one counts as processing; a request failure or "fa" is a failure |
| `TwoCrawler.PollTaskResult` | src/services/solvers/TwoCrawlerSolver.ts:72-124 | at most 60 polls with the capped backoff; returns the first solution; a failure ends the loop only at attempt ≥ 59; times out at ≥ 480 s |
| `TwoCrawler.PollOnce` | src/services/solvers/TwoCrawlerSolver.ts:85-120 | one poll: the sleep, the request and its classification |
| `TwoCrawler.TimelineStep` | src/services/solvers/TwoCrawlerSolver.ts:79-86 | a poll extends the timeline by its sleep and its request time |
| `TwoCrawler.PollDelayWindow` | src/services/solvers/TwoCrawlerSolver.ts:75-119 | the poll delays never decrease and stay in [5000, 15000] |
| `TwoCrawler.ServerFailureKeepsPolling` | src/services/solvers/TwoCrawlerSolver.ts:102-117 | "fa" before attempt 59 keeps polling |
| `TwoCrawler.CreateTask` | src/services/solvers/TwoCrawlerSolver.ts:48-70 | a task id iff status 200 or 201 and a non-zero id; request errors pass through |
| `TwoCrawler.SolveImage` | src/services/solvers/TwoCrawlerSolver.ts:126-129 | always the "not supported" error |
| `TwoCrawler.SolveHcaptcha` | src/services/solvers/TwoCrawlerSolver.ts:131-144 | a creation error fails with no polling and no time spent; once the task exists it is polled exactly as `pollTaskResult` polls and its outcome is the answer; success iff creation succeeds and the last poll is solved, returning its token; at most 60 polls |
| `Polling.BackoffWindow` | src/services/solvers/YesCaptchaSolver.ts:129-132 | `min(d · factor, cap)` from an initial delay ≤ cap never decreases and stays within [initial, cap] |
| `Polling.SpentStep` | src/services/solvers/TwoCrawlerSolver.ts:85-93 | the time spent grows by the sleep and the request time of each poll |
| `Retry.Backoff` | src/utils/retry.ts:27-30 | the wait after attempt k is in [1000, 30000] |
| `Retry.BackoffGrows` | src/utils/retry.ts:27-30 | the waits grow with k |
| `Retry.Pow2Monotone` | src/utils/retry.ts:28 | 2^j ≤ 2^k for j ≤ k |
| `Retry.BackoffCapped` | src/utils/retry.ts:27-30 | from k = 5 on the wait is the 30 s cap |
| `Retry.WithRetry` | src/utils/retry.ts:13-45 | at most `maxRetries` calls, none when ≤ 0; returns the first success unchanged; every earlier call failed and was followed by `min(2^k·1000, 30000)`; no wait after the last call; the error names the attempts and the last error |
| `Retry.DelayWithJitter` | src/utils/retry.ts:54-57 | an integer in [min, max] when max ≥ min |
| `RateLimit.JobsOf` | src/utils/rateLimit.ts:74 | the jobs run, in the order they ran |
| `RateLimit.PeriodYieldsToken` | src/utils/rateLimit.ts:58-60 | waiting one refill period always yields a token |
| `RateLimit.RateLimiter.constructor` | src/utils/rateLimit.ts:19-26 | tokens start at `burstSize`; the queue is empty |
| `RateLimit.RateLimiter.RefillTokens` | src/utils/rateLimit.ts:38-47 | adds floor(elapsed / refillRate) tokens capped at `burstSize`; `lastRefill` moves only when a token is added; tokens stay in [0, burstSize] |
| `RateLimit.RateLimiter.Execute` | src/utils/rateLimit.ts:31-36 | the job is queued; when no drain is running, every queued job runs in FIFO order |
| `RateLimit.RateLimiter.ProcessQueue` | src/utils/rateLimit.ts:49-89 | returns at once, changing nothing, when a drain is running or the queue is empty; otherwise drains the queue, serving its jobs after the earlier served ones in queue order, and ends with the queue empty and the flag cleared; served jobs stay at least `minInterval` apart |
| `RateLimit.RateLimiter.DrainStep` | src/utils/rateLimit.ts:54-86 | one loop pass serves exactly the front job |
| `RateLimit.RateLimiter.TakeTurn` | src/utils/rateLimit.ts:55-62 | after refilling, and waiting a period when empty, a token is in hand |
| `RateLimit.RateLimiter.ServeFront` | src/utils/rateLimit.ts:64-85 | the front job starts no sooner than `minInterval` after the last one and consumes exactly one token |
| `RateLimit.RateLimiter.GetStatus` | src/utils/rateLimit.ts:94-101 | refills first, then reports tokens, queue length and the last request |
| `RateLimit.RateLimiter.Tick` | src/utils/rateLimit.ts:39 | the clock `Date.now()` reads moves on between calls, keeping the invariant; nothing else changes |
| `RateLimit.RateLimiter.Clear` | src/utils/rateLimit.ts:106-109 | empties the queue and changes nothing else |
| `Statistics.Fresh` | src/services/StatisticsService.ts:32-55 | every counter 0, an empty history, empty maps |
| `Statistics.Record` | src/services/StatisticsService.ts:115-120 | pushes the time and drops the oldest entry beyond 100 |
| `Statistics.SumBounds` | src/services/StatisticsService.ts:123 | the sum of n times within [lo, hi] lies in [n·lo, n·hi] |
| `Statistics.AverageWithin` | src/services/StatisticsService.ts:123-124 | the rounded average of times within [lo, hi] is within [lo, hi] |
| `Statistics.MeanWithin` | src/services/StatisticsService.ts:124 | `Math.round(sum / n)` lies within the bounds of its terms |
| `Statistics.JsRem` | src/services/StatisticsService.ts:289-290 | JavaScript's `%`: the sign follows the dividend |
| `Statistics.UptimeDecomposition` | src/services/StatisticsService.ts:287-291 | hours < 24, minutes < 60, and days, hours and minutes add up to `ms` within a minute below it |
| `Statistics.FormatUptime` | src/services/StatisticsService.ts:287-295 | exactly "Dd Hh Mm" when there is a whole day, else "Hh Mm" when there is a whole hour, else "Mm", with the floor-divided units |
| `Statistics.FormatUptimeReadsBack` | src/services/StatisticsService.ts:287-295 | reading the text back, piece by piece as count × unit, gives the uptime cut down to whole minutes: at most the uptime and less than a minute below it |
| `Statistics.StatisticsService.constructor` | src/services/StatisticsService.ts:32-55 | starts from the fresh snapshot |
| `Statistics.StatisticsService.TrackEarning` | src/services/StatisticsService.ts:85-92 | that earning kind rises by the amount; only that hour's bucket changes, earnings + amount, from {0, 0} when absent |
| `Statistics.StatisticsService.TrackCommand` | src/services/StatisticsService.ts:97-106 | total +1 and exactly one of successful/failed +1, keeping total = successful + failed; only that hour's bucket changes, commands + 1 |
| `Statistics.StatisticsService.TrackCaptcha` | src/services/StatisticsService.ts:111-129 | solved or failed +1; a non-zero time is recorded and the average becomes the rounded mean of the history; no time leaves history and average alone |
| `Statistics.StatisticsService.TrackAnimal` | src/services/StatisticsService.ts:134-137 | that animal's count +1; the others are unchanged |
| `Statistics.StatisticsService.GetStatsSummary` | src/services/StatisticsService.ts:142-150 | the snapshot with `totalRuntime` = now − start |
| `Statistics.StatisticsService.Reset` | src/services/StatisticsService.ts:334-344 | back to the fresh snapshot |
| `AutoBoss.Condition` | src/features/autoBoss.ts:87 | always runs |
| `AutoBoss.Cooldown` | src/features/autoBoss.ts:86 | 15 to 17 minutes |
| `AutoBoss.Captures` | src/features/autoBoss.ts:31-34 | each pattern's leftmost `(\d+)\s*keyword` capture |
| `AutoBoss.FirstHit` | src/features/autoBoss.ts:31-40 | the first capture above zero, in table order |
| `AutoBoss.ParseWith` | src/features/autoBoss.ts:31-42 | null iff no pattern yields a number above zero; otherwise the first such pattern gives its count × multiplier + the buffer |
| `AutoBoss.ParseReplenishTime` | src/features/autoBoss.ts:12-43 | a time it reads is at least one second plus the 60000 ms buffer |
| `AutoBoss.ReadingAtLeast` | src/features/autoBoss.ts:14-37 | with every unit at least a second, a reading is at least a second plus the buffer |
| `AutoBoss.FirstPositiveWins` | src/features/autoBoss.ts:31-39 | the first pattern with a positive number decides: n · multiplier + a buffer in [60000, 120000]; a 0 falls through |
| `AutoBoss.FirstHitIs` | src/features/autoBoss.ts:31-40 | the search stops at the first positive capture |
| `AutoBoss.DecideFirst` | src/features/autoBoss.ts:35-37 | the decision uses the first positive capture's multiplier |
| `AutoBoss.HoursTakePrecedence` | src/features/autoBoss.ts:22-27 | with no Vietnamese match, a positive hour count wins over minute, second and day |
| `AutoBoss.WrittenMissesVietnamese` | src/features/autoBoss.ts:15 | the table as written does not read "2 giờ" |
| `AutoBoss.IntendedReadsVietnamese` | src/features/autoBoss.ts:14-19 | the corrected table reads "2 giờ" as 2 h + the buffer |
| `AutoBoss.LineEnd` | src/features/autoBoss.ts:107 | the end of the line for `(.*?)(?:\n\|$)`: the first line terminator or the end |
| `AutoBoss.FirstLineMatch` | src/features/autoBoss.ts:107-108 | the leftmost position where the keyword is followed by the rest of a line ending in a newline or the end; none iff there is no such position |
| `AutoBoss.CaptureLine` | src/features/autoBoss.ts:107-108 | `match(/kw(.*?)(?:\n\|$)/i)`: null iff no position matches, else the rest of the line after the leftmost match |
| `AutoBoss.TimeInfo` | src/features/autoBoss.ts:107-109 | the trimmed capture of the "Replenishes in" line when there is one, else of the "next ticket in" line; null iff neither matches |
| `AutoBoss.Trim` | src/features/autoBoss.ts:109 | `trim()`: never longer, and neither end is whitespace |
| `AutoBoss.TrimSlice` | src/features/autoBoss.ts:109 | `trim()` keeps one slice of the text, and all it cuts off on either side is whitespace |
| `AutoBoss.TicketCooldown` | src/features/autoBoss.ts:106-123 | under a given pattern table, the parsed replenish time when the trimmed capture reads as one, else 1 h + [60000, 300000] |
| `AutoBoss.WrittenCooldownFallsBack` | src/features/autoBoss.ts:15 | a reply announcing "2 giờ" waits the one-hour default under the table as written, and the two hours plus the buffer under the corrected one |
| `AutoBoss.FirstFight` | src/features/autoBoss.ts:46-80 | the first fight button of a sequence, or none iff there is none |
| `AutoBoss.FindIn` | src/features/autoBoss.ts:47-77 | what the search returns for a component is a fight button |
| `AutoBoss.FindInList` | src/features/autoBoss.ts:46-80 | what `findFightButton` returns is a fight button |
| `AutoBoss.FirstFightAppend` | src/features/autoBoss.ts:47-78 | searching a concatenation searches the first part first |
| `AutoBoss.FirstFightCons` | src/features/autoBoss.ts:47-51 | a fight button at the head is the answer |
| `AutoBoss.FindInIsFirst` | src/features/autoBoss.ts:46-80 | `findFightButton` on a component is the first fight button in depth-first order, a section's accessory included |
| `AutoBoss.FindInListIsFirst` | src/features/autoBoss.ts:46-80 | the same for a list of components; null iff the tree has no fight button |
| `AutoBoss.Run` | src/features/autoBoss.ts:88-144 | no reply: nothing; it waits iff the reply is out of tickets, for the ticket cooldown under the given table; a reply without components: nothing; otherwise a click iff the tree has a fight button, and the click carries the id of the first fight button in visiting order |
| `AutoBoss.AfterClick` | src/features/autoBoss.ts:145-172 | a ticket cooldown iff the interaction reply says out of tickets |
| `AutoQuest.Rank` | src/features/autoQuest.ts:12-23 | each quest type has its place in the pattern table |
| `AutoQuest.RankInverse` | src/features/autoQuest.ts:12-23 | the place of the k-th type is k |
| `AutoQuest.Condition` | src/features/autoQuest.ts:63-66 | runs iff `autoQuest` |
| `AutoQuest.Cooldown` | src/features/autoQuest.ts:62 | 3 to 4 minutes |
| `AutoQuest.NumericGroups` | src/features/autoQuest.ts:45 | the all-digit groups of a match: each one is in the match, and every numeric group of the match is kept (order: `AutoQuest.NumericGroupsAppend`) |
| `AutoQuest.NumericGroupsSingle` | src/features/autoQuest.ts:45-50 | one group is kept iff it is a non-empty run of digits |
| `AutoQuest.NumericGroupsAppend` | src/features/autoQuest.ts:45-50 | the groups of a concatenation are those of each part in turn: `filter` keeps the match's order and multiplicity |
| `AutoQuest.QuestFrom` | src/features/autoQuest.ts:43-53 | a quest iff the match has at least two all-digit groups; progress and target are the last two |
| `AutoQuest.QuestsUpToRanks` | src/features/autoQuest.ts:41-55 | at most one quest per pattern |
| `AutoQuest.QuestsUpToSound` | src/features/autoQuest.ts:41-55 | every quest comes from its own pattern's match |
| `AutoQuest.QuestsInPatternOrder` | src/features/autoQuest.ts:12-23 | quests come out in pattern-table order |
| `AutoQuest.OrderedSnoc` | src/features/autoQuest.ts:47 | appending a later type keeps the order |
| `AutoQuest.QuestsComplete` | src/features/autoQuest.ts:41-55 | every pattern that yields a quest contributes it |
| `AutoQuest.ParseQuests` | src/features/autoQuest.ts:37-58 | the loop builds exactly the quests above |
| `AutoQuest.DrawAt` | src/features/autoQuest.ts:144 | draws stay in [0, 1) |
| `AutoQuest.Pick` | src/features/autoQuest.ts:144 | `Math.floor(Math.random() * n)` is an index below n |
| `AutoQuest.Actions` | src/features/autoQuest.ts:158-164 | n action commands at the admin, each a random verb |
| `AutoQuest.QuestCommandsFacts` | src/features/autoQuest.ts:119-170 | complete quests send nothing; gambling sends one coinflip or slots of 1000; action sends min(target − progress, 3) commands at the admin, and only when adminID is set; other types send nothing |
| `AutoQuest.FirstRerollable` | src/features/autoQuest.ts:98-100 | the first quest whose type is uncompletable and whose progress is 0 |
| `AutoQuest.QuestTracker.constructor` | src/features/autoQuest.ts:34-35 | no reroll date, no reroll used |
| `AutoQuest.QuestTracker.Run` | src/features/autoQuest.ts:67-176 | the date resets `rerollUsed`; a free reroll goes to the first rerollable quest, 1-indexed, and ends the run; otherwise the per-quest commands; at most one reroll a day |
| `AutoQuest.FindReroll` | src/features/autoQuest.ts:97-117 | the reroll loop finds the first rerollable quest |
| `AutoQuest.WorkAll` | src/features/autoQuest.ts:119-171 | the quest loop sends each quest's commands in order |
| `AutoQuest.Work` | src/features/autoQuest.ts:120-170 | one quest's commands |
| `AutoQuest.NoRerollInWork` | src/features/autoQuest.ts:119-171 | the quest loop never sends a reroll |
| `AutoQuest.TwoChecksOneDay` | src/features/autoQuest.ts:90-117 | two runs on the same day never both reroll |
| `AutoDaily.Condition` | src/features/autoDaily.ts:9-12 | runs iff `autoDaily` |
| `AutoDaily.DefaultCooldown` | src/features/autoDaily.ts:8 | 10 to 30 minutes |
| `AutoDaily.Cooldown` | src/features/autoDaily.ts:20-51 | no reply: 5 min; "Here is your daily", checked first: 12 h + [60000, 300000]; a wait time: (h·3600 + m·60 + s)·1000 + [60000, 180000], absent units 0; anything else 30 min |
| `AutoDaily.WaitTextShape` | src/features/autoDaily.ts:25 | where hours, minutes and seconds stand in "wait XH YM ZS" |
| `AutoDaily.ReadsHours` | src/features/autoDaily.ts:35 | `(\d+)H` reads the hour number of such a reply |
| `AutoDaily.SkipsHours` | src/features/autoDaily.ts:36-37 | the minute and second scans pass over the hour part |
| `AutoDaily.SkipsMinutes` | src/features/autoDaily.ts:37 | the second scan passes over the minute part |
| `AutoDaily.ReadsMinutes` | src/features/autoDaily.ts:36 | `(\d+)M` reads the minute number |
| `AutoDaily.ReadsSeconds` | src/features/autoDaily.ts:37 | `(\d+)S` reads the second number |
| `AutoDaily.ReadsWaitText` | src/features/autoDaily.ts:29-42 | for a reply of digit-free text without a "y", then "XH YM ZS": it is not the claim message and each unit reads back as written |
| `AutoDaily.ReadsWaitReply` | src/features/autoDaily.ts:29-46 | for such a reply, "wait 6H 33M 39S" schedules exactly that wait plus the buffer |
| `AutoChecklist.Condition` | src/features/autoChecklist.ts:17-20 | runs iff `autoDaily` |
| `AutoChecklist.Cooldown` | src/features/autoChecklist.ts:16 | 30 to 45 minutes |
| `AutoChecklist.Run` | src/features/autoChecklist.ts:21-93 | no reply: only the first "cl"; cookie iff its item is open and adminID is set, then quest, then daily, each iff open; a vote is never counted; "cl" again iff something was triggered; at most 3 triggered |
| `AutoLootbox.Condition` | src/features/autoLootbox.ts:8-10 | runs iff `autoLootbox` |
| `AutoLootbox.Cooldown` | src/features/autoLootbox.ts:7 | 2 to 3 hours |
| `AutoLootbox.HasItemIffDelimited` | src/features/autoLootbox.ts:27-29 | a code is in the backtick split iff it stands between backticks or the ends |
| `AutoLootbox.Commands` | src/features/autoLootbox.ts:22-42 | nothing without a reply; "lb fabled" iff "049" is present and `autoFabledLootbox`; "lb all" iff "050" is present; fabled first |
| `AutoEventBox.Condition` | src/features/autoEventBox.ts:8 | always runs |
| `AutoEventBox.Cooldown` | src/features/autoEventBox.ts:7 | 8 to 12 seconds |
| `AutoEventBox.HasEventBoxIffDelimited` | src/features/autoEventBox.ts:25-26 | "028" is in the backtick split iff it stands exactly between backticks or the ends |
| `AutoEventBox.Commands` | src/features/autoEventBox.ts:20-33 | "use 28" once iff a reply holds the event box, else nothing |
| `AutoCookie.Cooldown` | src/features/autoCookie.ts:7 | 12 to 13 hours |
| `AutoCookie.Condition` | src/features/autoCookie.ts:8-22 | false when `autoCookie` is off, adminID is missing, or adminID is not 17–19 ASCII digits; true otherwise |
| `AutoCookie.Classify` | src/features/autoCookie.ts:35-44 | no reply; "already sent" iff the lower-cased reply contains "already sent" or "cooldown"; any other reply is a success |
| `AutoCookie.CooldownInCapitals` | src/features/autoCookie.ts:36-37 | "COOLDOWN" anywhere is recognised too |
| `Common.Round` | src/services/StatisticsService.ts:124 | `Math.round`: within half a unit, halves rounded up |
| `Common.RanInt` | src/utils/retry.ts:55 | `floor(u·(hi − lo + 1)) + lo` is in [lo, hi] |
| `Text.NumberBefore` | src/features/autoDaily.ts:35-37 | the leftmost `(\d+)\s*kw` match, case-insensitive; none iff no position matches |
| `Text.ScanFrom` | src/features/autoBoss.ts:32 | the leftmost regex match from a position, with none before it |
| `Text.SplitMember` | src/features/autoLootbox.ts:27-29 | `split(sep).includes(w)` iff w stands between separators or the ends |
| `Text.DelimitedSplit` | src/features/autoEventBox.ts:25-26 | a delimited word is the first piece or lies in the rest of the split |
| `Text.SplitHead` | src/features/autoEventBox.ts:25 | the first piece of a split runs up to the first separator |
| `Text.Lower` | src/features/autoCookie.ts:36 | ASCII `toLowerCase`, position by position |
| `Text.NatToString` | src/services/solvers/FailoverCaptchaSolver.ts:249 | canonical decimal digits that read back as the number: one digit iff n < 10, a leading "0" only for 0 |
| `Text.NatToStringUnique` | src/services/solvers/FailoverCaptchaSolver.ts:249 | every canonical digit string is the rendering of its own value, so distinct counts render distinctly |

## Left out

- HTTP and Discord I/O are oracle values. This covers the axios requests,
  cookie jar and headers, `authorizeURL`, DMs, `awaitResponse` and its
  filters, `downloadAttachment`, `clickButton` and the notification service.
  `getPlatformForHeader` (`src/services/CaptchaService.ts:29-40`) only picks
  a request header and is not modelled.
- Notifications are assumed not to throw. The repeat warning
  (`src/services/CaptchaService.ts:297-315`) is awaited before the `try`. If
  it threw, the lock would stay held.
- The panic round's concurrency is one abstract outcome per round. This
  covers `Promise.any`, the `runWithTimeout` races and the providers running
  side by side. `Failover.PanicOutcome` gives the earliest success within
  120 s, or a failure after the slowest provider.
- Real sleeps and clocks are an abstract clock. `Math.random` and `ranInt`
  are draws in [0, 1). In the failover hCaptcha loop only provider calls and
  pauses take time; logging and bookkeeping take none.
- The rate limiter runs its queued jobs one after another on its own clock.
  Interleaving with other async code is not modelled, and the outcomes are
  not handed back to callers.
- `RateLimit.RateLimiter.constructor` requires `burstSize` ≥ 1 and
  `refillRate` ≥ 1. The source's constructor accepts any numbers.
- `Text.Lower` folds ASCII letters only; Unicode case folding (such as the
  Kelvin sign to "k") and NFC normalisation are not modelled.
- `CaptchaService.KindOf` does not apply NFC normalisation before the URL
  test. Its strip deletes control, separator and format characters as
  Unicode 15 assigns them, but keeps unassigned code points (`\p{Cn}`): that
  class changes with every Unicode version.
- Floating-point formatting in messages, the statistics report rendering,
  and stats file save/load and auto-save are left out.
- `AutoQuest.ParseQuests` takes the regex matches as given match results.
  The quest regexes themselves are not modelled.
- JavaScript number precision is not modelled. `parseInt` of very long digit
  runs is read as an exact natural number.
- Configuration flags are booleans, and string settings are optional
  strings.
- `Retry.WithRetry`: the final message carries the last error's message
  text. JavaScript renders an `Error` there as "Error: <message>".
- The AntiCaptchaTop and Captchaly wrappers are provider oracles. The
  2Captcha solver is an oracle too.

## Findings

| source | as written | input that shows it | evidently intended | confidence | as-written member | corrected member |
|---|---|---|---|---|---|---|
| src/features/autoBoss.ts:15-18 | the Vietnamese keywords are stored as their UTF-8 bytes read back as Latin-1/cp1252 ("giá»", "phÃºt", "giÃ¢y", "ngÃ y"), the same way the file's log emojis are mangled, so no Vietnamese reply text can match them | "2 giờ" | "giờ", "phút", "giây", "ngày" matched as written | not executed | AutoBoss.WrittenMissesVietnamese | AutoBoss.IntendedReadsVietnamese |

`AutoBoss.WrittenMissesVietnamese` models the table as written
(`AutoBoss.ParseReplenishTimeAsWritten`). `AutoBoss.IntendedReadsVietnamese`
is proved about the corrected table (`AutoBoss.ParseReplenishTime`).
`AutoBoss.TicketCooldown`, `AutoBoss.Run` and `AutoBoss.AfterClick` take the
table as a parameter: the code as written is `AutoBoss.WrittenPatterns`, the
intended one `AutoBoss.Patterns`. `AutoBoss.WrittenCooldownFallsBack` carries
the finding up to the cooldown: as written, such a reply waits the one-hour
default. The finding assumes Discord delivers the words
precomposed (NFC).

=== FILE: auto_boss.dfy ===
/** The guild-boss feature: read the replenish time out of an out-of-tickets
    reply, and find the "fight" button anywhere in a message's component tree.
    Random draws are parameters in [0, 1). */
module AutoBoss {
  import opened Common
  import opened Text

  const SecondMs: nat := 1000
  const MinuteMs: nat := 60 * 1000
  const HourMs: nat := 60 * 60 * 1000
  const DayMs: nat := 24 * 60 * 60 * 1000

  /** The feature always runs. */
  function Condition(config: Config): (run: bool)
    ensures run
  {
    true
  }

  /** Fifteen to seventeen minutes between checks. */
  function Cooldown(u: real): (ms: int)
    requires 0.0 <= u < 1.0
    ensures 15 * MinuteMs <= ms <= 17 * MinuteMs
  {
    RanInt(15 * 60 * 1000, 17 * 60 * 1000, u)
  }

  // ------------------------------------------------------ replenish times

  /** One `(\d+)\s*keyword` expression (case-insensitive) and its unit. */
  datatype Pattern = Pattern(keyword: string, multiplier: nat)

  /** The table as the source file writes it: the Vietnamese keywords "giờ",
      "phút", "giây" and "ngày" spelled as their UTF-8 bytes read back as
      single-byte characters, then hour, minute, second and day in English. */
  const WrittenPatterns: seq<Pattern> := [
    Pattern("gi\U{00E1}\U{00BB}", HourMs),
    Pattern("ph\U{00C3}\U{00BA}t", MinuteMs),
    Pattern("gi\U{00C3}\U{00A2}y", SecondMs),
    Pattern("ng\U{00C3}\U{00A0}y", DayMs),
    Pattern("hour", HourMs),
    Pattern("minute", MinuteMs),
    Pattern("second", SecondMs),
    Pattern("day", DayMs)]

  /** The same table with the Vietnamese keywords spelled as the words. */
  const Patterns: seq<Pattern> := [
    Pattern("gi\U{1EDD}", HourMs),
    Pattern("ph\U{00FA}t", MinuteMs),
    Pattern("gi\U{00E2}y", SecondMs),
    Pattern("ng\U{00E0}y", DayMs),
    Pattern("hour", HourMs),
    Pattern("minute", MinuteMs),
    Pattern("second", SecondMs),
    Pattern("day", DayMs)]

  /** A capture above zero. */
  predicate PositiveCount(c: Option<nat>)
  {
    c.Some? && c.value > 0
  }

  /** The expression's leftmost match captures a number above zero. */
  predicate Positive(text: string, p: Pattern)
  {
    PositiveCount(NumberBefore(text, p.keyword, true))
  }

  /** What each expression of the table captures in `text`. */
  function Captures(text: string, patterns: seq<Pattern>): (cs: seq<Option<nat>>)
    ensures |cs| == |patterns|
    ensures forall j :: 0 <= j < |patterns| ==> cs[j] == NumberBefore(text, patterns[j].keyword, true)
  {
    seq(|patterns|, j requires 0 <= j < |patterns| => NumberBefore(text, patterns[j].keyword, true))
  }

  /** The first capture, from `from` on, above zero. */
  function FirstHit(cs: seq<Option<nat>>, from: nat): (k: Option<nat>)
    requires from <= |cs|
    ensures k.Some? ==> from <= k.value < |cs| && PositiveCount(cs[k.value])
    ensures k.Some? ==> forall j :: from <= j < k.value ==> !PositiveCount(cs[j])
    ensures k.None? ==> forall j :: from <= j < |cs| ==> !PositiveCount(cs[j])
    decreases |cs| - from
  {
    if from == |cs| then None
    else if PositiveCount(cs[from]) then Some(from)
    else FirstHit(cs, from + 1)
  }

  /** `parseReplenishTime` over a pattern table: the first pattern yielding a
      positive number gives that many units plus a one-to-two-minute buffer;
      a match of zero falls through to the next pattern; no hit gives `None`. */
  function ParseWith(text: string, patterns: seq<Pattern>, u: real): (r: Option<nat>)
    requires 0.0 <= u < 1.0
    ensures r.None? <==> forall j :: 0 <= j < |patterns| ==> !Positive(text, patterns[j])
    ensures r.Some? ==> exists k: nat :: DecidedBy(text, patterns, k) && r.value == Reading(text, patterns[k], u)
  {
    var cs := Captures(text, patterns);
    var hit := FirstHit(cs, 0);
    assert hit.Some? ==> DecidedBy(text, patterns, hit.value);
    Decide(cs, patterns, u)
  }

  /** Pattern `k` is the first of the table whose match captures a number
      above zero. */
  predicate DecidedBy(text: string, patterns: seq<Pattern>, k: nat)
  {
    k < |patterns| && Positive(text, patterns[k]) && forall j :: 0 <= j < k ==> !Positive(text, patterns[j])
  }

  /** The time a matching pattern reads: its count in its unit plus the
      one-to-two-minute buffer. */
  function Reading(text: string, p: Pattern, u: real): int
    requires 0.0 <= u < 1.0 && Positive(text, p)
  {
    NumberBefore(text, p.keyword, true).value * p.multiplier + RanInt(60000, 120000, u)
  }

  /** With every unit at least a second, a reading is at least a second plus
      the one-minute buffer. */
  lemma ReadingAtLeast(text: string, patterns: seq<Pattern>, u: real)
    requires 0.0 <= u < 1.0
    requires forall j :: 0 <= j < |patterns| ==> patterns[j].multiplier >= SecondMs
    ensures ParseWith(text, patterns, u).Some? ==> SecondMs + 60000 <= ParseWith(text, patterns, u).value
  {
    if ParseWith(text, patterns, u).Some? {
      var k: nat :| DecidedBy(text, patterns, k) && ParseWith(text, patterns, u).value == Reading(text, patterns[k], u);
      ReadingBound(text, patterns[k], u);
    }
  }

  /** One reading in a unit of at least a second. */
  lemma ReadingBound(text: string, p: Pattern, u: real)
    requires 0.0 <= u < 1.0 && Positive(text, p) && p.multiplier >= SecondMs
    ensures SecondMs + 60000 <= Reading(text, p, u)
  {
    var n := NumberBefore(text, p.keyword, true).value;
    assert n >= 1;
    AtLeastOnce(n, p.multiplier);
  }

  lemma AtLeastOnce(n: nat, m: nat)
    requires n >= 1
    ensures n * m >= m
  {
  }

  /** The decision on the captures: the first one above zero, in its unit. */
  function Decide(cs: seq<Option<nat>>, patterns: seq<Pattern>, u: real): Option<nat>
    requires 0.0 <= u < 1.0 && |cs| == |patterns|
  {
    match FirstHit(cs, 0)
    case None => None
    case Some(k) => Some(cs[k].value * patterns[k].multiplier + RanInt(60000, 120000, u))
  }

  /** `parseReplenishTime` as the source file writes it. */
  function ParseReplenishTimeAsWritten(text: string, u: real): Option<nat>
    requires 0.0 <= u < 1.0
  {
    ParseWith(text, WrittenPatterns, u)
  }

  /** `parseReplenishTime` with the Vietnamese keywords spelled as words: a
      time it reads is at least a second plus the one-minute buffer. */
  function ParseReplenishTime(text: string, u: real): (r: Option<nat>)
    requires 0.0 <= u < 1.0
    ensures r.Some? ==> SecondMs + 60000 <= r.value
  {
    ReadingAtLeast(text, Patterns, u);
    ParseWith(text, Patterns, u)
  }

  /** As written, a Vietnamese time such as "2 giờ" is not recognised: the
      garbled keywords never occur in real text, and no English one matches. */
  lemma WrittenMissesVietnamese(u: real)
    requires 0.0 <= u < 1.0
    ensures ParseReplenishTimeAsWritten("2 gi\U{1EDD}", u).None?
  {
    var s := "2 gi\U{1EDD}";
    assert DigitRunEnd(s, 0) == 1 && SpaceRunEnd(s, 1) == 2;
    forall j | 0 <= j < 8
      ensures !Positive(s, WrittenPatterns[j])
    {
      var kw := WrittenPatterns[j].keyword;
      assert !KeywordAt(s, 2, kw) by {
        if j == 7 {
          assert LowerChar(s[2]) != LowerChar(kw[0]);
        } else {
          assert |kw| > 3;
        }
      }
      forall q | 0 <= q < |s|
        ensures !MatchAt(s, q, kw, true)
      {
      }
    }
  }

  /** With the keywords spelled as words, "2 giờ" reads as two hours plus the
      buffer. */
  lemma IntendedReadsVietnamese(u: real)
    requires 0.0 <= u < 1.0
    ensures ParseReplenishTime("2 gi\U{1EDD}", u) == Some(2 * HourMs + RanInt(60000, 120000, u))
  {
    var s := "2 gi\U{1EDD}";
    assert DigitRunEnd(s, 0) == 1 && SpaceRunEnd(s, 1) == 2;
    assert KeywordAt(s, 2, "gi\U{1EDD}");
    assert ScanFrom(s, "gi\U{1EDD}", true, 0) == Some(0);
    assert s[0..1] == "2";
    assert NumberBefore(s, Patterns[0].keyword, true) == Some(2);
    FirstPositiveWins(s, Patterns, u, 0);
  }

  /** A capture above zero with none before it is the first hit. */
  lemma {:induction false} FirstHitIs(cs: seq<Option<nat>>, from: nat, k: nat)
    requires from <= k < |cs| && PositiveCount(cs[k])
    requires forall j :: from <= j < k ==> !PositiveCount(cs[j])
    ensures FirstHit(cs, from) == Some(k)
    decreases k - from
  {
    if from < k {
      FirstHitIs(cs, from + 1, k);
    }
  }

  /** The table is an order of precedence: the first pattern whose match
      captures a positive number decides the time, whatever the later ones
      would read; a zero or a missing match passes the turn to the next. */
  lemma FirstPositiveWins(text: string, patterns: seq<Pattern>, u: real, k: nat)
    requires 0.0 <= u < 1.0
    requires k < |patterns| && Positive(text, patterns[k])
    requires forall j :: 0 <= j < k ==> !Positive(text, patterns[j])
    ensures ParseWith(text, patterns, u)
      == Some(NumberBefore(text, patterns[k].keyword, true).value * patterns[k].multiplier + RanInt(60000, 120000, u))
  {
    var cs := Captures(text, patterns);
    forall j | 0 <= j < k
      ensures !PositiveCount(cs[j])
    {
      assert !Positive(text, patterns[j]);
    }
    assert PositiveCount(cs[k]);
    DecideFirst(cs, patterns, u, k);
  }

  /** An hour count in English wins over any minute, second or day count in
      the same text when no Vietnamese unit is present. */
  lemma HoursTakePrecedence(text: string, u: real)
    requires 0.0 <= u < 1.0
    requires Positive(text, Pattern("hour", HourMs))
    requires forall k :: 0 <= k < 4 ==> !Positive(text, Patterns[k])
    ensures ParseReplenishTime(text, u)
      == Some(NumberBefore(text, "hour", true).value * HourMs + RanInt(60000, 120000, u))
  {
    assert Patterns[4] == Pattern("hour", HourMs);
    FirstPositiveWins(text, Patterns, u, 4);
  }

  /** The decision once the first capture above zero is known. */
  lemma DecideFirst(cs: seq<Option<nat>>, patterns: seq<Pattern>, u: real, k: nat)
    requires 0.0 <= u < 1.0 && |cs| == |patterns|
    requires k < |cs| && PositiveCount(cs[k])
    requires forall j :: 0 <= j < k ==> !PositiveCount(cs[j])
    ensures Decide(cs, patterns, u) == Some(cs[k].value * patterns[k].multiplier + RanInt(60000, 120000, u))
  {
    FirstHitIs(cs, 0, k);
  }

  // ----------------------------------------------------- out of tickets

  /** Index just past the line that starts at `i`: the first line terminator
      at or after `i`, or the end. */
  function LineEnd(s: string, i: nat): (j: nat)
    requires i <= |s|
    ensures i <= j <= |s|
    ensures j < |s| ==> s[j] in {'\n', '\r', '\U{2028}', '\U{2029}'}
    ensures forall k :: i <= k < j ==> s[k] !in {'\n', '\r', '\U{2028}', '\U{2029}'}
    decreases |s| - i
  {
    if i == |s| || s[i] in {'\n', '\r', '\U{2028}', '\U{2029}'} then i else LineEnd(s, i + 1)
  }

  /** `/kw(.*?)(?:\n|$)/i` matches at `k`: the keyword is there, and the
      rest of its line, which `.` cannot leave, ends in a newline or the end
      of the text. */
  predicate LineMatchAt(s: string, kw: string, k: nat)
  {
    k < |s| && KeywordAt(s, k, kw) && (LineEnd(s, k + |kw|) == |s| || s[LineEnd(s, k + |kw|)] == '\n')
  }

  /** Where the leftmost match of `/kw(.*?)(?:\n|$)/i` from `i` on starts. */
  function FirstLineMatch(s: string, kw: string, i: nat): (k: Option<nat>)
    requires i <= |s|
    ensures k.Some? ==> i <= k.value < |s| && LineMatchAt(s, kw, k.value)
    ensures k.Some? ==> forall q :: i <= q < k.value ==> !LineMatchAt(s, kw, q)
    ensures k.None? ==> forall q :: i <= q < |s| ==> !LineMatchAt(s, kw, q)
    decreases |s| - i
  {
    if i == |s| then None
    else if LineMatchAt(s, kw, i) then Some(i)
    else FirstLineMatch(s, kw, i + 1)
  }

  /** The match at `k` is the leftmost one in `s`. */
  predicate LeftmostLineMatch(s: string, kw: string, k: nat)
  {
    k < |s| && LineMatchAt(s, kw, k) && forall q :: 0 <= q < k ==> !LineMatchAt(s, kw, q)
  }

  /** The capture of `/kw(.*?)(?:\n|$)/i`: the rest of the line after the
      leftmost keyword whose line ends in a newline or the end, or nothing
      when there is no such keyword. */
  function CaptureLine(s: string, kw: string): (r: Option<string>)
    ensures r.None? <==> forall k :: 0 <= k < |s| ==> !LineMatchAt(s, kw, k)
    ensures r.Some? ==> exists k: nat :: LeftmostLineMatch(s, kw, k) && r.value == s[k + |kw|..LineEnd(s, k + |kw|)]
  {
    match FirstLineMatch(s, kw, 0)
    case None => None
    case Some(k) =>
      assert LeftmostLineMatch(s, kw, k);
      Some(s[k + |kw|..LineEnd(s, k + |kw|)])
  }

  /** `String.prototype.trim`. */
  function Trim(s: string): (r: string)
    ensures |r| <= |s|
    ensures |r| > 0 ==> !IsJsSpace(r[0]) && !IsJsSpace(r[|r| - 1])
    decreases |s|
  {
    if |s| == 0 then s
    else if IsJsSpace(s[0]) then Trim(s[1..])
    else if IsJsSpace(s[|s| - 1]) then Trim(s[..|s| - 1])
    else s
  }

  /** `trim()` keeps exactly the slice between the whitespace it strips: all
      that goes before `i` and from `j` on is whitespace, and with the ends
      of `Trim` not whitespace the slice is the largest such one. */
  lemma {:induction false} TrimSlice(s: string) returns (i: nat, j: nat)
    ensures i <= j <= |s| && Trim(s) == s[i..j]
    ensures forall k :: 0 <= k < i ==> IsJsSpace(s[k])
    ensures forall k :: j <= k < |s| ==> IsJsSpace(s[k])
    decreases |s|
  {
    if |s| == 0 {
      i, j := 0, 0;
    } else if IsJsSpace(s[0]) {
      var i', j' := TrimSlice(s[1..]);
      i, j := i' + 1, j' + 1;
      assert s[1..][i'..j'] == s[i..j];
      forall k | 0 <= k < i ensures IsJsSpace(s[k]) {
        if k > 0 { assert s[k] == s[1..][k - 1]; }
      }
      forall k | j <= k < |s| ensures IsJsSpace(s[k]) {
        assert s[k] == s[1..][k - 1];
      }
    } else if IsJsSpace(s[|s| - 1]) {
      var t := s[..|s| - 1];
      i, j := TrimSlice(t);
      assert t[i..j] == s[i..j];
      forall k | j <= k < |s| ensures IsJsSpace(s[k]) {
        if k < |s| - 1 { assert s[k] == t[k]; }
      }
    } else {
      i, j := 0, |s|;
    }
  }

  /** The reply says the boss tickets have run out. */
  predicate OutOfTickets(content: string)
  {
    Contains(Lower(content), "ran out of boss tickets") || Contains(Lower(content), "don't have any boss tickets")
  }

  /** The two phrases that introduce a replenish time. */
  const ReplenishesIn := "replenishes in "
  const NextTicketIn := "next ticket in "

  /** The replenish time the reply announces, trimmed, if any: the
      "replenishes in" line wins over the "next ticket in" one. */
  function TimeInfo(content: string): (r: Option<string>)
    ensures r.None? <==> forall k :: 0 <= k < |content| ==>
      !LineMatchAt(content, ReplenishesIn, k) && !LineMatchAt(content, NextTicketIn, k)
    ensures CaptureLine(content, ReplenishesIn).Some? ==>
      r == Some(Trim(CaptureLine(content, ReplenishesIn).value))
    ensures CaptureLine(content, ReplenishesIn).None? && CaptureLine(content, NextTicketIn).Some? ==>
      r == Some(Trim(CaptureLine(content, NextTicketIn).value))
  {
    var m := CaptureLine(content, ReplenishesIn);
    var m' := if m.Some? then m else CaptureLine(content, NextTicketIn);
    if m'.Some? then Some(Trim(m'.value)) else None
  }

  /** The cooldown for an out-of-tickets reply, reading times with the given
      pattern table: the parsed replenish time, or an hour plus one to five
      minutes when none can be read. */
  function TicketCooldown(content: string, patterns: seq<Pattern>, u: real, v: real): (ms: nat)
    requires 0.0 <= u < 1.0 && 0.0 <= v < 1.0
    ensures var t := TimeInfo(content);
      if t.Some? && t.value != "" && ParseWith(t.value, patterns, u).Some? then ms == ParseWith(t.value, patterns, u).value
      else HourMs + 60000 <= ms <= HourMs + 300000
  {
    var t := TimeInfo(content);
    if t.Some? && t.value != "" && ParseWith(t.value, patterns, u).Some? then ParseWith(t.value, patterns, u).value
    else HourMs + RanInt(60000, 300000, v)
  }

  /** An out-of-tickets reply announcing "2 giờ": the table as written falls
      back to the one-hour default, the corrected one waits the two hours. */
  lemma WrittenCooldownFallsBack(content: string, u: real, v: real)
    requires 0.0 <= u < 1.0 && 0.0 <= v < 1.0
    requires TimeInfo(content) == Some("2 gi\U{1EDD}")
    ensures HourMs + 60000 <= TicketCooldown(content, WrittenPatterns, u, v) <= HourMs + 300000
    ensures TicketCooldown(content, Patterns, u, v) == 2 * HourMs + RanInt(60000, 120000, u)
  {
    WrittenMissesVietnamese(u);
    IntendedReadsVietnamese(u);
  }

  // ------------------------------------------------------ the fight button

  /** A message component: its type, custom id, nested components and
      accessory. A component without a components array has no nested ones:
      searching an absent array and an empty one both find nothing. */
  datatype Component = Component(
    kind: string,
    customId: Option<string>,
    children: seq<Component>,
    accessory: Option<Component>)

  /** A button whose lower-cased custom id contains "fight". */
  predicate IsFight(c: Component)
  {
    c.kind == "BUTTON" && c.customId.Some? && Contains(Lower(c.customId.value), "fight")
  }

  /** `findFightButton` over a list: the first component, in order, holding a
      fight button. */
  function FindInList(cs: seq<Component>): (r: Option<Component>)
    ensures r.Some? ==> IsFight(r.value)
    decreases cs, 1
  {
    if |cs| == 0 then None
    else
      var here := FindIn(cs[0]);
      if here.Some? then here else FindInList(cs[1..])
  }

  /** One component: the component itself when it is a fight button; else its
      nested components (the typed checks and the generic one search the same
      array); else, for a section, its accessory when that is a fight button. */
  function FindIn(c: Component): (r: Option<Component>)
    ensures r.Some? ==> IsFight(r.value)
    decreases c, 0
  {
    if IsFight(c) then Some(c)
    else
      var nested := FindInList(c.children);
      if nested.Some? then nested
      else if c.kind == "SECTION" && c.accessory.Some? && IsFight(c.accessory.value) then c.accessory
      else None
  }

  /** The components in the order the search visits them: each component,
      then its nested ones, then a section's accessory. */
  function Visit(c: Component): seq<Component>
    decreases c, 0
  {
    [c] + VisitList(c.children)
    + (if c.kind == "SECTION" && c.accessory.Some? then [c.accessory.value] else [])
  }

  function VisitList(cs: seq<Component>): seq<Component>
    decreases cs, 1
  {
    if |cs| == 0 then [] else Visit(cs[0]) + VisitList(cs[1..])
  }

  /** The first fight button in a sequence. */
  function FirstFight(xs: seq<Component>): (r: Option<Component>)
    ensures r.Some? ==> IsFight(r.value) && r.value in xs
    ensures r.None? <==> forall x :: x in xs ==> !IsFight(x)
  {
    if |xs| == 0 then None
    else if IsFight(xs[0]) then Some(xs[0])
    else FirstFight(xs[1..])
  }

  lemma {:induction false} FirstFightAppend(xs: seq<Component>, ys: seq<Component>)
    ensures FirstFight(xs + ys) == if FirstFight(xs).Some? then FirstFight(xs) else FirstFight(ys)
  {
    if |xs| > 0 {
      assert (xs + ys)[1..] == xs[1..] + ys;
      FirstFightAppend(xs[1..], ys);
    } else {
      assert xs + ys == ys;
    }
  }

  /** The recursive search returns exactly the first fight button in visiting
      order: in particular it finds one whenever the tree holds one the order
      reaches, and `None` only when there is none. */
  lemma {:induction false} FindInIsFirst(c: Component)
    ensures FindIn(c) == FirstFight(Visit(c))
    decreases c, 0
  {
    var kids := VisitList(c.children);
    var acc := if c.kind == "SECTION" && c.accessory.Some? then [c.accessory.value] else [];
    assert Visit(c) == [c] + (kids + acc);
    FirstFightCons(c, kids + acc);
    FindInListIsFirst(c.children);
    FirstFightAppend(kids, acc);
    if acc != [] {
      FirstFightCons(c.accessory.value, []);
      assert acc == [c.accessory.value] + [];
    }
  }

  lemma FirstFightCons(x: Component, xs: seq<Component>)
    ensures FirstFight([x] + xs) == if IsFight(x) then Some(x) else FirstFight(xs)
  {
    assert ([x] + xs)[0] == x && ([x] + xs)[1..] == xs;
  }

  lemma {:induction false} FindInListIsFirst(cs: seq<Component>)
    ensures FindInList(cs) == FirstFight(VisitList(cs))
    decreases cs, 1
  {
    if |cs| > 0 {
      FindInIsFirst(cs[0]);
      FindInListIsFirst(cs[1..]);
      FirstFightAppend(Visit(cs[0]), VisitList(cs[1..]));
    }
  }

  // ----------------------------------------------------------- the run

  /** What a boss check does: nothing, wait a cooldown, or click a button. */
  datatype BossAction = NoAction | WaitFor(ms: nat) | Click(customId: string)

  /** The boss message as received: its text and component rows. */
  datatype BossMessage = BossMessage(content: string, components: seq<Component>)

  /** `run`, up to the click: no reply does nothing; an out-of-tickets reply
      waits its cooldown; a reply without components does nothing; otherwise
      the fight button, if found, is clicked. */
  function Run(reply: Option<BossMessage>, patterns: seq<Pattern>, u: real, v: real): (a: BossAction)
    requires 0.0 <= u < 1.0 && 0.0 <= v < 1.0
    ensures reply.None? ==> a == NoAction
    ensures reply.Some? && OutOfTickets(reply.value.content) ==>
      a == WaitFor(TicketCooldown(reply.value.content, patterns, u, v))
    ensures a.WaitFor? ==> reply.Some? && OutOfTickets(reply.value.content)
    ensures reply.Some? && !OutOfTickets(reply.value.content) && |reply.value.components| == 0 ==> a == NoAction
    ensures a.Click? ==> (reply.Some? && !OutOfTickets(reply.value.content)
      && FirstFight(VisitList(reply.value.components)).Some?
      && FirstFight(VisitList(reply.value.components)).value.customId == Some(a.customId))
    ensures reply.Some? && !OutOfTickets(reply.value.content) && |reply.value.components| > 0 ==>
      (a.Click? <==> exists b :: b in VisitList(reply.value.components) && IsFight(b))
  {
    match reply
    case None => NoAction
    case Some(m) =>
      if OutOfTickets(m.content) then WaitFor(TicketCooldown(m.content, patterns, u, v))
      else if |m.components| == 0 then NoAction
      else
        FindInListIsFirst(m.components);
        var button := FindInList(m.components);
        if button.None? || button.value.customId.None? || button.value.customId.value == "" then NoAction
        else Click(button.value.customId.value)
  }

  /** After the click: an interaction reply that says the tickets ran out
      waits its cooldown; any other outcome (no reply, a refused click) does
      nothing. */
  function AfterClick(interaction: Option<string>, patterns: seq<Pattern>, u: real, v: real): (a: BossAction)
    requires 0.0 <= u < 1.0 && 0.0 <= v < 1.0
    ensures a.WaitFor? <==> interaction.Some? && OutOfTickets(interaction.value)
    ensures a.WaitFor? ==> a.ms == TicketCooldown(interaction.value, patterns, u, v)
    ensures !a.Click?
  {
    if interaction.Some? && OutOfTickets(interaction.value) then WaitFor(TicketCooldown(interaction.value, patterns, u, v))
    else NoAction
  }
}

=== FILE: auto_checklist.dfy ===
/** The checklist feature: read OwO's checklist and trigger the cookie, quest
    and daily items it reports as still open. */
module AutoChecklist {
  import opened Common
  import opened Text

  /** The feature runs iff daily claiming is switched on. */
  function Condition(config: Config): (run: bool)
    ensures run <==> config.autoDaily
  {
    config.autoDaily
  }

  /** 30 to 45 minutes between checks. */
  function Cooldown(u: real): (ms: int)
    requires 0.0 <= u < 1.0
    ensures 30 * 60 * 1000 <= ms <= 45 * 60 * 1000
  {
    RanInt(30 * 60 * 1000, 45 * 60 * 1000, u)
  }

  /** The checklist reply: the first embed's description, if any, and the
      message text. */
  datatype ChecklistReply = ChecklistReply(description: Option<string>, content: string)

  /** The text the patterns are tested on: a non-empty description wins over
      the message text. */
  function TextOf(reply: ChecklistReply): string
  {
    if Truthy(reply.description) then reply.description.value else reply.content
  }

  predicate CookieOpen(c: string) { ContainsIgnoreCase(c, "You can still send a cookie") }
  predicate QuestOpen(c: string) { ContainsIgnoreCase(c, "You can still claim a quest") }
  predicate DailyOpen(c: string) { ContainsIgnoreCase(c, "You haven't claimed your daily") }
  predicate VoteOpen(c: string) { ContainsIgnoreCase(c, "You can claim your vote") }

  /** A cookie is due: the item is open and there is someone to send it to. */
  predicate CookieDue(c: string, adminID: Option<string>)
  {
    CookieOpen(c) && Truthy(adminID)
  }

  function CookieCommand(adminID: string): string
  {
    "cookie <@" + adminID + ">"
  }

  /** `run`: ask for the checklist ("cl"); without a reply nothing else is
      sent. Otherwise send the cookie (only with an admin to send it to), the
      quest and the daily commands for the open items, in that order, counting
      each; an open vote is only reported. When anything was triggered the
      checklist is asked for once more. */
  method Run(reply: Option<ChecklistReply>, adminID: Option<string>) returns (sent: seq<string>, tasksTriggered: nat)
    ensures reply.None? ==> sent == ["cl"] && tasksTriggered == 0
    ensures reply.Some? ==>
      var c := TextOf(reply.value);
      tasksTriggered == (if CookieDue(c, adminID) then 1 else 0) + (if QuestOpen(c) then 1 else 0)
        + (if DailyOpen(c) then 1 else 0)
      && sent == ["cl"]
        + (if CookieDue(c, adminID) then [CookieCommand(adminID.value)] else [])
        + (if QuestOpen(c) then ["quest"] else [])
        + (if DailyOpen(c) then ["daily"] else [])
        + (if tasksTriggered > 0 then ["cl"] else [])
    ensures tasksTriggered <= 3
    // the checklist is asked for a second time iff something was triggered
    ensures (|sent| > 1 && sent[|sent| - 1] == "cl") <==> tasksTriggered > 0
    ensures |sent| == 1 + tasksTriggered + (if tasksTriggered > 0 then 1 else 0)
  {
    sent := ["cl"];
    tasksTriggered := 0;
    if reply.None? {
      return;
    }
    var c := TextOf(reply.value);
    if CookieOpen(c) {
      if Truthy(adminID) {
        sent := sent + [CookieCommand(adminID.value)];
        tasksTriggered := tasksTriggered + 1;
      }
    }
    if QuestOpen(c) {
      sent := sent + ["quest"];
      tasksTriggered := tasksTriggered + 1;
    }
    if DailyOpen(c) {
      sent := sent + ["daily"];
      tasksTriggered := tasksTriggered + 1;
    }
    if tasksTriggered > 0 {
      sent := sent + ["cl"];
    } else {
      assert sent == ["cl"];
    }
  }
}

=== FILE: auto_cookie.dfy ===
/** The cookie feature: send the daily cookie to the configured admin and
    classify OwO's answer. */
module AutoCookie {
  import opened Common
  import opened Text

  /** Twelve to thirteen hours between cookies. */
  function Cooldown(u: real): (ms: int)
    requires 0.0 <= u < 1.0
    ensures 12 * 60 * 60 * 1000 <= ms <= 13 * 60 * 60 * 1000
  {
    RanInt(12 * 60 * 60 * 1000, 13 * 60 * 60 * 1000, u)
  }

  /** `/^\d{17,19}$/`: a Discord snowflake of 17 to 19 ASCII digits. */
  predicate IsSnowflake(id: string)
  {
    17 <= |id| <= 19 && AllDigits(id)
  }

  /** The feature runs iff cookies are switched on and the admin id is set
      and is a snowflake. */
  function Condition(config: Config): (run: bool)
    ensures !config.autoCookie ==> !run
    ensures !Truthy(config.adminID) ==> !run
    ensures config.adminID.Some? && !IsSnowflake(config.adminID.value) ==> !run
    ensures config.autoCookie && config.adminID.Some? && IsSnowflake(config.adminID.value) ==> run
  {
    if !config.autoCookie then false
    else if !Truthy(config.adminID) then false
    else IsSnowflake(config.adminID.value)
  }

  function CookieCommand(adminID: string): string
  {
    "cookie <@" + adminID + ">"
  }

  datatype CookieOutcome = NoResponse | AlreadySent | Sent

  /** The answer to the cookie command: "already sent" or "cooldown" in any
      letter case means today's cookie was already given; any other answer
      means it was sent. */
  function Classify(response: Option<string>): (o: CookieOutcome)
    ensures o == NoResponse <==> response.None?
    ensures o == AlreadySent <==> (response.Some?
      && (Contains(Lower(response.value), "already sent") || Contains(Lower(response.value), "cooldown")))
  {
    match response
    case None => NoResponse
    case Some(content) =>
      if Contains(Lower(content), "already sent") || Contains(Lower(content), "cooldown") then AlreadySent else Sent
  }

  /** Whatever precedes or follows it, a reply mentioning the cooldown in
      capitals is classed as already sent. */
  lemma CooldownInCapitals(pre: string, post: string)
    ensures Classify(Some(pre + "COOLDOWN" + post)) == AlreadySent
  {
    var s := pre + "COOLDOWN" + post;
    var l := Lower(s);
    assert l[|pre|..|pre| + 8] == "cooldown" by {
      forall k | 0 <= k < 8 ensures l[|pre| + k] == "cooldown"[k] {
        assert s[|pre| + k] == "COOLDOWN"[k];
      }
    }
    assert OccursAt(l, "cooldown", |pre|);
  }
}

=== FILE: auto_daily.dfy ===
/** The daily-reward feature: claim the daily and schedule the next try from
    OwO's reply. Random draws are parameters in [0, 1). */
module AutoDaily {
  import opened Common
  import opened Text

  const MinuteMs: nat := 60 * 1000
  const HourMs: nat := 60 * 60 * 1000

  /** The feature runs iff daily claiming is switched on. */
  function Condition(config: Config): (run: bool)
    ensures run <==> config.autoDaily
  {
    config.autoDaily
  }

  /** The default cooldown, before a reply overrides it: 10 to 30 minutes. */
  function DefaultCooldown(u: real): (ms: int)
    requires 0.0 <= u < 1.0
    ensures 10 * MinuteMs <= ms <= 30 * MinuteMs
  {
    RanInt(10 * MinuteMs, 30 * MinuteMs, u)
  }

  /** `(\d+)H`, `(\d+)M` and `(\d+)S`, case-insensitive, read as 0 when absent. */
  function UnitValue(content: string, unit: string): nat
  {
    var n := NumberBefore(content, unit, false);
    if n.Some? then n.value else 0
  }

  /** Some unit of "wait XH YM ZS" is present. */
  predicate HasWaitTime(content: string)
  {
    NumberBefore(content, "H", false).Some? || NumberBefore(content, "M", false).Some?
    || NumberBefore(content, "S", false).Some?
  }

  /** The wait the reply announces, in milliseconds. */
  function WaitMs(content: string): nat
  {
    (UnitValue(content, "H") * 3600 + UnitValue(content, "M") * 60 + UnitValue(content, "S")) * 1000
  }

  /** `run`'s cooldown: five minutes when OwO does not answer; twelve hours
      plus one to five minutes after a successful claim, which is checked
      before any time is parsed; the announced wait plus one to three minutes
      when the reply holds a time; thirty minutes for any other reply. */
  function Cooldown(response: Option<string>, u: real, v: real): (ms: nat)
    requires 0.0 <= u < 1.0 && 0.0 <= v < 1.0
    ensures response.None? ==> ms == 5 * MinuteMs
    ensures response.Some? && Contains(response.value, "Here is your daily") ==>
      12 * HourMs + 60000 <= ms <= 12 * HourMs + 300000
    ensures response.Some? && !Contains(response.value, "Here is your daily") && HasWaitTime(response.value) ==>
      WaitMs(response.value) + 60000 <= ms <= WaitMs(response.value) + 180000
    ensures response.Some? && !Contains(response.value, "Here is your daily") && !HasWaitTime(response.value) ==>
      ms == 30 * MinuteMs
  {
    match response
    case None => 5 * MinuteMs
    case Some(content) =>
      if Contains(content, "Here is your daily") then 12 * HourMs + RanInt(60000, 300000, u)
      else if HasWaitTime(content) then WaitMs(content) + RanInt(60000, 180000, v)
      else 30 * MinuteMs
  }

  /** The reply OwO gives while the daily is on cooldown, after some text
      without digits: "wait 6H 33M 39S". */
  function WaitReply(pre: string, h: nat, m: nat, s: nat): string
  {
    WaitText(pre, NatToString(h), NatToString(m), NatToString(s))
  }

  function WaitText(pre: string, hd: string, md: string, sd: string): string
  {
    pre + hd + "H " + md + "M " + sd + "S"
  }

  /** The text before the numbers holds no digit and no 'y', so it can hold
      neither a number nor the claim message. */
  predicate PlainText(pre: string)
  {
    forall k :: 0 <= k < |pre| ==> !IsDigit(pre[k]) && pre[k] != 'y'
  }

  predicate Numeral(d: string)
  {
    |d| >= 1 && AllDigits(d)
  }

  /** The layout of "…XH YM ZS": digit-free text up to `a`, the hour digits
      up to `b`, "H ", the minute digits up to `d`, "M ", the second digits
      up to `f`, and a final "S". */
  predicate Shaped(t: string, a: nat, b: nat, d: nat, f: nat)
  {
    a < b && b + 2 < d && d + 2 < f && |t| == f + 1
    && AllDigits(t[a..b]) && AllDigits(t[b + 2..d]) && AllDigits(t[d + 2..f])
    && t[b] == 'H' && t[b + 1] == ' ' && t[d] == 'M' && t[d + 1] == ' ' && t[f] == 'S'
    && forall k :: 0 <= k < a ==> !IsDigit(t[k])
  }

  /** Where the parts of a cooldown reply stand. */
  lemma WaitTextShape(pre: string, hd: string, md: string, sd: string) returns (a: nat, b: nat, d: nat, f: nat)
    requires PlainText(pre) && Numeral(hd) && Numeral(md) && Numeral(sd)
    ensures var t := WaitText(pre, hd, md, sd);
      Shaped(t, a, b, d, f) && t[a..b] == hd && t[b + 2..d] == md && t[d + 2..f] == sd
      && 'y' !in t
  {
    var t := WaitText(pre, hd, md, sd);
    a := |pre|;
    b := a + |hd|;
    var c := b + 2;
    d := c + |md|;
    var e := d + 2;
    f := e + |sd|;
    assert t == pre + hd + "H " + md + "M " + sd + "S";
    assert t[a..b] == hd && t[c..d] == md && t[e..f] == sd;
    assert forall k :: 0 <= k < a ==> t[k] == pre[k];
    forall k | 0 <= k < |t| ensures t[k] != 'y' {
      if a <= k < b { assert t[k] == t[a..b][k - a]; }
      else if c <= k < d { assert t[k] == t[c..d][k - c]; }
      else if e <= k < f { assert t[k] == t[e..f][k - e]; }
    }
  }

  lemma ReadsHours(t: string, a: nat, b: nat, d: nat, f: nat)
    requires Shaped(t, a, b, d, f)
    ensures NumberBefore(t, "H", false) == Some(DigitsValue(t[a..b]))
  {
    ScanSkipsText(t, "H", false, 0, a);
    assert KeywordAt(t, b, "H");
    ScanHits(t, "H", false, a, b);
    RunEndsAt(t, a, b);
    assert ScanFrom(t, "H", false, 0) == Some(a);
    assert CaptureEnd(t, a) == b;
  }

  /** A scan for a keyword not starting with "h" passes the hour part. */
  lemma SkipsHours(t: string, a: nat, b: nat, d: nat, f: nat, kw: string)
    requires Shaped(t, a, b, d, f) && |kw| >= 1 && LowerChar(kw[0]) != 'h'
    ensures ScanFrom(t, kw, false, 0) == ScanFrom(t, kw, false, b + 2)
  {
    ScanSkipsText(t, kw, false, 0, a);
    ScanSkipsRun(t, kw, false, a, b);
    ScanSkipsPair(t, kw, false, b);
  }

  /** A scan for a keyword not starting with "m" passes the minute part. */
  lemma SkipsMinutes(t: string, a: nat, b: nat, d: nat, f: nat, kw: string)
    requires Shaped(t, a, b, d, f) && |kw| >= 1 && LowerChar(kw[0]) != 'm'
    ensures ScanFrom(t, kw, false, b + 2) == ScanFrom(t, kw, false, d + 2)
  {
    ScanSkipsRun(t, kw, false, b + 2, d);
    ScanSkipsPair(t, kw, false, d);
  }

  lemma ReadsMinutes(t: string, a: nat, b: nat, d: nat, f: nat)
    requires Shaped(t, a, b, d, f)
    ensures NumberBefore(t, "M", false) == Some(DigitsValue(t[b + 2..d]))
  {
    SkipsHours(t, a, b, d, f, "M");
    assert KeywordAt(t, d, "M");
    ScanHits(t, "M", false, b + 2, d);
    RunEndsAt(t, b + 2, d);
    assert ScanFrom(t, "M", false, 0) == Some(b + 2);
    assert CaptureEnd(t, b + 2) == d;
  }

  lemma ReadsSeconds(t: string, a: nat, b: nat, d: nat, f: nat)
    requires Shaped(t, a, b, d, f)
    ensures NumberBefore(t, "S", false) == Some(DigitsValue(t[d + 2..f]))
  {
    SkipsHours(t, a, b, d, f, "S");
    SkipsMinutes(t, a, b, d, f, "S");
    assert KeywordAt(t, f, "S");
    ScanHits(t, "S", false, d + 2, f);
    RunEndsAt(t, d + 2, f);
    assert ScanFrom(t, "S", false, 0) == Some(d + 2);
    assert CaptureEnd(t, d + 2) == f;
  }

  /** Each unit of a cooldown reply reads back as its numeral, and the reply
      is not the claim message. */
  lemma ReadsWaitText(pre: string, hd: string, md: string, sd: string)
    requires PlainText(pre) && Numeral(hd) && Numeral(md) && Numeral(sd)
    ensures var t := WaitText(pre, hd, md, sd);
      !Contains(t, "Here is your daily") && HasWaitTime(t)
      && UnitValue(t, "H") == DigitsValue(hd) && UnitValue(t, "M") == DigitsValue(md)
      && UnitValue(t, "S") == DigitsValue(sd)
  {
    var t := WaitText(pre, hd, md, sd);
    var a, b, d, f := WaitTextShape(pre, hd, md, sd);
    MissingCharNotContained(t, "Here is your daily", 8);
    ReadsHours(t, a, b, d, f);
    ReadsMinutes(t, a, b, d, f);
    ReadsSeconds(t, a, b, d, f);
  }

  /** Reading a cooldown reply back recovers the announced wait: "wait 6H 33M
      39S" schedules 6 h 33 min 39 s plus the buffer. */
  lemma ReadsWaitReply(pre: string, h: nat, m: nat, s: nat, u: real, v: real)
    requires 0.0 <= u < 1.0 && 0.0 <= v < 1.0
    requires PlainText(pre)
    ensures Cooldown(Some(WaitReply(pre, h, m, s)), u, v)
      == (h * 3600 + m * 60 + s) * 1000 + RanInt(60000, 180000, v)
  {
    ReadsWaitText(pre, NatToString(h), NatToString(m), NatToString(s));
  }
}

=== FILE: auto_event_box.dfy ===
/** The event-box feature: read the inventory and open an event box when it
    holds one. */
module AutoEventBox {
  import opened Common
  import opened Text

  /** The event box's item code as the inventory shows it between backticks. */
  const EventBox: string := "028"

  /** The feature always runs. */
  function Condition(config: Config): (run: bool)
    ensures run
  {
    true
  }

  /** Eight to twelve seconds between checks. */
  function Cooldown(u: real): (ms: int)
    requires 0.0 <= u < 1.0
    ensures 8000 <= ms <= 12000
  {
    RanInt(8000, 12000, u)
  }

  /** `content.split("`").includes("028")`. */
  predicate HasEventBox(content: string)
  {
    EventBox in Split(content, '`')
  }

  /** The inventory holds an event box iff "028" stands between two backticks
      (or an end of the text), exactly: "0280" does not count. */
  lemma HasEventBoxIffDelimited(content: string)
    ensures HasEventBox(content) <==> exists i :: DelimitedAt(content, '`', EventBox, i)
  {
    SplitMember(content, '`', EventBox);
  }

  /** `run`'s commands: "use 28" exactly once when an event box is held,
      nothing otherwise or without an inventory. */
  function Commands(inventory: Option<string>): (cmds: seq<string>)
    ensures cmds == [] || cmds == ["use 28"]
    ensures cmds == ["use 28"] <==> inventory.Some? && HasEventBox(inventory.value)
  {
    if inventory.Some? && HasEventBox(inventory.value) then ["use 28"] else []
  }
}

=== FILE: auto_lootbox.dfy ===
/** The lootbox feature: read the inventory and open the lootboxes it holds. */
module AutoLootbox {
  import opened Common
  import opened Text

  /** Lootbox item codes as the inventory shows them between backticks. */
  const Lootbox: string := "050"
  const FabledLootbox: string := "049"

  /** The feature runs iff lootbox opening is switched on. */
  function Condition(config: Config): (run: bool)
    ensures run <==> config.autoLootbox
  {
    config.autoLootbox
  }

  /** Two to three hours between checks. */
  function Cooldown(u: real): (ms: int)
    requires 0.0 <= u < 1.0
    ensures 2 * 60 * 60 * 1000 <= ms <= 3 * 60 * 60 * 1000
  {
    RanInt(2 * 60 * 60 * 1000, 3 * 60 * 60 * 1000, u)
  }

  /** `content.split("`").includes(code)`. */
  predicate HasItem(content: string, code: string)
  {
    code in Split(content, '`')
  }

  /** An item code is in the inventory iff it stands between two backticks
      (or an end of the text): "`050`" counts, "0500" or "`050x" do not. */
  lemma HasItemIffDelimited(content: string, code: string)
    requires '`' !in code
    ensures HasItem(content, code) <==> exists i :: DelimitedAt(content, '`', code, i)
  {
    SplitMember(content, '`', code);
  }

  /** `run`'s commands: nothing without an inventory; "lb fabled" when a
      fabled lootbox is held and opening those is on; then "lb all" when an
      ordinary lootbox is held. */
  function Commands(inventory: Option<string>, autoFabledLootbox: bool): (cmds: seq<string>)
    ensures inventory.None? ==> cmds == []
    ensures "lb fabled" in cmds <==> inventory.Some? && HasItem(inventory.value, FabledLootbox) && autoFabledLootbox
    ensures "lb all" in cmds <==> inventory.Some? && HasItem(inventory.value, Lootbox)
    ensures |cmds| <= 2 && forall k :: 0 <= k < |cmds| ==> cmds[k] in {"lb fabled", "lb all"}
    // a fabled lootbox is always opened before the others
    ensures |cmds| == 2 ==> cmds == ["lb fabled", "lb all"]
  {
    match inventory
    case None => []
    case Some(content) =>
      (if HasItem(content, FabledLootbox) && autoFabledLootbox then ["lb fabled"] else [])
      + (if HasItem(content, Lootbox) then ["lb all"] else [])
  }
}

=== FILE: auto_quest.dfy ===
/** The quest feature: read the quest log, reroll one quest a day that the
    bot cannot finish on its own, and work on the gambling and action quests.
    The nine quest expressions are not re-implemented: each one's match (its
    groups, whole match first) is an input. Random choices are draws in
    [0, 1); the waits between commands are not modelled. */
module AutoQuest {
  import opened Common
  import opened Text

  datatype QuestType = SayOwo | HuntXp | BattleXp | Animals | CookieQuest | Pray | Action | BattlePlayer | Gambling

  /** The order in which the quest expressions are tried. */
  const PatternOrder: seq<QuestType> :=
    [SayOwo, HuntXp, BattleXp, Animals, CookieQuest, Pray, Action, BattlePlayer, Gambling]

  /** A quest type's place in `PatternOrder`. */
  function Rank(t: QuestType): (k: nat)
    ensures k < |PatternOrder| && PatternOrder[k] == t
  {
    match t
    case SayOwo => 0
    case HuntXp => 1
    case BattleXp => 2
    case Animals => 3
    case CookieQuest => 4
    case Pray => 5
    case Action => 6
    case BattlePlayer => 7
    case Gambling => 8
  }

  /** `Rank` inverts `PatternOrder`: the expressions are all different. */
  lemma RankInverse(k: nat)
    requires k < |PatternOrder|
    ensures Rank(PatternOrder[k]) == k
  {
  }

  /** Quests that need other players. */
  predicate Uncompletable(t: QuestType)
  {
    t == BattlePlayer || t == CookieQuest || t == Pray
  }

  const GamblingBet: nat := 1000
  const GambleCommands: seq<string> := ["coinflip", "slots"]
  const ActionCommands: seq<string> :=
    ["hug", "pat", "kiss", "cuddle", "poke", "slap", "bite", "lick", "nom", "punch", "wave", "wink"]

  datatype QuestInfo = QuestInfo(kind: QuestType, progress: nat, target: nat, reward: string)

  /** A match of one quest expression: the whole match, then each group;
      a group that took no part is `None`. */
  type Match = seq<Option<string>>

  /** What the feature sends: the quest query, a reroll of quest `questNum`
      (counted from 1), a gamble (`game` indexes `GambleCommands`), or an
      action aimed at a user (`verb` indexes `ActionCommands`). */
  datatype Command = Query | Reroll(questNum: nat) | Gamble(game: nat, bet: nat) | Act(verb: nat, target: string)

  /** The text of a command. */
  function Render(c: Command): string
  {
    match c
    case Query => "quest"
    case Reroll(n) => "quest rr " + NatToString(n)
    case Gamble(game, bet) => (if game < |GambleCommands| then GambleCommands[game] else "") + " " + NatToString(bet)
    case Act(verb, target) => (if verb < |ActionCommands| then ActionCommands[verb] else "") + " <@" + target + ">"
  }

  /** The feature runs iff quests are switched on. */
  function Condition(config: Config): (run: bool)
    ensures run <==> config.autoQuest
  {
    config.autoQuest
  }

  /** Three to four minutes between checks. */
  function Cooldown(u: real): (ms: int)
    requires 0.0 <= u < 1.0
    ensures 3 * 60 * 1000 <= ms <= 4 * 60 * 1000
  {
    RanInt(3 * 60 * 1000, 4 * 60 * 1000, u)
  }

  // ------------------------------------------------------------ parsing

  /** `g && /^\d+$/.test(g)`: a group made of one or more ASCII digits. */
  predicate Numeric(g: Option<string>)
  {
    Truthy(g) && AllDigits(g.value)
  }

  /** The numeric groups of a match, in order. */
  function NumericGroups(m: Match): (gs: seq<string>)
    ensures |gs| <= |m|
    ensures forall k :: 0 <= k < |gs| ==> |gs[k]| >= 1 && AllDigits(gs[k]) && Some(gs[k]) in m
    ensures forall g :: g in m && Numeric(g) ==> g.value in gs
  {
    if |m| == 0 then []
    else
      var rest := NumericGroups(m[1..]);
      assert forall g :: g in m[1..] ==> g in m;
      if Numeric(m[0]) then [m[0].value] + rest else rest
  }

  /** A single group contributes itself exactly when it is numeric. */
  lemma NumericGroupsSingle(g: Option<string>)
    ensures NumericGroups([g]) == if Numeric(g) then [g.value] else []
  {
    assert [g][1..] == [];
  }

  /** The groups of two consecutive stretches of a match are those of the
      first followed by those of the second: with the single-group case this
      fixes both the order and the multiplicity of `NumericGroups`. */
  lemma {:induction false} NumericGroupsAppend(a: Match, b: Match)
    ensures NumericGroups(a + b) == NumericGroups(a) + NumericGroups(b)
    decreases |a|
  {
    if |a| > 0 {
      assert (a + b)[0] == a[0];
      assert (a + b)[1..] == a[1..] + b;
      NumericGroupsAppend(a[1..], b);
    } else {
      assert a + b == b;
    }
  }

  /** The quest one expression's match yields: progress and target are the
      last two numeric groups; with fewer than two there is none. */
  function QuestFrom(kind: QuestType, m: Option<Match>): (q: Option<QuestInfo>)
    ensures q.Some? ==> m.Some? && q.value.kind == kind && |NumericGroups(m.value)| >= 2
    ensures m.Some? && |NumericGroups(m.value)| >= 2 ==> q.Some?
    ensures q.Some? ==> var gs := NumericGroups(m.value);
      q.value.progress == DigitsValue(gs[|gs| - 2]) && q.value.target == DigitsValue(gs[|gs| - 1])
  {
    if m.None? then None
    else
      var gs := NumericGroups(m.value);
      if |gs| < 2 then None
      else Some(QuestInfo(kind, DigitsValue(gs[|gs| - 2]), DigitsValue(gs[|gs| - 1]), "unknown"))
  }

  /** `parseQuests` over the first `n` expressions. */
  function QuestsUpTo(matches: seq<Option<Match>>, n: nat): seq<QuestInfo>
    requires |matches| == |PatternOrder| && n <= |PatternOrder|
  {
    if n == 0 then []
    else
      var q := QuestFrom(PatternOrder[n - 1], matches[n - 1]);
      QuestsUpTo(matches, n - 1) + (if q.Some? then [q.value] else [])
  }

  /** Each quest comes from an expression before `n`, at most one each. */
  lemma {:induction false} QuestsUpToRanks(matches: seq<Option<Match>>, n: nat)
    requires |matches| == |PatternOrder| && n <= |PatternOrder|
    ensures |QuestsUpTo(matches, n)| <= n
    ensures forall i :: 0 <= i < |QuestsUpTo(matches, n)| ==> Rank(QuestsUpTo(matches, n)[i].kind) < n
  {
    if n > 0 {
      QuestsUpToRanks(matches, n - 1);
      var q := QuestFrom(PatternOrder[n - 1], matches[n - 1]);
      if q.Some? {
        RankInverse(n - 1);
      }
    }
  }

  /** Each quest is what the expression of its type yields. */
  lemma {:induction false} QuestsUpToSound(matches: seq<Option<Match>>, n: nat)
    requires |matches| == |PatternOrder| && n <= |PatternOrder|
    ensures forall i :: 0 <= i < |QuestsUpTo(matches, n)| ==>
      QuestFrom(QuestsUpTo(matches, n)[i].kind, matches[Rank(QuestsUpTo(matches, n)[i].kind)]) == Some(QuestsUpTo(matches, n)[i])
  {
    if n > 0 {
      QuestsUpToSound(matches, n - 1);
      var q := QuestFrom(PatternOrder[n - 1], matches[n - 1]);
      if q.Some? {
        RankInverse(n - 1);
      }
    }
  }

  /** Strictly increasing expression ranks: at most one quest per
      expression, in expression order. */
  predicate Ordered(qs: seq<QuestInfo>)
  {
    forall i, j :: 0 <= i < j < |qs| ==> Rank(qs[i].kind) < Rank(qs[j].kind)
  }

  /** At most one quest per expression, in expression order. */
  lemma {:induction false} QuestsInPatternOrder(matches: seq<Option<Match>>, n: nat)
    requires |matches| == |PatternOrder| && n <= |PatternOrder|
    ensures Ordered(QuestsUpTo(matches, n))
  {
    if n > 0 {
      QuestsInPatternOrder(matches, n - 1);
      var q := QuestFrom(PatternOrder[n - 1], matches[n - 1]);
      if q.Some? {
        QuestsUpToRanks(matches, n - 1);
        RankInverse(n - 1);
        OrderedSnoc(QuestsUpTo(matches, n - 1), q.value);
      } else {
        assert QuestsUpTo(matches, n) == QuestsUpTo(matches, n - 1) + [];
      }
    }
  }

  /** A quest ranked above every quest of an ordered list extends it in order. */
  lemma OrderedSnoc(qs: seq<QuestInfo>, q: QuestInfo)
    requires Ordered(qs)
    requires forall i :: 0 <= i < |qs| ==> Rank(qs[i].kind) < Rank(q.kind)
    ensures Ordered(qs + [q])
  {
    var ps := qs + [q];
    forall i, j | 0 <= i < j < |ps| ensures Rank(ps[i].kind) < Rank(ps[j].kind) {
      assert ps[i] == qs[i];
      if j < |qs| {
        assert ps[j] == qs[j];
      }
    }
  }

  /** Every expression that yields a quest contributes it. */
  lemma {:induction false} QuestsComplete(matches: seq<Option<Match>>, n: nat, k: nat)
    requires |matches| == |PatternOrder| && k < n <= |PatternOrder|
    requires QuestFrom(PatternOrder[k], matches[k]).Some?
    ensures QuestFrom(PatternOrder[k], matches[k]).value in QuestsUpTo(matches, n)
  {
    if k < n - 1 {
      QuestsComplete(matches, n - 1, k);
    }
  }

  function Quests(matches: seq<Option<Match>>): seq<QuestInfo>
    requires |matches| == |PatternOrder|
  {
    QuestsUpTo(matches, |PatternOrder|)
  }

  /** `parseQuests`: push the quest of each expression in turn. */
  method ParseQuests(matches: seq<Option<Match>>) returns (quests: seq<QuestInfo>)
    requires |matches| == |PatternOrder|
    ensures quests == Quests(matches)
  {
    quests := [];
    var k := 0;
    while k < |PatternOrder|
      invariant 0 <= k <= |PatternOrder|
      invariant quests == QuestsUpTo(matches, k)
    {
      var m := matches[k];
      if m.Some? {
        var gs := NumericGroups(m.value);
        if |gs| >= 2 {
          quests := quests + [QuestInfo(PatternOrder[k], DigitsValue(gs[|gs| - 2]), DigitsValue(gs[|gs| - 1]), "unknown")];
        }
      }
      k := k + 1;
    }
  }

  // --------------------------------------------------------- decisions

  /** The draw numbered `k`, or 0 when the draws run out. */
  function DrawAt(draws: seq<real>, k: nat): (u: real)
    requires forall i :: 0 <= i < |draws| ==> 0.0 <= draws[i] < 1.0
    ensures 0.0 <= u < 1.0
  {
    if k < |draws| then draws[k] else 0.0
  }

  /** The index `Math.floor(u * n)` a draw picks among `n` choices. */
  function Pick(n: nat, u: real): (k: nat)
    requires n >= 1 && 0.0 <= u < 1.0
    ensures k < n
  {
    ScaledDrawBelow(u, n);
    Floor(u * n as real)
  }

  /** `n` actions aimed at `admin`, the `i`-th drawing its verb from draw
      `from + i`. */
  function Actions(admin: string, n: nat, draws: seq<real>, from: nat): (cmds: seq<Command>)
    requires forall i :: 0 <= i < |draws| ==> 0.0 <= draws[i] < 1.0
    ensures |cmds| == n
    ensures forall i :: 0 <= i < n ==> cmds[i] == Act(Pick(|ActionCommands|, DrawAt(draws, from + i)), admin)
  {
    seq(n, i requires 0 <= i < n => Act(Pick(|ActionCommands|, DrawAt(draws, from + i)), admin))
  }

  /** What one quest sends, its random choices drawn from `from` on. */
  function QuestCommands(q: QuestInfo, adminID: Option<string>, draws: seq<real>, from: nat): seq<Command>
    requires forall i :: 0 <= i < |draws| ==> 0.0 <= draws[i] < 1.0
  {
    if q.progress >= q.target then []
    else if q.kind == Gambling then [Gamble(Pick(|GambleCommands|, DrawAt(draws, from)), GamblingBet)]
    else if q.kind == Action && Truthy(adminID) then Actions(adminID.value, Min(q.target - q.progress, 3), draws, from)
    else []
  }

  /** A complete quest sends nothing; a gambling quest sends one coinflip or
      slots of 1000; an action quest sends up to three actions aimed at the
      admin, and none without an admin; any other quest sends nothing. No
      quest sends a query or a reroll. */
  lemma QuestCommandsFacts(q: QuestInfo, adminID: Option<string>, draws: seq<real>, from: nat)
    requires forall i :: 0 <= i < |draws| ==> 0.0 <= draws[i] < 1.0
    ensures var cmds := QuestCommands(q, adminID, draws, from);
      (q.progress >= q.target ==> cmds == [])
      && (q.kind != Gambling && q.kind != Action ==> cmds == [])
      && (q.kind == Gambling && q.progress < q.target ==>
        |cmds| == 1 && cmds[0].Gamble? && cmds[0].bet == GamblingBet && cmds[0].game < |GambleCommands|)
      && (q.kind == Action && !Truthy(adminID) ==> cmds == [])
      && (q.kind == Action && q.progress < q.target && Truthy(adminID) ==>
        |cmds| == Min(q.target - q.progress, 3)
        && forall c :: c in cmds ==> c.Act? && c.target == adminID.value && c.verb < |ActionCommands|)
      && forall c :: c in cmds ==> c.Gamble? || c.Act?
  {
  }

  /** What all the quests send, in quest order, each command taking the next
      draw. */
  function AllCommands(qs: seq<QuestInfo>, adminID: Option<string>, draws: seq<real>): seq<Command>
    requires forall i :: 0 <= i < |draws| ==> 0.0 <= draws[i] < 1.0
    decreases |qs|
  {
    if |qs| == 0 then []
    else
      var before := AllCommands(qs[..|qs| - 1], adminID, draws);
      before + QuestCommands(qs[|qs| - 1], adminID, draws, |before|)
  }

  /** The first quest, if any, that needs other players and has not started. */
  function FirstRerollable(qs: seq<QuestInfo>): (k: Option<nat>)
    ensures k.Some? ==> k.value < |qs| && Uncompletable(qs[k.value].kind) && qs[k.value].progress == 0
    ensures k.Some? ==> forall j :: 0 <= j < k.value ==> !(Uncompletable(qs[j].kind) && qs[j].progress == 0)
    ensures k.None? ==> forall j :: 0 <= j < |qs| ==> !(Uncompletable(qs[j].kind) && qs[j].progress == 0)
  {
    if |qs| == 0 then None
    else if Uncompletable(qs[0].kind) && qs[0].progress == 0 then Some(0)
    else
      var rest := FirstRerollable(qs[1..]);
      if rest.Some? then Some(rest.value + 1) else None
  }

  predicate HasReroll(cmds: seq<Command>)
  {
    exists c :: c in cmds && c.Reroll?
  }

  /** The quest feature's state: the day a reroll was last considered and
      whether that day's reroll is spent. */
  class QuestTracker {
    var lastRerollDate: string
    var rerollUsed: bool

    constructor()
      ensures lastRerollDate == "" && !rerollUsed
    {
      lastRerollDate := "";
      rerollUsed := false;
    }

    /** `run`: ask for the quests; without a reply stop there. A new day
        frees the reroll. While the day's reroll is free, the first quest that
        needs other players and has not started is rerolled (counted from 1)
        and the run ends. Otherwise every quest sends its commands in turn. */
    method Run(reply: Option<seq<Option<Match>>>, today: string, adminID: Option<string>, draws: seq<real>)
      returns (sent: seq<Command>)
      requires reply.Some? ==> |reply.value| == |PatternOrder|
      requires forall i :: 0 <= i < |draws| ==> 0.0 <= draws[i] < 1.0
      modifies this
      ensures reply.None? ==> sent == [Query] && lastRerollDate == old(lastRerollDate) && rerollUsed == old(rerollUsed)
      ensures reply.Some? ==> lastRerollDate == today
      ensures reply.Some? ==>
        var qs := Quests(reply.value);
        var free := !(old(lastRerollDate) == today && old(rerollUsed));
        if free && FirstRerollable(qs).Some? then
          sent == [Query, Reroll(FirstRerollable(qs).value + 1)] && rerollUsed
        else
          sent == [Query] + AllCommands(qs, adminID, draws) && rerollUsed == !free
      // at most one reroll a day
      ensures HasReroll(sent) ==> rerollUsed && lastRerollDate == today
      ensures old(lastRerollDate) == today && old(rerollUsed) ==> !HasReroll(sent)
    {
      sent := [Query];
      if reply.None? {
        return;
      }
      var quests := ParseQuests(reply.value);
      if lastRerollDate != today {
        lastRerollDate := today;
        rerollUsed := false;
      }
      if !rerollUsed {
        var target := FindReroll(quests);
        if target.Some? {
          sent := sent + [Reroll(target.value + 1)];
          rerollUsed := true;
          return;
        }
      }
      var cmds := WorkAll(quests, adminID, draws);
      sent := sent + cmds;
      NoRerollInWork(quests, adminID, draws);
    }
  }

  /** The reroll search of `run`: the first quest that needs other players
      and has not started. */
  method FindReroll(quests: seq<QuestInfo>) returns (target: Option<nat>)
    ensures target == FirstRerollable(quests)
  {
    var i := 0;
    while i < |quests|
      invariant 0 <= i <= |quests|
      invariant forall j :: 0 <= j < i ==> !(Uncompletable(quests[j].kind) && quests[j].progress == 0)
    {
      if Uncompletable(quests[i].kind) && quests[i].progress == 0 {
        return Some(i);
      }
      i := i + 1;
    }
    return None;
  }

  /** The quest loop of `run`: every quest's commands in turn. */
  method WorkAll(quests: seq<QuestInfo>, adminID: Option<string>, draws: seq<real>) returns (sent: seq<Command>)
    requires forall i :: 0 <= i < |draws| ==> 0.0 <= draws[i] < 1.0
    ensures sent == AllCommands(quests, adminID, draws)
  {
    sent := [];
    var k := 0;
    while k < |quests|
      invariant 0 <= k <= |quests|
      invariant sent == AllCommands(quests[..k], adminID, draws)
    {
      var cmds := Work(quests[k], adminID, draws, |sent|);
      assert quests[..k + 1][..k] == quests[..k];
      sent := sent + cmds;
      k := k + 1;
    }
    assert quests[..k] == quests;
  }

  /** The per-quest step of `run`, its action loop included. */
  method Work(q: QuestInfo, adminID: Option<string>, draws: seq<real>, from: nat) returns (cmds: seq<Command>)
    requires forall i :: 0 <= i < |draws| ==> 0.0 <= draws[i] < 1.0
    ensures cmds == QuestCommands(q, adminID, draws, from)
  {
    cmds := [];
    if q.progress >= q.target {
      return;
    }
    match q.kind
    case Gambling =>
      cmds := [Gamble(Pick(|GambleCommands|, DrawAt(draws, from)), GamblingBet)];
    case Action =>
      if !Truthy(adminID) {
        return;
      }
      var remaining := q.target - q.progress;
      var actionsThisCycle := Min(remaining, 3);
      var i := 0;
      while i < actionsThisCycle
        invariant 0 <= i <= actionsThisCycle
        invariant cmds == Actions(adminID.value, i, draws, from)
      {
        cmds := cmds + [Act(Pick(|ActionCommands|, DrawAt(draws, from + i)), adminID.value)];
        i := i + 1;
      }
    case _ =>
  }

  /** Working on the quests never rerolls. */
  lemma {:induction false} NoRerollInWork(qs: seq<QuestInfo>, adminID: Option<string>, draws: seq<real>)
    requires forall i :: 0 <= i < |draws| ==> 0.0 <= draws[i] < 1.0
    ensures !HasReroll([Query] + AllCommands(qs, adminID, draws))
    decreases |qs|
  {
    if |qs| > 0 {
      var before := AllCommands(qs[..|qs| - 1], adminID, draws);
      NoRerollInWork(qs[..|qs| - 1], adminID, draws);
      var last := QuestCommands(qs[|qs| - 1], adminID, draws, |before|);
      QuestCommandsFacts(qs[|qs| - 1], adminID, draws, |before|);
      forall c | c in [Query] + (before + last) ensures !c.Reroll? {
        if c in before { assert c in [Query] + before; }
      }
      assert [Query] + AllCommands(qs, adminID, draws) == [Query] + (before + last);
    }
  }

  /** Two checks on one day reroll at most once. */
  method TwoChecksOneDay(r1: seq<Option<Match>>, r2: seq<Option<Match>>, today: string, adminID: Option<string>, draws: seq<real>)
    returns (first: seq<Command>, second: seq<Command>)
    requires |r1| == |PatternOrder| && |r2| == |PatternOrder|
    requires forall i :: 0 <= i < |draws| ==> 0.0 <= draws[i] < 1.0
    ensures !(HasReroll(first) && HasReroll(second))
  {
    var tracker := new QuestTracker();
    first := tracker.Run(Some(r1), today, adminID, draws);
    second := tracker.Run(Some(r2), today, adminID, draws);
  }
}

=== FILE: captcha_service.dfy ===
/** The captcha coordinator: solver construction from the configuration, the
    link-captcha flow, the retry-delay policy, and the process-wide lock with its
    deduplication window and retry budget. Network, Discord, clock and random
    draws are parameters: each attempt receives an `AttemptEnv` saying what the
    outside world answered, how long it took and which random number was drawn. */
module CaptchaService {
  import opened Common
  import opened Text

  const MaxRetries: nat := 4
  const BaseDelay: int := 3000
  const MaxDelay: int := 40000
  const JitterFactor: real := 0.3
  const RepeatThreshold: int := 300000
  const ProgressStartTime: int := 180000
  const ProgressInterval: int := 120000
  const DedupWindow: int := 10000
  const LockWaitPolls: nat := 60

  // ------------------------------------------------------------ solvers

  datatype ProviderKind = YesCaptcha | TwoCaptcha | TwoCrawler

  /** One configured provider inside a failover list. */
  datatype NamedSolver = NamedSolver(name: string, kind: ProviderKind, apiKey: string)

  /** What `createSolver` builds: one provider, or a failover over a list. */
  datatype Solver = Single(kind: ProviderKind, apiKey: string) | Failover(providers: seq<NamedSolver>)

  /** The configuration name of each provider. */
  function ProviderName(k: ProviderKind): string
  {
    match k
    case YesCaptcha => "yescaptcha"
    case TwoCaptcha => "2captcha"
    case TwoCrawler => "2crawler"
  }

  /** The provider a configuration name selects, if any. */
  function ProviderOf(name: string): (r: Option<ProviderKind>)
    ensures r.Some? ==> ProviderName(r.value) == name
    ensures r.None? ==> forall k: ProviderKind :: ProviderName(k) != name
  {
    if name == "yescaptcha" then Some(YesCaptcha)
    else if name == "2captcha" then Some(TwoCaptcha)
    else if name == "2crawler" then Some(TwoCrawler)
    else None
  }

  /** Naming a provider and reading the name back gives the provider. */
  lemma ProviderNameRoundTrip(k: ProviderKind)
    ensures ProviderOf(ProviderName(k)) == Some(k)
  {
  }

  /** `createSingleSolver`: a known provider name gives that provider with the
      key; an unknown one gives nothing. */
  function CreateSingleSolver(provider: string, apiKey: string): (r: Option<Solver>)
    ensures r.Some? <==> ProviderOf(provider).Some?
    ensures r.Some? ==> r.value.Single? && ProviderName(r.value.kind) == provider && r.value.apiKey == apiKey
  {
    match ProviderOf(provider)
    case None => None
    case Some(k) => Some(Single(k, apiKey))
  }

  /** A backup is used when its provider and key are both set and it is known. */
  predicate BackupUsable(cfg: Config)
  {
    Truthy(cfg.backupCaptchaAPI) && Truthy(cfg.backupApiKey)
    && ProviderOf(cfg.backupCaptchaAPI.value).Some?
  }

  /** `createSolver`: no solver when the primary provider or key is missing or the
      primary is unknown; a failover over [primary, backup] in that order when a
      usable backup is configured; otherwise the primary alone. */
  function CreateSolver(cfg: Config): (r: Option<Solver>)
    ensures r.None? <==>
      !Truthy(cfg.captchaAPI) || !Truthy(cfg.apiKey) || ProviderOf(cfg.captchaAPI.value).None?
    ensures r.Some? && r.value.Failover? ==>
      BackupUsable(cfg)
      && |r.value.providers| == 2
      && r.value.providers[0].name == cfg.captchaAPI.value
      && r.value.providers[0].apiKey == cfg.apiKey.value
      && r.value.providers[1].name == cfg.backupCaptchaAPI.value
      && r.value.providers[1].apiKey == cfg.backupApiKey.value
      && ProviderName(r.value.providers[0].kind) == cfg.captchaAPI.value
      && ProviderName(r.value.providers[1].kind) == cfg.backupCaptchaAPI.value
    ensures r.Some? && r.value.Single? ==>
      !BackupUsable(cfg)
      && ProviderName(r.value.kind) == cfg.captchaAPI.value && r.value.apiKey == cfg.apiKey.value
    ensures r.Some? ==> (r.value.Failover? <==> BackupUsable(cfg))
  {
    if !Truthy(cfg.captchaAPI) || !Truthy(cfg.apiKey) then None
    else
      match CreateSingleSolver(cfg.captchaAPI.value, cfg.apiKey.value)
      case None => None
      case Some(primary) =>
        if Truthy(cfg.backupCaptchaAPI) && Truthy(cfg.backupApiKey) then
          match CreateSingleSolver(cfg.backupCaptchaAPI.value, cfg.backupApiKey.value)
          case Some(backup) =>
            Some(Failover([
              NamedSolver(cfg.captchaAPI.value, primary.kind, cfg.apiKey.value),
              NamedSolver(cfg.backupCaptchaAPI.value, backup.kind, cfg.backupApiKey.value)]))
          case None => Some(primary)
        else Some(primary)
  }

  /** The names a failover solver rotates over, in order. */
  function ProviderNames(s: Solver): seq<string>
  {
    match s
    case Single(k, _) => [ProviderName(k)]
    case Failover(ps) => seq(|ps|, i requires 0 <= i < |ps| => ps[i].name)
  }

  /** With a usable backup the rotation is primary first, then backup. */
  lemma FailoverOrder(cfg: Config)
    requires CreateSolver(cfg).Some? && BackupUsable(cfg)
    ensures ProviderNames(CreateSolver(cfg).value) == [cfg.captchaAPI.value, cfg.backupCaptchaAPI.value]
  {
  }

  // ------------------------------------------------------- retry policy

  /** Provider throttling shows up in the error text. */
  predicate IsRateLimited(message: string)
  {
    Contains(message, "\U{5BC6}\U{94A5}\U{9519}\U{8BEF}")  // "key error"
    || Contains(message, "\U{5C4F}\U{853D}")              // "blocked" (Chinese)
    || Contains(message, "blocked")
  }

  /** A message is classed as rate-limited wherever the marker stands in it. */
  lemma RateLimitedAnywhere(pre: string, post: string)
    ensures IsRateLimited(pre + "blocked" + post)
    ensures IsRateLimited(pre + "\U{5BC6}\U{94A5}\U{9519}\U{8BEF}" + post)
    ensures IsRateLimited(pre + "\U{5C4F}\U{853D}" + post)
  {
    ContainsInside(pre, "blocked", post);
    ContainsInside(pre, "\U{5BC6}\U{94A5}\U{9519}\U{8BEF}", post);
    ContainsInside(pre, "\U{5C4F}\U{853D}", post);
  }

  /** A message without the letter `k` and without CJK characters is not
      classed as rate-limited. */
  lemma {:induction false} PlainMessageNotRateLimited(message: string)
    requires 'k' !in message
    requires forall i :: 0 <= i < |message| ==> message[i] < '\U{5BC6}'
    ensures !IsRateLimited(message)
  {
    MissingCharNotContained(message, "blocked", 4);
    MissingCharNotContained(message, "\U{5BC6}\U{94A5}\U{9519}\U{8BEF}", 0);
    MissingCharNotContained(message, "\U{5C4F}\U{853D}", 0);
  }

  /** The banned-account error is not a rate limit: it is retried with the
      exponential backoff like any other failure. */
  lemma BannedIsNotRateLimited()
    ensures !IsRateLimited(BannedError)
  {
    var m := BannedError;
    assert 'k' !in m;
    assert forall i :: 0 <= i < |m| ==> m[i] < '\U{5BC6}';
    PlainMessageNotRateLimited(m);
  }

  /** The backoff delay before clamping: `base` moved by up to 30% either way. */
  function Jittered(base: real, draw: real): real
  {
    base + base * JitterFactor * (draw * 2.0 - 1.0)
  }

  /** The delay before retry number `retries + 1`: 15-25 s when rate-limited,
      otherwise `3000 * 2^retries` with +/-30% jitter, clamped to [3000, 40000]. */
  function RetryDelay(retries: nat, rateLimited: bool, draw: real): (d: real)
    requires 0.0 <= draw < 1.0
    ensures rateLimited ==> 15000.0 <= d < 25000.0
    ensures !rateLimited ==> BaseDelay as real <= d <= MaxDelay as real
  {
    if rateLimited then 15000.0 + draw * 10000.0
    else
      var base := (BaseDelay * Pow2(retries)) as real;
      MinReal(MaxReal(Jittered(base, draw), BaseDelay as real), MaxDelay as real)
  }

  /** A jittered delay stays within 30% of its base. */
  lemma JitterWindow(base: real, draw: real)
    requires base > 0.0
    requires 0.0 <= draw < 1.0
    ensures 0.7 * base <= Jittered(base, draw) <= 1.3 * base
  {
    var f := draw * 2.0 - 1.0;
    var b3 := base * JitterFactor;
    assert b3 > 0.0;
    assert b3 * (1.0 - f) >= 0.0;
    assert b3 * (1.0 + f) >= 0.0;
    assert b3 * (1.0 - f) == b3 - b3 * f;
    assert b3 * (1.0 + f) == b3 + b3 * f;
  }

  /** With jitter the non-rate-limited delay lies between 0.7 and 1.3 times
      `3000 * 2^retries`, cut to the [3000, 40000] window. */
  lemma RetryDelayWindow(retries: nat, draw: real)
    requires retries < MaxRetries
    requires 0.0 <= draw < 1.0
    ensures var base := (BaseDelay * Pow2(retries)) as real;
      MaxReal(0.7 * base, BaseDelay as real) <= RetryDelay(retries, false, draw)
      && RetryDelay(retries, false, draw) <= MinReal(1.3 * base, MaxDelay as real)
  {
    var base := (BaseDelay * Pow2(retries)) as real;
    JitterWindow(base, draw);
  }

  /** On the first four retries the unclamped base is 3, 6, 12 and 24 seconds. */
  lemma RetryBases()
    ensures BaseDelay * Pow2(0) == 3000 && BaseDelay * Pow2(1) == 6000
    ensures BaseDelay * Pow2(2) == 12000 && BaseDelay * Pow2(3) == 24000
  {
    assert Pow2(3) == 8 by { assert Pow2(2) == 4 by { assert Pow2(1) == 2; } }
  }

  /** A captcha within five minutes of the previous solve is a repeat. */
  predicate IsRepeat(lastSolveTime: real, now: real)
  {
    lastSolveTime > 0.0 && now - lastSolveTime < RepeatThreshold as real
  }

  /** The pause after a solve before the lock is released: 30-60 s after a
      repeat captcha, 15-25 s otherwise. */
  function PostSolveDelay(repeat: bool, draw: real): (d: real)
    requires 0.0 <= draw < 1.0
    ensures repeat ==> 30000.0 <= d < 60000.0
    ensures !repeat ==> 15000.0 <= d < 25000.0
  {
    if repeat then 30000.0 + draw * 30000.0 else 15000.0 + draw * 10000.0
  }

  // ----------------------------------------------------------- one attempt

  /** The message that carried the captcha. `firstButtonUrl` is the URL of the
      first button of the first row when the message's first component is an
      action row whose first component is a button, and `None` when there is
      no such button or it has no URL; the source reads both absences as the
      empty string, which holds no link either. */
  datatype CaptchaMessage = CaptchaMessage(
    attachmentUrl: Option<string>,
    content: string,
    firstButtonUrl: Option<string>)

  datatype CaptchaKind = ImageCaptcha(url: string) | LinkCaptcha | NoChallenge

  /** A character the content normalisation deletes: a control character
      (Cc), the line and paragraph separators (Zl, Zp) or a format character
      (Cf, as assigned in Unicode 15). */
  predicate Invisible(c: char)
  {
    var n := c as int;
    n <= 0x1F || (0x7F <= n <= 0x9F)
    || n == 0x2028 || n == 0x2029
    || n == 0xAD || (0x600 <= n <= 0x605) || n == 0x61C || n == 0x6DD || n == 0x70F
    || n == 0x890 || n == 0x891 || n == 0x8E2 || n == 0x180E
    || (0x200B <= n <= 0x200F) || (0x202A <= n <= 0x202E) || (0x2060 <= n <= 0x2064)
    || (0x2066 <= n <= 0x206F) || n == 0xFEFF || (0xFFF9 <= n <= 0xFFFB)
    || n == 0x110BD || n == 0x110CD || (0x13430 <= n <= 0x1343F) || (0x1BCA0 <= n <= 0x1BCA3)
    || (0x1D173 <= n <= 0x1D17A) || n == 0xE0001 || (0xE0020 <= n <= 0xE007F)
  }

  /** The content with every invisible character deleted and the others kept
      in order. */
  function StripInvisible(s: string): (r: string)
    ensures |r| <= |s|
    ensures forall i :: 0 <= i < |r| ==> !Invisible(r[i])
    ensures (forall i :: 0 <= i < |s| ==> !Invisible(s[i])) ==> r == s
    ensures multiset(r) <= multiset(s)
  {
    if |s| == 0 then s
    else
      assert s == [s[0]] + s[1..];
      if Invisible(s[0]) then StripInvisible(s[1..]) else [s[0]] + StripInvisible(s[1..])
  }

  /** Stripping twice strips nothing more. */
  lemma StripIdempotent(s: string)
    ensures StripInvisible(StripInvisible(s)) == StripInvisible(s)
  {
  }

  /** An attachment makes an image captcha; otherwise a URL in the stripped
      text or in the first button makes a link captcha; otherwise there is
      nothing to solve. */
  function KindOf(m: CaptchaMessage): (k: CaptchaKind)
    ensures k.ImageCaptcha? <==> Truthy(m.attachmentUrl)
    ensures k.LinkCaptcha? <==>
      !Truthy(m.attachmentUrl) && (HasUrl(StripInvisible(m.content)) || (m.firstButtonUrl.Some? && HasUrl(m.firstButtonUrl.value)))
  {
    if Truthy(m.attachmentUrl) then ImageCaptcha(m.attachmentUrl.value)
    else if HasUrl(StripInvisible(m.content)) || (m.firstButtonUrl.Some? && HasUrl(m.firstButtonUrl.value)) then LinkCaptcha
    else NoChallenge
  }

  datatype AuthStatus = AuthStatus(banned: bool, captchaActive: bool)

  /** What the outside world does during one attempt. */
  datatype AttemptEnv = AttemptEnv(
    reactionDraw: real,            // the draw behind the simulated human reaction
    solverAnswer: Result<string>,  // the configured solver's solution or token
    confirmed: bool,               // image: the bot confirmed the answer within 30 s
    authorizeOk: bool,             // link: the Discord authorisation succeeded
    sessionOk: bool,               // link: the OAuth redirect and the status request succeeded
    auth: AuthStatus,              // link: the account status
    verifyStatus: int,             // link: HTTP status of the verification POST
    verifyStatusText: string,      // link: its status text
    verifyBody: string,            // link: its body, as JSON text
    workMs: nat,                   // time spent solving and submitting
    draw: real)                    // the random number drawn for the following delay

  const BannedError: string := "Account is banned."
  const NotConfiguredError: string := "Captcha solver is not configured."
  const NoConfirmationError: string := "No response from OwO bot after sending captcha solution."
  /** The HTTP client rejects a status outside 2xx with its own message. */
  const StatusRejected: string := "Request failed with status code "
  const VerifyFailed: string := "Failed to verify captcha: "

  /** The error of a verification POST that did not answer 200: the HTTP
      client's rejection for a status outside 2xx, else the service's own
      message with the status, its text and the body. */
  function VerifyError(status: int, statusText: string, body: string): (e: string)
    requires status != 200
    ensures StatusRejected <= e <==> !(200 <= status < 300)
    ensures VerifyFailed <= e <==> 200 <= status < 300
    ensures 200 <= status < 300 ==> e[|VerifyFailed|..] == IntToString(status) + " - " + statusText + " - " + body
  {
    if !(200 <= status < 300) then
      var e := StatusRejected + IntToString(status);
      assert e[..|StatusRejected|] == StatusRejected;
      assert e[0] != VerifyFailed[0];
      e
    else
      var tail := IntToString(status) + " - " + statusText + " - " + body;
      var e := VerifyFailed + tail;
      assert e[..|VerifyFailed|] == VerifyFailed && e[|VerifyFailed|..] == tail;
      assert e[0] != StatusRejected[0];
      e
  }

  const AuthorizeError: string := "Discord authorization failed"
  const SessionError: string := "OAuth session request failed"

  /** The outcome of one attempt and the number of solver invocations it made. */
  datatype Step = Step(outcome: Result<()>, providerCalls: nat)

  /** `solveImageCaptcha` followed by the confirmation wait. */
  function SolveImage(solver: Option<Solver>, env: AttemptEnv): (s: Step)
    ensures s.providerCalls == if solver.Some? then 1 else 0
    ensures s.outcome.Ok? <==> solver.Some? && env.solverAnswer.Ok? && env.confirmed
    ensures solver.None? ==> s.outcome == Err(NotConfiguredError)
  {
    if solver.None? then Step(Err(NotConfiguredError), 0)
    else match env.solverAnswer
      case Err(e) => Step(Err(e), 1)
      case Ok(_) => if env.confirmed then Step(Ok(()), 1) else Step(Err(NoConfirmationError), 1)
  }

  /** The link flow: authorise, then `solveHcaptcha` (solver guard, redirect
      chain, status check, banned before inactive, provider call, verification). */
  function SolveLink(solver: Option<Solver>, env: AttemptEnv): (s: Step)
    ensures s.providerCalls <= 1
    ensures s.providerCalls == 1 <==>
      env.authorizeOk && solver.Some? && env.sessionOk && !env.auth.banned && env.auth.captchaActive
    ensures env.authorizeOk && solver.Some? && env.sessionOk && env.auth.banned ==>
      s == Step(Err(BannedError), 0)
    ensures env.authorizeOk && solver.Some? && env.sessionOk && !env.auth.banned && !env.auth.captchaActive ==>
      s == Step(Ok(()), 0)
    ensures s.providerCalls == 1 && env.solverAnswer.Ok? && env.verifyStatus != 200 ==> s.outcome.Err?
    ensures s.outcome.Ok? <==>
      env.authorizeOk && solver.Some? && env.sessionOk && !env.auth.banned
      && (!env.auth.captchaActive || (env.solverAnswer.Ok? && env.verifyStatus == 200))
  {
    if !env.authorizeOk then Step(Err(AuthorizeError), 0)
    else if solver.None? then Step(Err(NotConfiguredError), 0)
    else if !env.sessionOk then Step(Err(SessionError), 0)
    else if env.auth.banned then Step(Err(BannedError), 0)
    else if !env.auth.captchaActive then Step(Ok(()), 0)
    else match env.solverAnswer
      case Err(e) => Step(Err(e), 1)
      case Ok(_) => if env.verifyStatus != 200 then Step(Err(VerifyError(env.verifyStatus, env.verifyStatusText, env.verifyBody)), 1) else Step(Ok(()), 1)
  }

  /** The body of the `try` in `handleCaptcha` up to the success bookkeeping. */
  function AttemptStep(solver: Option<Solver>, m: CaptchaMessage, env: AttemptEnv): (s: Step)
    ensures s.providerCalls <= 1
    ensures KindOf(m).NoChallenge? ==> s == Step(Ok(()), 0)
  {
    match KindOf(m)
    case ImageCaptcha(_) => SolveImage(solver, env)
    case LinkCaptcha => SolveLink(solver, env)
    case NoChallenge => Step(Ok(()), 0)
  }

  function EnvAt(envs: seq<AttemptEnv>, i: nat): AttemptEnv
  {
    if i < |envs| then envs[i]
    else AttemptEnv(0.0, Err("no answer"), false, false, false, AuthStatus(false, false), 0, "", "", 0, 0.0)
  }

  // ------------------------------------------------------------ coordinator

  /** Operator notifications the coordinator emits. */
  datatype Notice = RepeatWarning | StillTrying | Resolved | Unresolved

  /** How a call of `handleCaptcha` ended, with the number of attempts it made. */
  datatype Handled = Skipped | Solved(attempts: nat) | GaveUp(attempts: nat, lastError: string)

  /** Another resolution that holds the lock when this one arrives: it releases
      the lock after `releasesAfterPolls` one-second polls, and stamps
      `lastSolveTime` when it releases if it solved the captcha. */
  datatype OtherHolder = OtherHolder(releasesAfterPolls: nat, solved: bool)

  predicate DrawsValid(envs: seq<AttemptEnv>)
  {
    forall i :: 0 <= i < |envs| ==> 0.0 <= envs[i].draw < 1.0 && 0.0 <= envs[i].reactionDraw < 1.0
  }

  /** Notices sent while a resolution is still under way. */
  predicate Interim(ns: seq<Notice>)
  {
    forall i :: 0 <= i < |ns| ==> ns[i] == RepeatWarning || ns[i] == StillTrying
  }

  /** `ns` extends `before` by interim notices and one final notice `last`. */
  predicate EndsWith1(before: seq<Notice>, ns: seq<Notice>, last: Notice)
  {
    |ns| > |before| && ns[..|before|] == before
    && Interim(ns[|before|..|ns| - 1]) && ns[|ns| - 1] == last
  }

  /** The static state of `CaptchaService` plus the agent's captcha counters,
      with an abstract clock `now` (milliseconds) that sleeps advance. */
  class Coordinator {
    var solvingInProgress: bool
    var lastSolveTime: real
    var captchaStartTime: real
    var lastProgressNotifyTime: real
    var now: real
    var totalCaptchaSolved: nat
    var totalCaptchaFailed: nat
    var captchaDetected: bool
    var farmLoopsStarted: nat
    var providerCalls: nat
    var notices: seq<Notice>

    /** The state at process start, at clock reading `start`, with a captcha
        just detected. The clock reads epoch milliseconds, so it is long past
        the ten-second window of a solve at time 0. */
    constructor(start: real)
      requires start >= DedupWindow as real
      ensures !solvingInProgress && lastSolveTime == 0.0 && captchaStartTime == 0.0
      ensures lastProgressNotifyTime == 0.0 && now == start
      ensures totalCaptchaSolved == 0 && totalCaptchaFailed == 0 && providerCalls == 0
      ensures farmLoopsStarted == 0 && notices == [] && captchaDetected
    {
      solvingInProgress := false;
      lastSolveTime := 0.0;
      captchaStartTime := 0.0;
      lastProgressNotifyTime := 0.0;
      now := start;
      totalCaptchaSolved := 0;
      totalCaptchaFailed := 0;
      farmLoopsStarted := 0;
      providerCalls := 0;
      notices := [];
      captchaDetected := true;
    }

    /** The bounded wait for a lock held by another resolution: one-second polls,
        at most 60, ending early when the holder releases. */
    method AwaitLock(other: OtherHolder) returns (polls: nat)
      requires solvingInProgress
      modifies this`now, this`solvingInProgress, this`lastSolveTime
      ensures polls <= LockWaitPolls
      ensures now == old(now) + 1000.0 * polls as real
      ensures !solvingInProgress <==> 1 <= other.releasesAfterPolls <= LockWaitPolls
      ensures !solvingInProgress ==> polls == other.releasesAfterPolls
      ensures solvingInProgress ==> polls == LockWaitPolls
      ensures lastSolveTime == if !solvingInProgress && other.solved then now else old(lastSolveTime)
    {
      polls := 0;
      while solvingInProgress && polls < LockWaitPolls
        invariant polls <= LockWaitPolls
        invariant now == old(now) + 1000.0 * polls as real
        invariant solvingInProgress <==> (other.releasesAfterPolls == 0 || other.releasesAfterPolls > polls)
        invariant !solvingInProgress ==> polls == other.releasesAfterPolls
        invariant lastSolveTime == if !solvingInProgress && other.solved then now else old(lastSolveTime)
      {
        now := now + 1000.0;
        polls := polls + 1;
        if polls == other.releasesAfterPolls {
          solvingInProgress := false;
          if other.solved {
            lastSolveTime := now;
          }
        }
      }
    }

    /** Taking the lock: the start time is reset on the first attempt only, and a
        repeat captcha (within five minutes of the last solve) is announced on
        the first attempt only. */
    method Begin(retries: nat) returns (repeat: bool)
      modifies this`solvingInProgress, this`captchaStartTime, this`lastProgressNotifyTime, this`notices
      ensures solvingInProgress
      ensures repeat == IsRepeat(lastSolveTime, now)
      ensures retries == 0 ==> captchaStartTime == now && lastProgressNotifyTime == 0.0
      ensures retries > 0 ==>
        captchaStartTime == old(captchaStartTime) && lastProgressNotifyTime == old(lastProgressNotifyTime)
      ensures notices == old(notices) + (if retries == 0 && repeat then [RepeatWarning] else [])
    {
      solvingInProgress := true;
      if retries == 0 {
        captchaStartTime := now;
        lastProgressNotifyTime := 0.0;
      }
      repeat := IsRepeat(lastSolveTime, now);
      if retries == 0 && repeat {
        notices := notices + [RepeatWarning];
      }
    }

    /** The success path: count the solve, wait the post-solve delay, notify,
        then release the lock and stamp the solve time, and resume farming when
        configured to. */
    method Succeed(repeat: bool, draw: real, autoResume: bool)
      requires 0.0 <= draw < 1.0
      modifies this`totalCaptchaSolved, this`now, this`notices, this`solvingInProgress,
        this`lastSolveTime, this`captchaDetected, this`farmLoopsStarted
      ensures totalCaptchaSolved == old(totalCaptchaSolved) + 1
      ensures now == old(now) + PostSolveDelay(repeat, draw)
      ensures notices == old(notices) + [Resolved]
      ensures !solvingInProgress && lastSolveTime == now && !captchaDetected
      ensures farmLoopsStarted == old(farmLoopsStarted) + (if autoResume then 1 else 0)
    {
      totalCaptchaSolved := totalCaptchaSolved + 1;
      now := now + PostSolveDelay(repeat, draw);
      notices := notices + [Resolved];
      solvingInProgress := false;
      lastSolveTime := now;
      captchaDetected := false;
      if autoResume {
        farmLoopsStarted := farmLoopsStarted + 1;
      }
    }

    /** Before a retry: a still-trying notice once more than three minutes have
        passed since the first attempt and more than two since the last such
        notice, then the backoff sleep. */
    method ScheduleRetry(retries: nat, error: string, draw: real)
      requires 0.0 <= draw < 1.0
      modifies this`lastProgressNotifyTime, this`notices, this`now
      ensures var progress := old(now - captchaStartTime) > ProgressStartTime as real
          && old(now - lastProgressNotifyTime) > ProgressInterval as real;
        notices == old(notices) + (if progress then [StillTrying] else [])
        && lastProgressNotifyTime == (if progress then old(now) else old(lastProgressNotifyTime))
      ensures now == old(now) + RetryDelay(retries, IsRateLimited(error), draw)
      ensures now >= old(now) + BaseDelay as real
    {
      var delay := RetryDelay(retries, IsRateLimited(error), draw);
      if now - captchaStartTime > ProgressStartTime as real && now - lastProgressNotifyTime > ProgressInterval as real {
        lastProgressNotifyTime := now;
        notices := notices + [StillTrying];
      }
      now := now + delay;
    }

    /** One attempt against the outside world, as `AttemptStep` describes it. */
    static method RunAttempt(cfg: Config, m: CaptchaMessage, env: AttemptEnv) returns (step: Step)
      ensures step == AttemptStep(CreateSolver(cfg), m, env)
      ensures step.providerCalls <= 1
      ensures KindOf(m).NoChallenge? ==> step == Step(Ok(()), 0)
    {
      step := AttemptStep(CreateSolver(cfg), m, env);
    }

    /** `handleCaptcha(params, message, retries)`: deduplicate, wait for or take
        the lock, then make the attempt. */
    method HandleCaptcha(cfg: Config, m: CaptchaMessage, retries: nat, envs: seq<AttemptEnv>, other: OtherHolder)
      returns (h: Handled)
      requires retries <= MaxRetries
      requires DrawsValid(envs)
      requires retries > 0 ==> solvingInProgress && now - lastSolveTime >= DedupWindow as real
      modifies this
      decreases MaxRetries - retries, 2
      ensures now >= old(now)
      // a call within 10 s of the last solve does nothing but clear the flag
      ensures old(now - lastSolveTime) < DedupWindow as real ==>
        h == Skipped && now == old(now) && solvingInProgress == old(solvingInProgress)
      ensures h.Skipped? ==>
        !captchaDetected && providerCalls == old(providerCalls) && notices == old(notices)
        && totalCaptchaSolved == old(totalCaptchaSolved) && totalCaptchaFailed == old(totalCaptchaFailed)
      ensures retries > 0 ==> !h.Skipped?
      // the lock is released on every exit that took it
      ensures !h.Skipped? ==> !solvingInProgress
      ensures h.Solved? ==> Solves(h, retries, old(totalCaptchaSolved), old(totalCaptchaFailed))
      ensures h.GaveUp? ==> Fails(h, retries, old(totalCaptchaSolved), old(totalCaptchaFailed), old(lastSolveTime))
      // at most one solver invocation per attempt; none without a challenge
      ensures !h.Skipped? ==> providerCalls <= old(providerCalls) + h.attempts
      ensures KindOf(m).NoChallenge? ==> providerCalls == old(providerCalls) && !h.GaveUp?
      // exactly one final notification, and it is the last one
      ensures h.Solved? ==> EndsWith1(old(notices), notices, Resolved)
      ensures h.GaveUp? ==> EndsWith1(old(notices), notices, Unresolved)
    {
      if now - lastSolveTime < DedupWindow as real {
        captchaDetected := false;
        return Skipped;
      }
      if solvingInProgress && retries == 0 {
        var _ := AwaitLock(other);
        if now - lastSolveTime < DedupWindow as real {
          captchaDetected := false;
          return Skipped;
        }
      }
      h := Attempt(cfg, m, retries, envs, other);
    }

    /** Success after at most the remaining attempts, counted once and stamped
        at the release of the lock. */
    predicate Solves(h: Handled, retries: nat, solved0: nat, failed0: nat)
      reads this
    {
      h.Solved? && 1 <= h.attempts <= MaxRetries + 1 - retries
      && totalCaptchaSolved == solved0 + 1 && totalCaptchaFailed == failed0
      && lastSolveTime == now && !captchaDetected
    }

    /** Exhaustion: every remaining attempt was used and one failure counted. */
    predicate Fails(h: Handled, retries: nat, solved0: nat, failed0: nat, lastSolve0: real)
      reads this
    {
      h.GaveUp? && h.attempts == MaxRetries + 1 - retries
      && totalCaptchaFailed == failed0 + 1 && totalCaptchaSolved == solved0
      && lastSolveTime == lastSolve0
    }

    /** The body after the lock wait: take the lock, run one attempt, and on
        failure either sleep and call `handleCaptcha` again with `retries + 1`
        (keeping the lock) or give up (releasing it). */
    method Attempt(cfg: Config, m: CaptchaMessage, retries: nat, envs: seq<AttemptEnv>, other: OtherHolder)
      returns (h: Handled)
      requires retries <= MaxRetries
      requires DrawsValid(envs)
      requires now - lastSolveTime >= DedupWindow as real
      modifies this
      decreases MaxRetries - retries, 1
      ensures now >= old(now) && !h.Skipped? && !solvingInProgress
      ensures h.Solved? ==> Solves(h, retries, old(totalCaptchaSolved), old(totalCaptchaFailed))
      ensures h.GaveUp? ==> Fails(h, retries, old(totalCaptchaSolved), old(totalCaptchaFailed), old(lastSolveTime))
      ensures providerCalls <= old(providerCalls) + h.attempts
      ensures KindOf(m).NoChallenge? ==> providerCalls == old(providerCalls) && h.Solved?
      ensures h.Solved? ==> EndsWith1(old(notices), notices, Resolved)
      ensures h.GaveUp? ==> EndsWith1(old(notices), notices, Unresolved)
    {
      var repeat := Begin(retries);
      var env := EnvAt(envs, 0);
      if retries == 0 {
        now := now + RanInt(3000, 8000, env.reactionDraw) as real;
      }
      var step := RunAttempt(cfg, m, env);
      providerCalls := providerCalls + step.providerCalls;
      now := now + env.workMs as real;

      if step.outcome.Ok? {
        ghost var before := notices;
        Succeed(repeat, env.draw, cfg.autoResume);
        InterimThenFinal(old(notices), before, notices, Resolved);
        return Solved(1);
      }

      ghost var before := notices;
      h := AfterFailure(cfg, m, retries, envs, other, step.outcome.message, env.draw);
      InterimThen(old(notices), before, notices, if h.Solved? then Resolved else Unresolved);
    }

    /** The `catch` block: sleep and call `handleCaptcha` again with
        `retries + 1`, keeping the lock, while retries remain; otherwise release
        the lock, count the failure and send the unresolved notice. */
    method AfterFailure(cfg: Config, m: CaptchaMessage, retries: nat, envs: seq<AttemptEnv>, other: OtherHolder,
                        error: string, draw: real)
      returns (h: Handled)
      requires retries <= MaxRetries
      requires DrawsValid(envs)
      requires 0.0 <= draw < 1.0
      requires solvingInProgress && now - lastSolveTime >= DedupWindow as real
      modifies this
      decreases MaxRetries - retries, 0
      ensures now >= old(now) && !h.Skipped? && !solvingInProgress
      ensures h.Solved? ==> Solves(h, retries, old(totalCaptchaSolved), old(totalCaptchaFailed))
      ensures h.GaveUp? ==> Fails(h, retries, old(totalCaptchaSolved), old(totalCaptchaFailed), old(lastSolveTime))
      ensures h.Solved? ==> h.attempts >= 2
      ensures providerCalls + 1 <= old(providerCalls) + h.attempts
      ensures h.Solved? ==> EndsWith1(old(notices), notices, Resolved)
      ensures h.GaveUp? ==> EndsWith1(old(notices), notices, Unresolved)
      ensures retries == MaxRetries ==> h == GaveUp(1, error)
    {
      if retries < MaxRetries {
        ScheduleRetry(retries, error, draw);
        ghost var before := notices;
        var rest := if |envs| > 0 then envs[1..] else [];
        var r := HandleCaptcha(cfg, m, retries + 1, rest, other);
        InterimThen(old(notices), before, notices, if r.Solved? then Resolved else Unresolved);
        h := match r
          case Solved(n) => Solved(n + 1)
          case GaveUp(n, e) => GaveUp(n + 1, e);
        return;
      }
      ghost var before := notices;
      solvingInProgress := false;
      totalCaptchaFailed := totalCaptchaFailed + 1;
      notices := notices + [Unresolved];
      InterimThenFinal(old(notices), before, notices, Unresolved);
      h := GaveUp(1, error);
    }
  }

  /** Interim notices followed by one final notice end the sequence with it. */
  lemma InterimThenFinal(a: seq<Notice>, b: seq<Notice>, c: seq<Notice>, last: Notice)
    requires |b| >= |a| && b[..|a|] == a && Interim(b[|a|..])
    requires c == b + [last]
    ensures EndsWith1(a, c, last)
  {
    assert c[|a|..|c| - 1] == b[|a|..];
    assert c[..|a|] == b[..|a|];
  }

  /** Interim notices followed by a sequence that ends in one final notice end
      in that same notice. */
  lemma InterimThen(a: seq<Notice>, b: seq<Notice>, c: seq<Notice>, last: Notice)
    requires |b| >= |a| && b[..|a|] == a && Interim(b[|a|..])
    requires EndsWith1(b, c, last)
    ensures EndsWith1(a, c, last)
  {
    var mid := c[|a|..|c| - 1];
    assert mid == b[|a|..] + c[|b|..|c| - 1];
    assert c[..|a|] == c[..|b|][..|a|];
  }
}

=== FILE: common.dfy ===
/** Shared vocabulary: optional values, results of operations that can throw,
    the bot's configuration and the bounded random draw used by every feature. */
module Common {

  datatype Option<+T> = None | Some(value: T)

  /** The outcome of an operation that either returns a value or throws an error
      carrying a message. */
  datatype Result<+T> = Ok(value: T) | Err(message: string)

  /** The configuration fields the core reads. Optional strings are `None` when
      absent; a JavaScript string is truthy only when it is present and non-empty. */
  datatype Config = Config(
    captchaAPI: Option<string>,
    apiKey: Option<string>,
    backupCaptchaAPI: Option<string>,
    backupApiKey: Option<string>,
    adminID: Option<string>,
    autoDaily: bool,
    autoLootbox: bool,
    autoFabledLootbox: bool,
    autoCookie: bool,
    autoQuest: bool,
    autoResume: bool)

  /** JavaScript truthiness of an optional string. */
  predicate Truthy(s: Option<string>)
  {
    s.Some? && s.value != ""
  }

  /** Largest integer not above `x`. */
  function Floor(x: real): int
  {
    x.Floor
  }

  /** `Math.round` on a finite number: halves round towards positive infinity. */
  function Round(x: real): (r: int)
    ensures x - 0.5 < r as real <= x + 0.5
  {
    (x + 0.5).Floor
  }

  /** An integer drawn uniformly from [lo, hi] by a draw `u` in [0, 1):
      `Math.floor(u * (hi - lo + 1)) + lo`. */
  function RanInt(lo: int, hi: int, u: real): (r: int)
    requires lo <= hi
    requires 0.0 <= u < 1.0
    ensures lo <= r <= hi
  {
    ScaledDrawBelow(u, hi - lo + 1);
    Floor(u * (hi - lo + 1) as real) + lo
  }

  /** Scaling by a positive factor keeps a draw below one below the factor. */
  lemma BelowOneScaled(u: real, span: real)
    requires u < 1.0 && span > 0.0
    ensures u * span < span
  {
    var d := 1.0 - u;
    assert span - u * span == d * span;
  }

  /** A draw in [0, 1) scaled by a positive count `n` floors into [0, n). */
  lemma ScaledDrawBelow(u: real, n: int)
    requires 0.0 <= u < 1.0
    requires n >= 1
    ensures 0 <= Floor(u * n as real) < n
  {
    var span := n as real;
    var x := u * span;
    BelowOneScaled(u, span);
    assert 0.0 <= x;
    var f := x.Floor;
    assert f as real <= x < f as real + 1.0;
    assert f < n by {
      assert f as real < n as real;
    }
    assert 0 <= f by {
      assert (-1) as real < f as real;
    }
    assert Floor(u * n as real) == f;
  }

  /** `2 ^ k`. */
  function Pow2(k: nat): (r: nat)
    ensures r >= 1
  {
    if k == 0 then 1 else 2 * Pow2(k - 1)
  }

  function Min(a: int, b: int): int
  {
    if a <= b then a else b
  }

  function MinReal(a: real, b: real): real
  {
    if a <= b then a else b
  }

  function MaxReal(a: real, b: real): real
  {
    if a >= b then a else b
  }

  /** Quotient and remainder are unique. */
  lemma DivModUnique(x: int, n: int, q: int, r: int)
    requires n >= 1 && 0 <= r < n && x == q * n + r
    ensures x % n == r && x / n == q
  {
    var q2 := x / n;
    var r2 := x % n;
    assert (q - q2) * n == r2 - r;
    SmallMultiple(q - q2, n);
  }

  /** The only multiple of `n` strictly between `-n` and `n` is zero. */
  lemma SmallMultiple(d: int, n: int)
    requires n >= 1 && -n < d * n < n
    ensures d == 0
  {
    assert d * n == (d - 1) * n + n == (d + 1) * n - n;
    assert d >= 1 ==> (d - 1) * n >= 0;
    assert d <= -1 ==> (d + 1) * n <= 0;
  }
}

=== FILE: failover.dfy ===
/** The failover solver: a round-robin over several captcha providers. Each
    provider's behaviour is an oracle: the `k`-th call made in normal mode
    receives `calls[k]`, and the `j`-th parallel (panic) round receives
    `panics[j]`, one answer per provider. Time is a millisecond count since
    the start of the solve; each answer says how long the provider took. */
module Failover {
  import opened Common
  import opened Text

  const MaxFailuresBeforeSwitch: int := 1
  const ProviderTimeout: nat := 69000
  const PanicThreshold: nat := 180000
  const HardTimeout: nat := 540000
  const RoundDelay: nat := 5000
  const ParallelTimeout: nat := 120000
  const SwitchDelay: nat := 1000
  const ShortDelay: nat := 2000

  const ProviderTimeoutError: string := "Timeout after 69s"
  const ParallelTimeoutError: string := "Parallel solve timed out after 120s"
  const AllRejectedError: string := "All promises were rejected"

  /** A provider's reply and the time it took to settle. */
  datatype Answer = Answer(result: Result<string>, tookMs: nat)

  function AnswerAt(calls: seq<Answer>, k: nat): Answer
  {
    if k < |calls| then calls[k] else Answer(Err("no answer"), 0)
  }

  /** `runWithTimeout`: the provider's own settlement when it comes before the
      limit, otherwise the timeout error exactly at the limit. */
  function WithTimeout(a: Answer, limit: nat, message: string): (b: Answer)
    ensures b.tookMs <= limit && b.tookMs <= a.tookMs
    ensures a.tookMs < limit ==> b == a
    ensures a.tookMs >= limit ==> b == Answer(Err(message), limit)
  {
    if a.tookMs < limit then a else Answer(Err(message), limit)
  }

  /** The `k`-th normal-mode call as the round sees it, after its 69 s limit. */
  function NormalAnswer(calls: seq<Answer>, k: nat): Answer
  {
    WithTimeout(AnswerAt(calls, k), ProviderTimeout, ProviderTimeoutError)
  }

  // ------------------------------------------------------------ panic mode

  /** One parallel round: what each provider would answer if started now. */
  datatype PanicRound = PanicRound(answers: seq<Answer>)

  function PanicAt(panics: seq<PanicRound>, j: nat): PanicRound
  {
    if j < |panics| then panics[j] else PanicRound([])
  }

  /** Provider `i`'s answer in a parallel round, after its 120 s limit. */
  function Settled(round: PanicRound, i: nat): Answer
  {
    WithTimeout(AnswerAt(round.answers, i), ParallelTimeout, ParallelTimeoutError)
  }

  /** The earliest success among `xs[i..]`; among equally fast successes the
      first in provider order. */
  function EarliestFrom(xs: seq<Answer>, i: nat): (r: Option<nat>)
    requires i <= |xs|
    decreases |xs| - i
    ensures r.Some? ==> i <= r.value < |xs| && xs[r.value].result.Ok?
    ensures r.Some? ==> forall j :: i <= j < |xs| && xs[j].result.Ok? ==>
      xs[r.value].tookMs < xs[j].tookMs || (xs[r.value].tookMs == xs[j].tookMs && r.value <= j)
    ensures r.None? <==> forall j :: i <= j < |xs| ==> xs[j].result.Err?
  {
    if i == |xs| then None
    else
      var rest := EarliestFrom(xs, i + 1);
      if xs[i].result.Err? then rest
      else if rest.Some? && xs[rest.value].tookMs < xs[i].tookMs then rest
      else Some(i)
  }

  /** The time at which the last of `xs[i..]` settles. */
  function LatestFrom(xs: seq<Answer>, i: nat): (t: nat)
    requires i <= |xs|
    decreases |xs| - i
    ensures forall j :: i <= j < |xs| ==> xs[j].tookMs <= t
    ensures i < |xs| ==> exists j :: i <= j < |xs| && xs[j].tookMs == t
    ensures i == |xs| ==> t == 0
  {
    if i == |xs| then 0
    else
      var rest := LatestFrom(xs, i + 1);
      if xs[i].tookMs >= rest then xs[i].tookMs else rest
  }

  datatype Outcome = Outcome(result: Result<string>, tookMs: nat)

  /** `Promise.any` over the `n` providers' guarded calls: the earliest success,
      or, when every call fails, an aggregate rejection once the last settles. */
  function PanicOutcome(round: PanicRound, n: nat): (o: Outcome)
    ensures o.tookMs <= ParallelTimeout
    ensures o.result.Ok? <==> exists i :: 0 <= i < n && Settled(round, i).result.Ok?
    ensures o.result.Ok? ==> exists i :: 0 <= i < n && Settled(round, i) == Answer(o.result, o.tookMs)
    ensures o.result.Ok? ==> forall i :: 0 <= i < n && Settled(round, i).result.Ok? ==> o.tookMs <= Settled(round, i).tookMs
    ensures o.result.Err? ==> o.result.message == AllRejectedError
    ensures o.result.Err? ==> forall i :: 0 <= i < n ==> Settled(round, i).tookMs <= o.tookMs
  {
    var settled := seq(n, i requires 0 <= i < n => Settled(round, i));
    assert forall i :: 0 <= i < n ==> settled[i] == Settled(round, i);
    match EarliestFrom(settled, 0)
    case Some(w) => Outcome(settled[w].result, settled[w].tookMs)
    case None =>
      var t := LatestFrom(settled, 0);
      assert forall i :: 0 <= i < n ==> settled[i].tookMs <= ParallelTimeout;
      Outcome(Err(AllRejectedError), t)
  }

  /** One sequential attempt: which provider, and when it started. */
  datatype Try = Try(provider: nat, at: nat)

  /** (start + a) mod n comes back to `start` within one turn only after `n` steps. */
  lemma FullCircle(start: nat, a: nat, n: nat)
    requires start < n && 0 < a <= n
    ensures (start + a) % n == start <==> a == n
  {
    if start + a < n {
      DivModUnique(start + a, n, 0, start + a);
    } else {
      DivModUnique(start + a, n, 1, start + a - n);
    }
  }

  /** One step of the rotation. */
  lemma ModSucc(x: nat, n: nat)
    requires n >= 1
    ensures (x % n + 1) % n == (x + 1) % n
  {
    var q := x / n;
    var r := x % n;
    if r + 1 < n {
      DivModUnique(x + 1, n, q, r + 1);
      DivModUnique(r + 1, n, 0, r + 1);
    } else {
      DivModUnique(x + 1, n, q + 1, 0);
      DivModUnique(r + 1, n, 1, 0);
    }
  }

  /** Within one turn the rotation never visits a provider twice. */
  lemma RotationDistinct(start: nat, n: nat, a: nat, b: nat)
    requires start < n && a < b < n
    ensures (start + a) % n != (start + b) % n
  {
    if start + a >= n {
      DivModUnique(start + a, n, 1, start + a - n);
    } else {
      DivModUnique(start + a, n, 0, start + a);
    }
    if start + b >= n {
      DivModUnique(start + b, n, 1, start + b - n);
    } else {
      DivModUnique(start + b, n, 0, start + b);
    }
  }

  /** Within one turn the rotation visits every provider. */
  lemma RotationCovers(start: nat, n: nat, j: nat) returns (k: nat)
    requires start < n && j < n
    ensures k < n && (start + k) % n == j
  {
    if j >= start {
      k := j - start;
      DivModUnique(start + k, n, 0, j);
    } else {
      k := j + n - start;
      DivModUnique(start + k, n, 1, j);
    }
  }

  /** A failed image solve (one full turn of the rotation) tried every
      provider, and none twice. */
  lemma FullTurn(start: nat, n: nat, tried: seq<nat>)
    requires start < n && |tried| == n
    requires forall k :: 0 <= k < |tried| ==> tried[k] == (start + k) % n
    ensures forall j :: 0 <= j < n ==> j in tried
    ensures forall a, b :: 0 <= a < b < |tried| ==> tried[a] != tried[b]
  {
    forall j | 0 <= j < n ensures j in tried {
      var k := RotationCovers(start, n, j);
      assert tried[k] == j;
    }
    forall a, b | 0 <= a < b < |tried| ensures tried[a] != tried[b] {
      RotationDistinct(start, n, a, b);
    }
  }

  function GetOrZero(m: map<string, int>, k: string): int
  {
    if k in m then m[k] else 0
  }

  class FailoverCaptchaSolver {
    const names: seq<string>
    var currentIndex: nat
    var failureCount: map<string, int>

    /** Providers are present, the index points at one of them, every provider
        has a count, and all counts are zero: with a switch threshold of one,
        every failure resets its count at once. */
    predicate Valid()
      reads this
    {
      |names| >= 1 && currentIndex < |names|
      && (forall k :: 0 <= k < |names| ==> names[k] in failureCount)
      && (forall nm :: nm in failureCount ==> failureCount[nm] == 0)
    }

    /** The constructor: requires a provider (the factory below handles the
        empty list); starts at the first with every count at zero. */
    constructor(providers: seq<string>)
      requires |providers| >= 1
      ensures Valid()
      ensures names == providers && currentIndex == 0
      ensures failureCount == map nm | nm in providers :: 0
    {
      names := providers;
      currentIndex := 0;
      failureCount := map nm | nm in providers :: 0;
    }

    /** `getCurrentProviderName`. */
    function CurrentProviderName(): (nm: string)
      reads this
      requires Valid()
      ensures nm in names && nm == names[currentIndex]
    {
      names[currentIndex]
    }

    /** `getProviderNames`: the providers in rotation order. */
    function ProviderNames(): (ns: seq<string>)
      reads this
      ensures ns == names
    {
      names
    }

    /** `switchToNextSolver`: the next provider, wrapping after the last. */
    method SwitchToNextSolver()
      requires Valid()
      modifies this`currentIndex
      ensures Valid()
      ensures currentIndex == (old(currentIndex) + 1) % |names|
    {
      currentIndex := (currentIndex + 1) % |names|;
    }

    /** `recordFailure`: bump the provider's count; at the threshold reset it
        and ask for a switch. */
    method RecordFailure(name: string) returns (shouldSwitch: bool)
      modifies this`failureCount
      ensures shouldSwitch <==> GetOrZero(old(failureCount), name) + 1 >= MaxFailuresBeforeSwitch
      ensures shouldSwitch ==> failureCount == old(failureCount)[name := 0]
      ensures !shouldSwitch ==> failureCount == old(failureCount)[name := GetOrZero(old(failureCount), name) + 1]
      ensures old(Valid()) ==> shouldSwitch && Valid()
    {
      var current := GetOrZero(failureCount, name) + 1;
      failureCount := failureCount[name := current];
      if current >= MaxFailuresBeforeSwitch {
        failureCount := failureCount[name := 0];
        return true;
      }
      return false;
    }

    /** `recordSuccess`: the provider's count goes back to zero. */
    method RecordSuccess(name: string)
      modifies this`failureCount
      ensures failureCount == old(failureCount)[name := 0]
      ensures old(Valid()) ==> Valid()
    {
      failureCount := failureCount[name := 0];
    }

    /** `solveImage`: try the current provider; on failure switch to the next,
        stopping once the rotation is back where it started. Every provider is
        therefore tried once, in rotation order, never twice. */
    method SolveImage(calls: seq<Result<string>>) returns (r: Result<string>, tried: seq<nat>)
      requires Valid()
      modifies this`currentIndex, this`failureCount
      ensures Valid()
      ensures 1 <= |tried| <= |names|
      ensures forall k :: 0 <= k < |tried| ==> tried[k] == (old(currentIndex) + k) % |names|
      ensures forall k :: 0 <= k < |tried| - 1 ==> k < |calls| ==> calls[k].Err?
      ensures r.Ok? ==> |tried| - 1 < |calls| && r == calls[|tried| - 1]
      ensures r.Ok? ==> currentIndex == tried[|tried| - 1]
      ensures r.Err? ==> |tried| == |names| && currentIndex == old(currentIndex)
      ensures r.Err? ==> |tried| - 1 < |calls| ==> calls[|tried| - 1].Err?
      ensures r.Err? ==> StartsWith(r.message, "[FailoverSolver] All providers failed for image captcha. Last error: ")
    {
      var start := currentIndex;
      var n := |names|;
      var attempts := 0;
      var lastError := "";
      tried := [];
      while attempts < n * 2
        invariant Valid()
        invariant attempts == |tried| < n
        invariant currentIndex == (start + attempts) % n
        invariant forall k :: 0 <= k < |tried| ==> tried[k] == (start + k) % n
        invariant forall k :: 0 <= k < |tried| ==> k < |calls| ==> calls[k].Err?
        decreases n * 2 - attempts
      {
        var i := currentIndex;
        var name := names[i];
        attempts := attempts + 1;
        tried := tried + [i];
        var answer := if attempts - 1 < |calls| then calls[attempts - 1] else Err("no answer");
        if answer.Ok? {
          RecordSuccess(name);
          return answer, tried;
        }
        lastError := answer.message;
        var shouldSwitch := RecordFailure(name);
        if shouldSwitch {
          SwitchToNextSolver();
          ModSucc(start + attempts - 1, n);
          FullCircle(start, attempts, n);
          if currentIndex == start && attempts >= n {
            break;
          }
        }
      }
      r := Err("[FailoverSolver] All providers failed for image captcha. Last error: " + lastError);
    }

    /** Normal-mode bookkeeping for one failed call: reset the provider's
        count and move on to the next provider. */
    method FailAndSwitch(name: string)
      requires Valid()
      modifies this`currentIndex, this`failureCount
      ensures Valid()
      ensures currentIndex == (old(currentIndex) + 1) % |names|
    {
      var shouldSwitch := RecordFailure(name);
      if shouldSwitch {
        SwitchToNextSolver();
      }
    }

    /** One sequential call: the current provider, limited to 69 s; on success
        its count is reset, on failure the rotation moves on and a one-second
        pause follows. */
    method SequentialCall(calls: seq<Answer>, start: nat, tries0: seq<Try>, elapsed0: nat)
      returns (a: Answer, tries: seq<Try>, elapsed: nat)
      requires Valid() && start < |names|
      requires currentIndex == (start + |tries0|) % |names|
      requires Rotated(start, |names|, tries0, elapsed0)
      requires elapsed0 < PanicThreshold
      modifies this`currentIndex, this`failureCount
      ensures Valid()
      ensures a == NormalAnswer(calls, |tries0|)
      ensures tries == tries0 + [Try((start + |tries0|) % |names|, elapsed0)]
      ensures a.result.Ok? ==> elapsed == elapsed0 + a.tookMs && Rotated(start, |names|, tries, elapsed + 1)
      ensures a.result.Ok? ==> currentIndex == old(currentIndex)
      ensures a.result.Err? ==> elapsed == elapsed0 + a.tookMs + SwitchDelay && Rotated(start, |names|, tries, elapsed)
      ensures a.result.Err? ==> currentIndex == (start + |tries|) % |names|
    {
      var n := |names|;
      var i := currentIndex;
      a := NormalAnswer(calls, |tries0|);
      tries := tries0 + [Try(i, elapsed0)];
      elapsed := elapsed0 + a.tookMs;
      if a.result.Ok? {
        RecordSuccess(names[i]);
        RotatedExtend(start, n, tries0, elapsed0, elapsed + 1);
        return;
      }
      FailAndSwitch(names[i]);
      ModSucc(start + |tries0|, n);
      elapsed := elapsed + SwitchDelay;
      RotatedExtend(start, n, tries0, elapsed0, elapsed);
    }

    /** One sequential round: up to two turns of the rotation, stopping early at
        the panic threshold or on the first success. The round's first call
        starts at once, each later one when `NextTryAt` says. */
    method SequentialRound(calls: seq<Answer>, start: nat, tries0: seq<Try>, elapsed0: nat)
      returns (success: Option<string>, tries: seq<Try>, elapsed: nat, lastError: Option<string>)
      requires Valid() && start < |names|
      requires currentIndex == (start + |tries0|) % |names|
      requires Rotated(start, |names|, tries0, elapsed0)
      requires NormalFailed(calls, |tries0|)
      requires elapsed0 < PanicThreshold
      requires Paced(calls, |names|, tries0) && |tries0| % (2 * |names|) == 0
      requires |tries0| == 0 ==> elapsed0 == 0
      requires |tries0| > 0 ==> elapsed0 == SequentialEnd(calls, tries0)
      modifies this`currentIndex, this`failureCount
      ensures Valid()
      ensures |tries0| < |tries| <= |tries0| + 2 * |names|
      ensures Paced(calls, |names|, tries) && tries[|tries0|].at == elapsed0
      ensures success.None? ==> elapsed > elapsed0
      ensures success.None? ==> Rotated(start, |names|, tries, elapsed) && NormalFailed(calls, |tries|)
      ensures success.None? ==> currentIndex == (start + |tries|) % |names|
      ensures success.None? ==> elapsed < PanicThreshold + ProviderTimeout + SwitchDelay
      // a failed round ends one second after its last call failed, with that call's error
      ensures success.None? ==> elapsed == tries[|tries| - 1].at + NormalAnswer(calls, |tries| - 1).tookMs + SwitchDelay
      ensures success.None? ==> lastError == Some(NormalAnswer(calls, |tries| - 1).result.message)
      // and it stops short of two turns only once the panic threshold has passed
      ensures success.None? ==> |tries| == |tries0| + 2 * |names| || elapsed >= PanicThreshold
      ensures success.Some? ==> Rotated(start, |names|, tries, elapsed + 1) && NormalFailed(calls, |tries| - 1)
      ensures success.Some? ==> NormalAnswer(calls, |tries| - 1).result == Ok(success.value)
      ensures success.Some? ==> elapsed == tries[|tries| - 1].at + NormalAnswer(calls, |tries| - 1).tookMs
      ensures success.Some? ==> elapsed < PanicThreshold + ProviderTimeout
      ensures success.Some? ==> currentIndex == (start + |tries| - 1) % |names|
    {
      success := None;
      tries := tries0;
      elapsed := elapsed0;
      lastError := None;
      var roundAttempts := 0;
      while roundAttempts < |names| * 2
        invariant Valid()
        invariant roundAttempts <= |names| * 2
        invariant |tries| == |tries0| + roundAttempts
        invariant currentIndex == (start + |tries|) % |names|
        invariant Rotated(start, |names|, tries, elapsed) && NormalFailed(calls, |tries|)
        invariant Paced(calls, |names|, tries)
        invariant elapsed < PanicThreshold + ProviderTimeout + SwitchDelay
        invariant roundAttempts == 0 ==> elapsed == elapsed0 && tries == tries0
        invariant roundAttempts > 0 ==> elapsed > elapsed0 && tries[|tries0|].at == elapsed0
        invariant roundAttempts > 0 ==>
          elapsed == tries[|tries| - 1].at + NormalAnswer(calls, |tries| - 1).tookMs + SwitchDelay
          && lastError == Some(NormalAnswer(calls, |tries| - 1).result.message)
        decreases |names| * 2 - roundAttempts
      {
        if elapsed >= PanicThreshold || elapsed >= HardTimeout {
          break;
        }
        if roundAttempts > 0 {
          InsideRound(|tries0|, roundAttempts, 2 * |names|);
        }
        PacedExtend(calls, |names|, tries, (start + |tries|) % |names|, elapsed);
        roundAttempts := roundAttempts + 1;
        var a;
        a, tries, elapsed := SequentialCall(calls, start, tries, elapsed);
        if a.result.Ok? {
          return Some(a.result.value), tries, elapsed, lastError;
        }
        lastError := Some(a.result.message);
      }
    }

    /** `solveHcaptcha`: sequential rounds of up to two turns of the rotation
        until three minutes have passed; from then on parallel rounds over every
        provider (each limited to 120 s, five seconds between rounds), calling
        `onPanic` before the first one only; the loop gives up once nine minutes
        have passed at its head. `panicCalls` counts the `onPanic` calls and
        `rounds` the sequential rounds. */
    method SolveHcaptcha(calls: seq<Answer>, panics: seq<PanicRound>)
      returns (r: Result<string>, tries: seq<Try>, panicStarts: seq<nat>, panicCalls: nat, rounds: nat,
               elapsed: nat, lastError: Option<string>)
      requires Valid()
      modifies this`currentIndex, this`failureCount
      ensures Valid()
      // sequential calls rotate through the providers and all start before the panic threshold
      ensures |tries| > 0 && Rotated(old(currentIndex), |names|, tries, elapsed + 1)
      // the first call starts at once, each next one when the previous failed, plus 1 s, plus 5 s between rounds
      ensures Paced(calls, |names|, tries)
      // each sequential round makes at most two turns of the rotation
      ensures |tries| <= rounds * (2 * |names|)
      // parallel rounds start only between the panic threshold and the hard limit, the first one when the
      // sequential mode is over and each later one 5 s after the one before settled
      ensures PanicWindow(panicStarts) && PanicBegan(calls, panics, |names|, tries, panicStarts)
      // `onPanic` is called once, before the first parallel round, and never otherwise
      ensures panicCalls <= 1 && (panicCalls == 1 <==> |panicStarts| > 0)
      // on success every call and round before the last one failed
      ensures r.Ok? ==> NormalFailed(calls, |tries| - 1) && PanicFailed(panics, |names|, |panicStarts| - 1)
      // a success is the answer of the last sequential call or of the last parallel round, as soon as it comes
      ensures r.Ok? && |panicStarts| == 0 ==> r == NormalAnswer(calls, |tries| - 1).result
      ensures r.Ok? && |panicStarts| == 0 ==> elapsed == tries[|tries| - 1].at + NormalAnswer(calls, |tries| - 1).tookMs
      ensures r.Ok? && |panicStarts| > 0 ==>
        r == PanicOutcome(PanicAt(panics, |panicStarts| - 1), |names|).result && NormalFailed(calls, |tries|)
      ensures r.Ok? && |panicStarts| > 0 ==>
        elapsed == panicStarts[|panicStarts| - 1] + PanicOutcome(PanicAt(panics, |panicStarts| - 1), |names|).tookMs
      // every failed sequential call moved the cursor on; a sequential success leaves it on the winner,
      // and parallel rounds do not move it
      ensures r.Ok? && |panicStarts| == 0 ==> currentIndex == (old(currentIndex) + |tries| - 1) % |names|
      ensures r.Err? || |panicStarts| > 0 ==> currentIndex == (old(currentIndex) + |tries|) % |names|
      // giving up happens after a failed parallel round whose end, plus the 5 s pause, is at or past the
      // hard limit; every call and round failed, and the last error is that round's aggregate rejection
      ensures r.Err? ==> |panicStarts| > 0 && NormalFailed(calls, |tries|) && PanicFailed(panics, |names|, |panicStarts|)
      ensures r.Err? ==>
        elapsed == panicStarts[|panicStarts| - 1] + PanicOutcome(PanicAt(panics, |panicStarts| - 1), |names|).tookMs + RoundDelay
      ensures r.Err? ==> elapsed >= HardTimeout
      ensures r.Err? ==> lastError == Some(AllRejectedError) && r.message == HardTimeoutMessage(|tries|, lastError)
      // the hard limit is checked only between rounds: a parallel round started just before it can run on
      ensures elapsed < HardTimeout + ParallelTimeout + RoundDelay
      ensures r.Ok? ==> elapsed < HardTimeout + ParallelTimeout
    {
      var success;
      success, tries, panicStarts, elapsed, lastError, panicCalls, rounds := Rounds(calls, panics);
      if success.Some? {
        r := Ok(success.value);
      } else {
        r := Err(HardTimeoutMessage(|tries|, lastError));
      }
    }

    /** The loop of `solveHcaptcha`: rounds until one succeeds or the hard
        limit has passed at the head of the loop. */
    method Rounds(calls: seq<Answer>, panics: seq<PanicRound>)
      returns (success: Option<string>, tries: seq<Try>, starts: seq<nat>, elapsed: nat, lastError: Option<string>,
               panicCalls: nat, rounds: nat)
      requires Valid()
      modifies this`currentIndex, this`failureCount
      ensures Valid()
      ensures Latched(starts, |starts| > 0, panicCalls) && |tries| <= rounds * (2 * |names|)
      ensures success.None? ==>
        Running(old(currentIndex), calls, panics, tries, starts, elapsed, |starts| > 0, panicCalls, rounds)
        && Clocked(calls, panics, |names|, tries, starts, elapsed, lastError) && elapsed >= HardTimeout
      ensures success.Some? ==>
        Succeeded(old(currentIndex), |names|, calls, panics, tries, starts, elapsed, success.value)
        && SucceededAt(calls, panics, |names|, tries, starts, elapsed)
      ensures success.Some? && |starts| == 0 ==> currentIndex == (old(currentIndex) + |tries| - 1) % |names|
      ensures success.Some? && |starts| > 0 ==> currentIndex == (old(currentIndex) + |tries|) % |names|
    {
      var start := currentIndex;
      var panicTriggered := false;
      elapsed := 0;
      tries := [];
      starts := [];
      lastError := None;
      panicCalls := 0;
      rounds := 0;
      while elapsed < HardTimeout
        invariant Running(start, calls, panics, tries, starts, elapsed, panicTriggered, panicCalls, rounds)
        invariant Clocked(calls, panics, |names|, tries, starts, elapsed, lastError)
        decreases HardTimeout - elapsed
      {
        success, tries, starts, elapsed, lastError, panicTriggered, panicCalls, rounds :=
          Round(calls, panics, start, tries, starts, elapsed, panicTriggered, panicCalls, rounds, lastError);
        if success.Some? {
          return;
        }
      }
      success := None;
    }

    /** What holds between two rounds of `solveHcaptcha` that both failed. */
    predicate Running(start: nat, calls: seq<Answer>, panics: seq<PanicRound>, tries: seq<Try>, starts: seq<nat>, elapsed: nat,
                      panicTriggered: bool, panicCalls: nat, rounds: nat)
      reads this
    {
      Valid() && start < |names|
      && currentIndex == (start + |tries|) % |names|
      && Rotated(start, |names|, tries, elapsed) && NormalFailed(calls, |tries|)
      && PanicWindow(starts) && PanicFailed(panics, |names|, |starts|)
      && (|starts| > 0 ==> elapsed >= PanicThreshold)
      && elapsed < HardTimeout + ParallelTimeout + RoundDelay
      && Latched(starts, panicTriggered, panicCalls)
      && |tries| <= rounds * (2 * |names|)
    }

    /** One pass of the outer loop: a parallel round once the panic threshold
        has passed, announced through `onPanic` when the latch is still open,
        otherwise a sequential round and the pause after it. */
    method Round(calls: seq<Answer>, panics: seq<PanicRound>, start: nat, tries0: seq<Try>, starts0: seq<nat>, elapsed0: nat,
                 panicTriggered0: bool, panicCalls0: nat, rounds0: nat, lastError0: Option<string>)
      returns (success: Option<string>, tries: seq<Try>, starts: seq<nat>, elapsed: nat, lastError: Option<string>,
               panicTriggered: bool, panicCalls: nat, rounds: nat)
      requires Running(start, calls, panics, tries0, starts0, elapsed0, panicTriggered0, panicCalls0, rounds0)
      requires Clocked(calls, panics, |names|, tries0, starts0, elapsed0, lastError0)
      requires elapsed0 < HardTimeout
      modifies this`currentIndex, this`failureCount
      ensures Valid()
      ensures elapsed > elapsed0 || success.Some?
      ensures Latched(starts, panicTriggered, panicCalls) && |tries| <= rounds * (2 * |names|)
      ensures success.None? ==>
        Running(start, calls, panics, tries, starts, elapsed, panicTriggered, panicCalls, rounds)
        && Clocked(calls, panics, |names|, tries, starts, elapsed, lastError)
      ensures success.Some? ==>
        Succeeded(start, |names|, calls, panics, tries, starts, elapsed, success.value)
        && SucceededAt(calls, panics, |names|, tries, starts, elapsed)
      ensures success.Some? && |starts| == 0 ==> currentIndex == (start + |tries| - 1) % |names|
      ensures success.Some? && |starts| > 0 ==> currentIndex == (start + |tries|) % |names|
    {
      var n := |names|;
      tries := tries0;
      panicTriggered := panicTriggered0;
      panicCalls := panicCalls0;
      rounds := rounds0;
      if elapsed0 >= PanicThreshold {
        success, starts, elapsed, lastError, panicTriggered, panicCalls :=
          PanicPass(calls, panics, start, tries0, starts0, elapsed0, panicTriggered0, panicCalls0, rounds0, lastError0);
        return;
      }
      starts := starts0;
      rounds := rounds0 + 1;
      success, tries, elapsed, lastError :=
        SequentialPass(calls, panics, start, tries0, starts0, elapsed0, panicTriggered0, panicCalls0, rounds0, lastError0);
    }

    /** The panic half of a pass of the outer loop: `onPanic` when the latch
        is still open, then a parallel round and, when it fails, the pause
        after it. */
    method PanicPass(calls: seq<Answer>, panics: seq<PanicRound>, start: nat, tries0: seq<Try>, starts0: seq<nat>,
                     elapsed0: nat, panicTriggered0: bool, panicCalls0: nat, rounds0: nat, lastError0: Option<string>)
      returns (success: Option<string>, starts: seq<nat>, elapsed: nat, lastError: Option<string>,
               panicTriggered: bool, panicCalls: nat)
      requires Running(start, calls, panics, tries0, starts0, elapsed0, panicTriggered0, panicCalls0, rounds0)
      requires Clocked(calls, panics, |names|, tries0, starts0, elapsed0, lastError0)
      requires PanicThreshold <= elapsed0 < HardTimeout
      ensures |starts| > 0 && Latched(starts, panicTriggered, panicCalls)
      ensures elapsed > elapsed0 || success.Some?
      ensures success.None? ==>
        Running(start, calls, panics, tries0, starts, elapsed, panicTriggered, panicCalls, rounds0)
        && Clocked(calls, panics, |names|, tries0, starts, elapsed, lastError)
      ensures success.Some? ==>
        Succeeded(start, |names|, calls, panics, tries0, starts, elapsed, success.value)
        && SucceededAt(calls, panics, |names|, tries0, starts, elapsed)
    {
      var n := |names|;
      panicTriggered := panicTriggered0;
      panicCalls := panicCalls0;
      if !panicTriggered {
        panicTriggered := true;
        panicCalls := panicCalls + 1;
      }
      var o;
      o, starts, elapsed := ParallelRound(panics, n, starts0, elapsed0);
      ClockedPanic(calls, panics, n, tries0, starts0, elapsed0, lastError0);
      if o.result.Ok? {
        RotatedLater(start, n, tries0, elapsed0, elapsed + 1);
        return Some(o.result.value), starts, elapsed, None, panicTriggered, panicCalls;
      }
      RotatedLater(start, n, tries0, elapsed0, elapsed);
      return None, starts, elapsed, Some(o.result.message), panicTriggered, panicCalls;
    }

    /** The sequential half of a pass of the outer loop: a sequential round
        and, when it fails, the pause after it. */
    method SequentialPass(calls: seq<Answer>, panics: seq<PanicRound>, start: nat, tries0: seq<Try>, starts0: seq<nat>,
                          elapsed0: nat, panicTriggered0: bool, panicCalls0: nat, rounds0: nat, lastError0: Option<string>)
      returns (success: Option<string>, tries: seq<Try>, elapsed: nat, lastError: Option<string>)
      requires Running(start, calls, panics, tries0, starts0, elapsed0, panicTriggered0, panicCalls0, rounds0)
      requires Clocked(calls, panics, |names|, tries0, starts0, elapsed0, lastError0)
      requires elapsed0 < PanicThreshold
      modifies this`currentIndex, this`failureCount
      ensures Valid() && |starts0| == 0
      ensures elapsed > elapsed0 || success.Some?
      ensures |tries| <= (rounds0 + 1) * (2 * |names|)
      ensures success.None? ==>
        Running(start, calls, panics, tries, starts0, elapsed, panicTriggered0, panicCalls0, rounds0 + 1)
        && Clocked(calls, panics, |names|, tries, starts0, elapsed, lastError)
      ensures success.Some? ==>
        Succeeded(start, |names|, calls, panics, tries, starts0, elapsed, success.value)
        && SucceededAt(calls, panics, |names|, tries, starts0, elapsed)
      ensures success.Some? ==> currentIndex == (start + |tries| - 1) % |names|
    {
      var n := |names|;
      ClockedRoundStart(calls, panics, n, tries0, starts0, elapsed0, lastError0);
      success, tries, elapsed, lastError := SequentialRound(calls, start, tries0, elapsed0);
      assert (rounds0 + 1) * (2 * n) == rounds0 * (2 * n) + 2 * n;
      if success.None? {
        var pause := RoundPause(elapsed);
        RoundPauseAlwaysFull(elapsed);
        RotatedLater(start, n, tries, elapsed, elapsed + pause);
        ClockedSequential(calls, panics, n, tries0, tries, elapsed, lastError);
        elapsed := elapsed + pause;
      }
    }

    /** One parallel round over every provider; a failed round is followed by
        the five-second pause. */
    static method ParallelRound(panics: seq<PanicRound>, n: nat, starts0: seq<nat>, elapsed0: nat)
      returns (o: Outcome, starts: seq<nat>, elapsed: nat)
      requires PanicWindow(starts0) && PanicFailed(panics, n, |starts0|)
      requires PanicThreshold <= elapsed0 < HardTimeout
      ensures o == PanicOutcome(PanicAt(panics, |starts0|), n)
      ensures starts == starts0 + [elapsed0] && PanicWindow(starts)
      ensures o.result.Ok? ==> elapsed == elapsed0 + o.tookMs && PanicFailed(panics, n, |starts| - 1)
      ensures o.result.Err? ==> elapsed == elapsed0 + o.tookMs + RoundDelay && PanicFailed(panics, n, |starts|)
      ensures elapsed0 <= elapsed <= elapsed0 + ParallelTimeout + RoundDelay
      ensures o.result.Err? ==> elapsed > elapsed0
    {
      o := PanicOutcome(PanicAt(panics, |starts0|), n);
      starts := starts0 + [elapsed0];
      elapsed := elapsed0 + o.tookMs;
      if o.result.Err? {
        elapsed := elapsed + RoundDelay;
      }
    }
  }

  /** The error thrown at the hard limit: the number of sequential attempts and
      the last error (`undefined` when there was none). */
  function HardTimeoutMessage(attempts: nat, lastError: Option<string>): (m: string)
    ensures StartsWith(m, "[FailoverSolver] Hard timeout reached after " + NatToString(attempts) + " attempts.")
  {
    var p := "[FailoverSolver] Hard timeout reached after " + NatToString(attempts) + " attempts.";
    var detail := match lastError case Some(e) => e case None => "undefined";
    var m := p + " Last error: " + detail;
    assert m[..|p|] == p;
    m
  }

  /** The sequential calls so far went round the `n` providers in order from
      `start`, all began before the panic threshold, in increasing time, and
      before `elapsed`. */
  predicate Rotated(start: nat, n: nat, tries: seq<Try>, elapsed: nat)
  {
    n >= 1
    && (forall k :: 0 <= k < |tries| ==> tries[k].provider == (start + k) % n && tries[k].at < PanicThreshold)
    && (forall k :: 0 <= k < |tries| - 1 ==> tries[k].at < tries[k + 1].at)
    && (|tries| > 0 ==> tries[|tries| - 1].at < elapsed)
  }

  /** Appending the next call in the rotation keeps the calls rotated. */
  lemma RotatedExtend(start: nat, n: nat, tries: seq<Try>, elapsed: nat, later: nat)
    requires Rotated(start, n, tries, elapsed)
    requires elapsed < PanicThreshold && elapsed < later
    ensures Rotated(start, n, tries + [Try((start + |tries|) % n, elapsed)], later)
  {
  }

  /** A rotated run stays rotated at any later time. */
  lemma RotatedLater(start: nat, n: nat, tries: seq<Try>, elapsed: nat, later: nat)
    requires Rotated(start, n, tries, elapsed) && elapsed <= later
    ensures Rotated(start, n, tries, later)
  {
  }

  /** When the call after the `k`-th (begun at `at`) begins once the `k`-th
      failed: its own time, the one-second pause after a failure and, when it
      was the last of a round's `2n` calls, the five-second pause between
      rounds. */
  function NextTryAt(calls: seq<Answer>, n: nat, k: nat, at: nat): (t: nat)
    requires n >= 1
    ensures at + SwitchDelay <= t <= at + ProviderTimeout + SwitchDelay + RoundDelay
    ensures (k + 1) % (2 * n) != 0 ==> t == at + NormalAnswer(calls, k).tookMs + SwitchDelay
  {
    at + NormalAnswer(calls, k).tookMs + SwitchDelay + (if (k + 1) % (2 * n) == 0 then RoundDelay else 0)
  }

  /** The clock when the sequential mode is over: the last call's time, the
      one-second pause after its failure and the five-second pause after its
      round. */
  function SequentialEnd(calls: seq<Answer>, tries: seq<Try>): nat
    requires |tries| > 0
  {
    tries[|tries| - 1].at + NormalAnswer(calls, |tries| - 1).tookMs + SwitchDelay + RoundDelay
  }

  /** The sequential calls start at time 0, and each next one when
      `NextTryAt` says. */
  predicate Paced(calls: seq<Answer>, n: nat, tries: seq<Try>)
  {
    n >= 1
    && (|tries| > 0 ==> tries[0].at == 0)
    && (forall k :: 0 <= k < |tries| - 1 ==> tries[k + 1].at == NextTryAt(calls, n, k, tries[k].at))
  }

  /** One more call, started when `NextTryAt` says, keeps the calls paced. */
  lemma PacedExtend(calls: seq<Answer>, n: nat, tries: seq<Try>, provider: nat, at: nat)
    requires Paced(calls, n, tries)
    requires |tries| == 0 ==> at == 0
    requires |tries| > 0 ==> at == NextTryAt(calls, n, |tries| - 1, tries[|tries| - 1].at)
    ensures Paced(calls, n, tries + [Try(provider, at)])
  {
  }

  /** Inside a round of `d` calls that began at a multiple of `d`, the `r`-th
      call is not a round boundary. */
  lemma InsideRound(m: nat, r: nat, d: nat)
    requires d >= 1 && m % d == 0 && 0 < r < d
    ensures (m + r) % d == r
  {
    DivModUnique(m + r, d, m / d, r);
  }

  /** A full round of `d` calls ends on a round boundary. */
  lemma RoundFull(m: nat, d: nat)
    requires d >= 1 && m % d == 0
    ensures (m + d) % d == 0
  {
    DivModUnique(m + d, d, m / d + 1, 0);
  }

  /** Each parallel round after the first starts once the one before has
      settled, plus the five-second pause. */
  predicate PanicPaced(panics: seq<PanicRound>, n: nat, starts: seq<nat>)
  {
    forall j :: 0 <= j < |starts| - 1 ==>
      starts[j + 1] == starts[j] + PanicOutcome(PanicAt(panics, j), n).tookMs + RoundDelay
  }

  /** The parallel rounds come after the sequential mode: the first starts
      when the last sequential round's pause is over, which is when the next
      sequential call would have started at or past the panic threshold. */
  predicate PanicBegan(calls: seq<Answer>, panics: seq<PanicRound>, n: nat, tries: seq<Try>, starts: seq<nat>)
  {
    n >= 1 && PanicPaced(panics, n, starts)
    && (|starts| > 0 ==>
          |tries| > 0 && starts[0] == SequentialEnd(calls, tries)
          && NextTryAt(calls, n, |tries| - 1, tries[|tries| - 1].at) >= PanicThreshold)
  }

  /** The clock and the last error between two failed rounds: nothing has
      happened yet; or the last sequential round and its pause are over (a
      round cut short means the panic threshold has passed) and the last
      error is that of the last call; or the last parallel round and its pause
      are over and the last error is that round's. */
  predicate Clocked(calls: seq<Answer>, panics: seq<PanicRound>, n: nat, tries: seq<Try>, starts: seq<nat>,
                    elapsed: nat, lastError: Option<string>)
  {
    Paced(calls, n, tries) && PanicBegan(calls, panics, n, tries, starts)
    && (|tries| == 0 ==> elapsed == 0 && |starts| == 0)
    && (|tries| > 0 && |starts| == 0 ==>
          elapsed == SequentialEnd(calls, tries)
          && (|tries| % (2 * n) == 0 || NextTryAt(calls, n, |tries| - 1, tries[|tries| - 1].at) >= PanicThreshold)
          && NormalAnswer(calls, |tries| - 1).result.Err?
          && lastError == Some(NormalAnswer(calls, |tries| - 1).result.message))
    && (|starts| > 0 ==>
          elapsed == starts[|starts| - 1] + PanicOutcome(PanicAt(panics, |starts| - 1), n).tookMs + RoundDelay
          && PanicOutcome(PanicAt(panics, |starts| - 1), n).result.Err?
          && lastError == Some(PanicOutcome(PanicAt(panics, |starts| - 1), n).result.message))
  }

  /** The clock when a round succeeds: the winning call's or parallel round's
      time after its start. */
  predicate SucceededAt(calls: seq<Answer>, panics: seq<PanicRound>, n: nat, tries: seq<Try>, starts: seq<nat>, elapsed: nat)
  {
    Paced(calls, n, tries) && PanicBegan(calls, panics, n, tries, starts)
    && (|starts| == 0 ==> |tries| > 0 && elapsed == tries[|tries| - 1].at + NormalAnswer(calls, |tries| - 1).tookMs)
    && (|starts| > 0 ==> elapsed == starts[|starts| - 1] + PanicOutcome(PanicAt(panics, |starts| - 1), n).tookMs)
  }

  /** A sequential round can start only on a round boundary, before any
      parallel round. */
  lemma ClockedRoundStart(calls: seq<Answer>, panics: seq<PanicRound>, n: nat, tries: seq<Try>, starts: seq<nat>,
                          elapsed: nat, lastError: Option<string>)
    requires Clocked(calls, panics, n, tries, starts, elapsed, lastError)
    requires |starts| == 0 && elapsed < PanicThreshold
    ensures |tries| % (2 * n) == 0
    ensures |tries| == 0 ==> elapsed == 0
    ensures |tries| > 0 ==> elapsed == SequentialEnd(calls, tries)
  {
    if |tries| > 0 {
      var k := |tries| - 1;
      assert NextTryAt(calls, n, k, tries[k].at) <= SequentialEnd(calls, tries);
    }
  }

  /** A failed sequential round and its five-second pause keep the clock. */
  lemma ClockedSequential(calls: seq<Answer>, panics: seq<PanicRound>, n: nat, tries0: seq<Try>, tries: seq<Try>,
                          elapsed: nat, lastError: Option<string>)
    requires Paced(calls, n, tries) && |tries0| % (2 * n) == 0 && |tries0| < |tries|
    requires elapsed == tries[|tries| - 1].at + NormalAnswer(calls, |tries| - 1).tookMs + SwitchDelay
    requires NormalAnswer(calls, |tries| - 1).result.Err?
    requires lastError == Some(NormalAnswer(calls, |tries| - 1).result.message)
    requires |tries| == |tries0| + 2 * n || elapsed >= PanicThreshold
    ensures Clocked(calls, panics, n, tries, [], elapsed + RoundDelay, lastError)
  {
    if |tries| == |tries0| + 2 * n {
      RoundFull(|tries0|, 2 * n);
    }
  }

  /** A parallel round after failed rounds starts on time and keeps the
      clock, whether it fails or succeeds. */
  lemma ClockedPanic(calls: seq<Answer>, panics: seq<PanicRound>, n: nat, tries: seq<Try>, starts0: seq<nat>,
                     elapsed0: nat, lastError0: Option<string>)
    requires Clocked(calls, panics, n, tries, starts0, elapsed0, lastError0) && elapsed0 >= PanicThreshold
    ensures |tries| > 0 && PanicBegan(calls, panics, n, tries, starts0 + [elapsed0])
    ensures PanicOutcome(PanicAt(panics, |starts0|), n).result.Err? ==>
      Clocked(calls, panics, n, tries, starts0 + [elapsed0],
              elapsed0 + PanicOutcome(PanicAt(panics, |starts0|), n).tookMs + RoundDelay,
              Some(PanicOutcome(PanicAt(panics, |starts0|), n).result.message))
    ensures SucceededAt(calls, panics, n, tries, starts0 + [elapsed0],
                        elapsed0 + PanicOutcome(PanicAt(panics, |starts0|), n).tookMs)
  {
    var starts := starts0 + [elapsed0];
    assert |tries| > 0;
    if |starts0| == 0 {
      var k := |tries| - 1;
      if |tries| % (2 * n) == 0 {
        assert NextTryAt(calls, n, k, tries[k].at) == SequentialEnd(calls, tries);
      }
    } else {
      assert starts[0] == starts0[0];
    }
    assert PanicPaced(panics, n, starts);
  }

  /** Every call before the `m`-th failed (after its 69 s limit). */
  predicate NormalFailed(calls: seq<Answer>, m: int)
  {
    forall k :: 0 <= k < m ==> NormalAnswer(calls, k).result.Err?
  }

  /** Every parallel round before the `m`-th failed. */
  predicate PanicFailed(panics: seq<PanicRound>, n: nat, m: int)
  {
    forall k :: 0 <= k < m ==> PanicOutcome(PanicAt(panics, k), n).result.Err?
  }

  /** What a successful round leaves behind: the calls so far rotated, every
      earlier call and round failed, and the answer is that of the last
      sequential call (no parallel round yet) or of the last parallel round. */
  predicate Succeeded(start: nat, n: nat, calls: seq<Answer>, panics: seq<PanicRound>, tries: seq<Try>, starts: seq<nat>, elapsed: nat, answer: string)
  {
    Rotated(start, n, tries, elapsed + 1) && PanicWindow(starts)
    && NormalFailed(calls, |tries| - 1) && PanicFailed(panics, n, |starts| - 1)
    && elapsed < HardTimeout + ParallelTimeout
    && (|starts| == 0 ==> |tries| > 0 && NormalAnswer(calls, |tries| - 1).result == Ok(answer))
    && (|starts| > 0 ==> PanicOutcome(PanicAt(panics, |starts| - 1), n).result == Ok(answer) && NormalFailed(calls, |tries|))
  }

  /** The `panicTriggered` latch is set once a parallel round has started,
      and `onPanic` has been called exactly when it is set. */
  predicate Latched(starts: seq<nat>, panicTriggered: bool, panicCalls: nat)
  {
    (panicTriggered <==> |starts| > 0) && panicCalls == (if panicTriggered then 1 else 0)
  }

  predicate PanicWindow(starts: seq<nat>)
  {
    forall k :: 0 <= k < |starts| ==> PanicThreshold <= starts[k] < HardTimeout
  }

  /** The pause after a sequential round: five seconds if more than that (and
      more than the time to the panic threshold) remains before the hard
      limit, else two seconds if more than two remain, else none. */
  function RoundPause(elapsed: nat): (p: nat)
    ensures p == RoundDelay || p == ShortDelay || p == 0
    ensures p > 0 ==> elapsed + p < HardTimeout
  {
    var remaining := HardTimeout - elapsed;
    if remaining > RoundDelay && remaining > PanicThreshold - elapsed then RoundDelay
    else if remaining > ShortDelay then ShortDelay
    else 0
  }

  /** A sequential round ends before the hard limit is near, and the hard
      limit exceeds the panic threshold, so the pause between rounds is
      always the full five seconds: the shorter pauses are never taken. */
  lemma RoundPauseAlwaysFull(elapsed: nat)
    requires elapsed < PanicThreshold + ProviderTimeout + SwitchDelay
    ensures RoundPause(elapsed) == RoundDelay
  {
  }

  /** The factory behind the constructor: an empty provider list is an error. */
  method Create(providers: seq<string>) returns (r: Result<FailoverCaptchaSolver>)
    ensures |providers| == 0 <==> r.Err?
    ensures r.Err? ==> r.message == "[FailoverSolver] At least one solver is required"
    ensures r.Ok? ==> fresh(r.value) && r.value.Valid() && r.value.names == providers && r.value.currentIndex == 0
  {
    if |providers| == 0 {
      return Err("[FailoverSolver] At least one solver is required");
    }
    var s := new FailoverCaptchaSolver(providers);
    return Ok(s);
  }
}

=== FILE: polling.dfy ===
/** What the two polling adapters share: the poll oracle, the capped
    multiplicative backoff of the wait before each poll, and the clock that
    wait and the polls' own latencies advance. */
module Polling {
  import opened Common

  /** A poll reply and how long (in milliseconds) the request took. */
  datatype Timed<T> = Timed(reply: T, tookMs: nat)

  /** The `k`-th poll; polls beyond the oracle answer `missing` at once. */
  function At<T>(polls: seq<Timed<T>>, k: nat, missing: T): Timed<T>
  {
    if k < |polls| then polls[k] else Timed(missing, 0)
  }

  /** `Math.min(currentDelay * factor, cap)`. */
  function Grow(d: real, factor: real, cap: real): real
  {
    MinReal(d * factor, cap)
  }

  /** The waits before successive polls: the first is `initial`, each next one
      grows from the previous one. */
  predicate Backoff(ws: seq<real>, initial: real, factor: real, cap: real)
  {
    (|ws| > 0 ==> ws[0] == initial)
    && forall k :: 0 <= k < |ws| - 1 ==> ws[k + 1] == Grow(ws[k], factor, cap)
  }

  /** With a factor of at least one and an initial wait below the cap, the
      waits never decrease and never leave [initial, cap]. */
  lemma {:induction false} BackoffWindow(ws: seq<real>, initial: real, factor: real, cap: real)
    requires Backoff(ws, initial, factor, cap)
    requires 1.0 <= factor && 0.0 < initial <= cap
    ensures forall k :: 0 <= k < |ws| ==> initial <= ws[k] <= cap
    ensures forall j, k :: 0 <= j <= k < |ws| ==> ws[j] <= ws[k]
  {
    if |ws| > 1 {
      var front := ws[..|ws| - 1];
      assert Backoff(front, initial, factor, cap) by {
        forall k | 0 <= k < |front| - 1
          ensures front[k + 1] == Grow(front[k], factor, cap)
        {
          assert front[k] == ws[k] && front[k + 1] == ws[k + 1];
        }
      }
      BackoffWindow(front, initial, factor, cap);
      var p := ws[|ws| - 2];
      assert p == front[|front| - 1];
      assert ws[|ws| - 1] == Grow(p, factor, cap);
      assert p <= p * factor by {
        assert p * factor - p == p * (factor - 1.0);
        assert p * (factor - 1.0) >= 0.0;
      }
      forall j, k | 0 <= j <= k < |ws|
        ensures ws[j] <= ws[k]
      {
        if k < |ws| - 1 {
          assert ws[j] == front[j] && ws[k] == front[k];
        } else if j < |ws| - 1 {
          assert ws[j] == front[j] && front[j] <= front[|front| - 1];
        }
      }
    }
  }

  /** Time spent after the given waits and the polls that followed each. */
  function Spent<T>(polls: seq<Timed<T>>, waits: seq<real>, missing: T): real
    decreases |waits|
  {
    if |waits| == 0 then 0.0
    else Spent(polls, waits[..|waits| - 1], missing) + waits[|waits| - 1] + At(polls, |waits| - 1, missing).tookMs as real
  }

  /** One more wait and poll adds both to the time spent, and the time before
      any earlier poll is unchanged. */
  lemma SpentStep<T>(polls: seq<Timed<T>>, waits: seq<real>, d: real, missing: T)
    ensures Spent(polls, waits + [d], missing) == Spent(polls, waits, missing) + d + At(polls, |waits|, missing).tookMs as real
    ensures forall k :: 0 <= k <= |waits| ==> (waits + [d])[..k] == waits[..k]
  {
    assert (waits + [d])[..|waits|] == waits;
  }
}

=== FILE: rate_limit.dfy ===
/** The token-bucket rate limiter that queues every outgoing command. The
    clock is a field that only the limiter's own waits and the queued
    functions' run times advance; each queued function is an oracle job that
    runs for a known time and settles with a known outcome. */
module RateLimit {
  import opened Common

  const MinInterval: nat := 1000
  const BurstSize: nat := 5
  const RefillRate: nat := 1000

  /** A queued function: its id, how long it runs and how it settles. */
  datatype Job = Job(id: nat, durationMs: nat, outcome: Result<string>)

  /** A job that was run, and when it started. */
  datatype Served = Served(job: Job, startedAt: int)

  /** What `getStatus` reports. */
  datatype Status = Status(tokens: int, queueSize: nat, lastRequest: int)

  function JobsOf(served: seq<Served>): (jobs: seq<Job>)
    ensures |jobs| == |served|
    ensures forall k :: 0 <= k < |served| ==> jobs[k] == served[k].job
  {
    if |served| == 0 then [] else JobsOf(served[..|served| - 1]) + [served[|served| - 1].job]
  }

  /** Successive jobs start at least `gap` apart. */
  predicate Spaced(served: seq<Served>, gap: int)
  {
    forall k :: 0 <= k < |served| - 1 ==> served[k].startedAt + gap <= served[k + 1].startedAt
  }

  /** The tokens `refillTokens` adds: one per whole refill period elapsed. */
  function TokensToAdd(now: int, lastRefill: int, refillRate: nat): int
    requires refillRate >= 1
  {
    Floor((now - lastRefill) as real / refillRate as real)
  }

  /** A whole refill period since the last refill yields at least one token. */
  lemma PeriodYieldsToken(now: int, lastRefill: int, refillRate: nat)
    requires refillRate >= 1 && now - lastRefill >= refillRate
    ensures TokensToAdd(now, lastRefill, refillRate) >= 1
  {
    var x := (now - lastRefill) as real / refillRate as real;
    assert x * refillRate as real == (now - lastRefill) as real;
    assert x >= 1.0;
  }

  class RateLimiter {
    const minInterval: nat
    const burstSize: nat
    const refillRate: nat
    var queue: seq<Job>
    var processing: bool
    var lastRequest: int
    var tokens: int
    var lastRefill: int
    var now: int
    /** The jobs run so far, in order. */
    var served: seq<Served>

    /** Tokens stay within [0, burstSize], the clock never runs behind the
        refill and request stamps, the last request is the last job's start,
        and jobs start at least `minInterval` apart. */
    ghost predicate Valid()
      reads this
    {
      burstSize >= 1 && refillRate >= 1
      && 0 <= tokens <= burstSize
      && lastRefill <= now && lastRequest <= now
      && (|served| > 0 ==> lastRequest == served[|served| - 1].startedAt)
      && Spaced(served, minInterval)
    }

    constructor(start: nat, minInterval: nat, burstSize: nat, refillRate: nat)
      requires burstSize >= 1 && refillRate >= 1
      ensures this.minInterval == minInterval && this.burstSize == burstSize && this.refillRate == refillRate
      ensures tokens == burstSize && lastRefill == start && now == start && lastRequest == 0
      ensures queue == [] && !processing && served == []
      ensures Valid()
    {
      this.minInterval := minInterval;
      this.burstSize := burstSize;
      this.refillRate := refillRate;
      tokens := burstSize;
      lastRefill := start;
      now := start;
      lastRequest := 0;
      queue := [];
      processing := false;
      served := [];
    }

    /** `refillTokens`: one token per whole period since the last refill, up
        to the burst size; the refill time moves only when a token is added. */
    method RefillTokens()
      requires Valid()
      modifies this`tokens, this`lastRefill
      ensures Valid()
      ensures TokensToAdd(old(now), old(lastRefill), refillRate) > 0 ==>
        tokens == Min(burstSize, old(tokens) + TokensToAdd(old(now), old(lastRefill), refillRate)) && lastRefill == now
      ensures TokensToAdd(old(now), old(lastRefill), refillRate) <= 0 ==>
        tokens == old(tokens) && lastRefill == old(lastRefill)
    {
      var add := TokensToAdd(now, lastRefill, refillRate);
      if add > 0 {
        tokens := Min(burstSize, tokens + add);
        lastRefill := now;
      }
    }

    /** `execute`: queue the job, then drain the queue unless a drain is
        already running. */
    method Execute(job: Job)
      requires Valid()
      modifies this
      ensures Valid()
      ensures old(processing) ==> queue == old(queue) + [job] && served == old(served)
      ensures !old(processing) ==> queue == [] && JobsOf(served) == JobsOf(old(served)) + old(queue) + [job]
    {
      queue := queue + [job];
      ProcessQueue();
    }

    /** `processQueue`: returns at once when a drain is running or nothing is
        queued; otherwise runs every queued job in order, each at least
        `minInterval` after the previous one. */
    method ProcessQueue()
      requires Valid()
      modifies this
      ensures Valid()
      ensures old(processing) || old(queue) == [] ==>
        queue == old(queue) && served == old(served) && tokens == old(tokens) && now == old(now) && processing == old(processing)
      ensures !(old(processing) || old(queue) == []) ==>
        queue == [] && !processing && JobsOf(served) == JobsOf(old(served)) + old(queue) && now >= old(now)
    {
      if processing || |queue| == 0 {
        return;
      }
      processing := true;
      ghost var pending := queue;
      ghost var before := served;
      while |queue| > 0
        invariant Valid() && processing
        invariant JobsOf(before) + pending == JobsOf(served) + queue
        invariant now >= old(now)
        decreases |queue|
      {
        DrainStep();
      }
      processing := false;
    }

    /** One job's worth of the drain loop: get a token, then serve the front
        job. */
    method DrainStep()
      requires Valid() && |queue| > 0
      modifies this`queue, this`tokens, this`lastRequest, this`now, this`served, this`lastRefill
      ensures Valid()
      ensures queue == old(queue)[1..] && JobsOf(served) == JobsOf(old(served)) + [old(queue)[0]]
      ensures now >= old(now)
    {
      TakeTurn();
      ServeFront();
    }

    /** The pass at the head of the loop refills; with no token it waits one
        refill period and refills, which always yields a token, and the next
        pass refills once more. */
    method TakeTurn()
      requires Valid()
      modifies this`tokens, this`now, this`lastRefill
      ensures Valid() && tokens >= 1 && now >= old(now)
    {
      RefillTokens();
      if tokens < 1 {
        now := now + refillRate;
        PeriodYieldsToken(now, lastRefill, refillRate);
        RefillTokens();
        RefillTokens();
      }
    }

    /** One pass of the drain with a token in hand: wait out the minimum
        interval, take the front job, spend a token, stamp the request and
        run the job. */
    method ServeFront()
      requires Valid() && |queue| > 0 && tokens >= 1
      modifies this`queue, this`tokens, this`lastRequest, this`now, this`served
      ensures Valid()
      ensures queue == old(queue)[1..] && tokens == old(tokens) - 1
      ensures served == old(served) + [Served(old(queue)[0], lastRequest)]
      ensures lastRequest >= old(now) && lastRequest >= old(lastRequest) + minInterval
      ensures now >= old(now)
    {
      var since := now - lastRequest;
      if since < minInterval {
        now := now + (minInterval - since);
      }
      var item := queue[0];
      queue := queue[1..];
      tokens := tokens - 1;
      lastRequest := now;
      served := served + [Served(item, now)];
      now := now + item.durationMs;
      assert JobsOf(served) == JobsOf(old(served)) + [item];
    }

    /** `getStatus`: refill, then report tokens, queue length and the last
        request's time. */
    method GetStatus() returns (s: Status)
      requires Valid()
      modifies this`tokens, this`lastRefill
      ensures Valid()
      ensures s == Status(tokens, |queue|, lastRequest)
      ensures TokensToAdd(old(now), old(lastRefill), refillRate) > 0 ==>
        tokens == Min(burstSize, old(tokens) + TokensToAdd(old(now), old(lastRefill), refillRate))
      ensures TokensToAdd(old(now), old(lastRefill), refillRate) <= 0 ==> tokens == old(tokens)
    {
      RefillTokens();
      s := Status(tokens, |queue|, lastRequest);
    }

    /** Time passing between calls, while the caller does other work: the
        clock moves on, and nothing else changes until the next refill. */
    method Tick(ms: nat)
      requires Valid()
      modifies this`now
      ensures Valid() && now == old(now) + ms
    {
      now := now + ms;
    }

    /** `clear`: drop every queued job; tokens and timestamps are kept. */
    method Clear()
      modifies this`queue
      ensures queue == []
    {
      queue := [];
    }
  }
}

=== FILE: retry.dfy ===
/** The retry helpers: `withRetry` calls an operation until it succeeds or
    the attempts run out, waiting an exponentially growing, capped time
    between attempts; `delayWithJitter` draws a wait in a range. The
    operation's outcomes are an oracle: the `k`-th call returns
    `outcomes[k]`. */
module Retry {
  import opened Common
  import opened Text

  const MaxAttempts: int := 3
  const MaxBackoff: nat := 30000

  function OutcomeAt<T>(outcomes: seq<Result<T>>, k: nat): Result<T>
  {
    if k < |outcomes| then outcomes[k] else Err("")
  }

  /** The wait after failed attempt `k` (counted from 0). */
  function Backoff(k: nat): (ms: nat)
    ensures 1000 <= ms <= MaxBackoff
  {
    Min(Pow2(k) * 1000, MaxBackoff)
  }

  /** The waits grow with the attempt number until they reach the cap. */
  lemma BackoffGrows(j: nat, k: nat)
    requires j <= k
    ensures Backoff(j) <= Backoff(k)
  {
    Pow2Monotone(j, k);
  }

  lemma {:induction false} Pow2Monotone(j: nat, k: nat)
    requires j <= k
    ensures Pow2(j) <= Pow2(k)
    decreases k
  {
    if j < k {
      Pow2Monotone(j, k - 1);
    }
  }

  /** From the fifth failed attempt on the wait is the cap: 2^5 s is past 30 s. */
  lemma BackoffCapped(k: nat)
    requires k >= 5
    ensures Backoff(k) == MaxBackoff
  {
    Pow2Monotone(5, k);
    assert Pow2(5) == 32;
  }

  function FailureMessage(operationName: string, maxRetries: int, lastError: Option<string>): string
  {
    operationName + " failed after " + IntToString(maxRetries) + " attempts: " + (if lastError.Some? then lastError.value else "undefined")
  }

  /** `withRetry`: the first success among at most `maxRetries` calls, each
      failure but the last followed by its backoff; when every call fails (or
      none is allowed) the error names the attempts and the last error. */
  method WithRetry<T>(outcomes: seq<Result<T>>, maxRetries: int, operationName: string)
    returns (r: Result<T>, calls: nat, waits: seq<nat>)
    ensures maxRetries <= 0 ==> calls == 0 && r.Err?
    ensures calls <= if maxRetries <= 0 then 0 else maxRetries
    // every call before the last one failed, and each was followed by its backoff
    ensures forall k :: 0 <= k < calls - 1 ==> OutcomeAt(outcomes, k).Err?
    ensures |waits| == if calls == 0 then 0 else calls - 1
    ensures forall k :: 0 <= k < |waits| ==> waits[k] == Backoff(k)
    // a success is returned unchanged
    ensures r.Ok? <==> calls > 0 && OutcomeAt(outcomes, calls - 1).Ok?
    ensures r.Ok? ==> r == OutcomeAt(outcomes, calls - 1)
    // giving up happens only after every allowed call failed
    ensures r.Err? ==> calls == (if maxRetries <= 0 then 0 else maxRetries)
    ensures r.Err? && calls > 0 ==>
      r.message == FailureMessage(operationName, maxRetries, Some(OutcomeAt(outcomes, calls - 1).message))
    ensures r.Err? && calls == 0 ==> r.message == FailureMessage(operationName, maxRetries, None)
  {
    calls := 0;
    waits := [];
    var lastError: Option<string> := None;
    var attempt := 0;
    while attempt < maxRetries
      invariant 0 <= attempt && calls == attempt
      invariant if maxRetries > 0 then attempt <= maxRetries else attempt == 0
      invariant forall k :: 0 <= k < attempt ==> OutcomeAt(outcomes, k).Err?
      invariant |waits| == if attempt < maxRetries || attempt == 0 then attempt else attempt - 1
      invariant forall k :: 0 <= k < |waits| ==> waits[k] == Backoff(k)
      invariant attempt > 0 ==> lastError == Some(OutcomeAt(outcomes, attempt - 1).message)
      invariant attempt == 0 ==> lastError == None
      decreases maxRetries - attempt
    {
      var o := OutcomeAt(outcomes, attempt);
      calls := calls + 1;
      if o.Ok? {
        return o, calls, waits;
      }
      lastError := Some(o.message);
      if attempt < maxRetries - 1 {
        waits := waits + [Backoff(attempt)];
      }
      attempt := attempt + 1;
    }
    r := Err(FailureMessage(operationName, maxRetries, lastError));
  }

  /** `delayWithJitter`: `Math.floor(u * (max - min + 1)) + min` for a draw
      `u` in [0, 1), which lies in [min, max] whenever `max >= min`. */
  function DelayWithJitter(min: int, max: int, u: real): (d: int)
    requires 0.0 <= u < 1.0
    ensures min <= max ==> min <= d <= max
  {
    if min <= max then ScaledDrawBelow(u, max - min + 1); Floor(u * (max - min + 1) as real) + min
    else Floor(u * (max - min + 1) as real) + min
  }
}

=== FILE: statistics.dfy ===
/** The statistics service: running counters of earnings, commands, captchas
    and caught animals, per-hour buckets, a bounded history of captcha solve
    times with its rounded average, and the uptime shown in reports. The
    clock's current hour and time are parameters. */
module Statistics {
  import opened Common
  import opened Text

  const MaxSolveTimeHistory: nat := 100
  const DayMs: int := 86400000
  const HourMs: int := 3600000
  const MinuteMs: int := 60000

  datatype Earnings = Earnings(cowoncy: int, gems: int, lootboxes: int)
  datatype Commands = Commands(total: nat, successful: nat, failed: nat)
  datatype Captchas = Captchas(solved: nat, failed: nat, avgSolveTime: int, solveTimeHistory: seq<int>)
  datatype Uptime = Uptime(startTime: int, totalRuntime: int)
  datatype HourStats = HourStats(commands: nat, earnings: int)
  datatype EarningKind = Cowoncy | Gems | Lootboxes

  datatype Snapshot = Snapshot(
    earnings: Earnings,
    commands: Commands,
    captchas: Captchas,
    uptime: Uptime,
    animals: map<string, nat>,
    hourlyStats: map<int, HourStats>)

  /** Every counter at zero, started at `now`. */
  function Fresh(now: int): (s: Snapshot)
    ensures s.commands.total == 0 && s.captchas.solveTimeHistory == [] && s.animals == map[] && s.hourlyStats == map[]
    ensures Consistent(s)
  {
    Snapshot(Earnings(0, 0, 0), Commands(0, 0, 0), Captchas(0, 0, 0, []), Uptime(now, 0), map[], map[])
  }

  /** What holds from a fresh or reset state on: every command is counted
      once as a success or a failure, the history is bounded, and the average
      is that of the history. */
  predicate Consistent(s: Snapshot)
  {
    s.commands.total == s.commands.successful + s.commands.failed
    && |s.captchas.solveTimeHistory| <= MaxSolveTimeHistory
    && s.captchas.avgSolveTime == Average(s.captchas.solveTimeHistory)
  }

  // ------------------------------------------------------------ history

  function Sum(h: seq<int>): int
  {
    if |h| == 0 then 0 else Sum(h[..|h| - 1]) + h[|h| - 1]
  }

  /** `Math.round(sum / length)`, or 0 for the empty history (the initial
      value, which an empty history never replaces). */
  function Average(h: seq<int>): int
  {
    if |h| == 0 then 0 else Round(Sum(h) as real / |h| as real)
  }

  /** Appending a solve time and dropping the oldest entry once there are
      more than 100. */
  function Record(h: seq<int>, t: int): (r: seq<int>)
    requires |h| <= MaxSolveTimeHistory
    ensures |r| == Min(|h| + 1, MaxSolveTimeHistory)
    ensures r[|r| - 1] == t
    ensures r[..|r| - 1] == h[|h| + 1 - |r|..]
  {
    var pushed := h + [t];
    if |pushed| > MaxSolveTimeHistory then pushed[1..] else pushed
  }

  /** A history's sum lies between its length times its least and its
      greatest entry. */
  lemma {:induction false} SumBounds(h: seq<int>, lo: int, hi: int)
    requires forall k :: 0 <= k < |h| ==> lo <= h[k] <= hi
    ensures |h| * lo <= Sum(h) <= |h| * hi
  {
    if |h| > 0 {
      SumBounds(h[..|h| - 1], lo, hi);
    }
  }

  /** The rounded average of a non-empty history lies between its least and
      greatest solve time. */
  lemma AverageWithin(h: seq<int>, lo: int, hi: int)
    requires |h| > 0
    requires forall k :: 0 <= k < |h| ==> lo <= h[k] <= hi
    ensures lo <= Average(h) <= hi
  {
    SumBounds(h, lo, hi);
    MeanWithin(Sum(h), |h|, lo, hi);
  }

  /** The rounded mean of a total between `n * lo` and `n * hi`. */
  lemma MeanWithin(s: int, n: nat, lo: int, hi: int)
    requires n > 0 && n * lo <= s <= n * hi
    ensures lo <= Round(s as real / n as real) <= hi
  {
    CastProduct(n, lo);
    CastProduct(n, hi);
    QuotientWithin(s as real, n as real, lo as real, hi as real);
    RoundWithin(s as real / n as real, lo, hi);
  }

  /** Rounding a number between two integers stays between them. */
  lemma RoundWithin(x: real, lo: int, hi: int)
    requires lo as real <= x <= hi as real
    ensures lo <= Round(x) <= hi
  {
  }

  lemma CastProduct(a: int, b: int)
    ensures (a * b) as real == a as real * b as real
  {
  }

  /** A quotient by a positive number of something between `n * lo` and
      `n * hi` lies between `lo` and `hi`. */
  lemma QuotientWithin(s: real, n: real, lo: real, hi: real)
    requires n > 0.0 && n * lo <= s <= n * hi
    ensures lo <= s / n <= hi
  {
    assert s / n * n == s;
  }

  // ------------------------------------------------------------ uptime

  /** JavaScript's `%` for a positive divisor: the remainder takes the sign
      of the dividend. */
  function JsRem(a: int, b: int): (r: int)
    requires b > 0
    ensures a >= 0 ==> 0 <= r < b
    ensures a < 0 ==> -b < r <= 0
  {
    if a >= 0 then a % b else -((-a) % b)
  }

  /** `formatUptime`'s decomposition: whole days, then the hours and minutes
      of the remainder. */
  function Days(ms: int): int { ms / DayMs }
  function Hours(ms: int): int { JsRem(ms, DayMs) / HourMs }
  function Minutes(ms: int): int { JsRem(ms, HourMs) / MinuteMs }

  /** For a non-negative duration the decomposition is exact to the minute:
      hours below 24, minutes below 60, and what they add up to is within a
      minute below `ms`. */
  lemma UptimeDecomposition(ms: int)
    requires ms >= 0
    ensures 0 <= Hours(ms) < 24 && 0 <= Minutes(ms) < 60 && Days(ms) >= 0
    ensures var whole := Days(ms) * DayMs + Hours(ms) * HourMs + Minutes(ms) * MinuteMs;
      whole <= ms < whole + MinuteMs
  {
    var d, rd := ms / DayMs, ms % DayMs;
    var h, rh := rd / HourMs, rd % HourMs;
    var m, rm := rh / MinuteMs, rh % MinuteMs;
    assert ms == d * DayMs + rd;
    assert rd == h * HourMs + rh;
    assert rh == m * MinuteMs + rm;
    assert ms % HourMs == rh by {
      assert ms == (d * 24 + h) * HourMs + rh;
      DivModUnique(ms, HourMs, d * 24 + h, rh);
    }
  }

  /** `formatUptime`: "Dd Hh Mm", leaving out the leading units that are zero
      (minutes are always shown). */
  function FormatUptime(ms: int): (r: string)
    ensures Days(ms) > 0 ==>
      r == IntToString(Days(ms)) + "d " + IntToString(Hours(ms)) + "h " + IntToString(Minutes(ms)) + "m"
    ensures Days(ms) <= 0 && Hours(ms) > 0 ==> r == IntToString(Hours(ms)) + "h " + IntToString(Minutes(ms)) + "m"
    ensures Days(ms) <= 0 && Hours(ms) <= 0 ==> r == IntToString(Minutes(ms)) + "m"
  {
    var tail := IntToString(Minutes(ms)) + "m";
    if Days(ms) > 0 then IntToString(Days(ms)) + "d " + IntToString(Hours(ms)) + "h " + tail
    else if Hours(ms) > 0 then IntToString(Hours(ms)) + "h " + tail
    else tail
  }

  /** The milliseconds a unit letter of the uptime text stands for. */
  function UnitMs(c: char): int
  {
    if c == 'd' then DayMs else if c == 'h' then HourMs else if c == 'm' then MinuteMs else 0
  }

  /** The duration one space-separated piece such as "5h" stands for. */
  function PieceMs(p: string): int
  {
    if |p| >= 2 && AllDigits(p[..|p| - 1]) then DigitsValue(p[..|p| - 1]) * UnitMs(p[|p| - 1]) else 0
  }

  /** Reading the uptime text back: the sum of its pieces. */
  function ReadUptime(pieces: seq<string>): int
  {
    if |pieces| == 0 then 0 else PieceMs(pieces[0]) + ReadUptime(pieces[1..])
  }

  /** A rendered count and its unit letter, as `formatUptime` writes them. */
  lemma PieceReadsBack(v: nat, c: char)
    requires c != ' '
    ensures ' ' !in NatToString(v) + [c]
    ensures PieceMs(NatToString(v) + [c]) == v * UnitMs(c)
  {
    var p := NatToString(v) + [c];
    assert p[..|p| - 1] == NatToString(v);
    assert forall i :: 0 <= i < |p| - 1 ==> IsDigit(p[i]);
  }

  /** Splitting at the first space of `a + " " + rest` peels off `a`. */
  lemma SplitAfter(a: string, rest: string)
    requires ' ' !in a
    ensures Split(a + " " + rest, ' ') == [a] + Split(rest, ' ')
  {
    var t := a + " " + rest;
    assert t[..|a|] == a && t[|a|] == ' ' && t[|a| + 1..] == rest;
    SplitHead(t, ' ', |a|);
    var parts := Split(t, ' ');
    assert parts == [parts[0]] + parts[1..];
  }

  /** A piece without spaces splits into itself. */
  lemma SplitWhole(a: string)
    requires ' ' !in a
    ensures Split(a, ' ') == [a]
  {
    assert a[..|a|] == a;
    SplitHead(a, ' ', |a|);
  }

  /** Reading `p + " " + rest` reads the piece `p`, then the rest. */
  lemma ConsReads(p: string, rest: string)
    requires ' ' !in p
    ensures ReadUptime(Split(p + " " + rest, ' ')) == PieceMs(p) + ReadUptime(Split(rest, ' '))
  {
    SplitAfter(p, rest);
    var tail := Split(rest, ' ');
    assert ([p] + tail)[1..] == tail;
  }

  /** "Mm" reads back as its minutes. */
  lemma MinutesReadBack(m: nat)
    ensures ReadUptime(Split(NatToString(m) + "m", ' ')) == m * MinuteMs
  {
    var pm := NatToString(m) + "m";
    PieceReadsBack(m, 'm');
    SplitWhole(pm);
    assert ReadUptime([pm]) == PieceMs(pm) + ReadUptime([]);
  }

  /** Two space-free pieces joined by a space read back as their sum. */
  lemma TwoReads(x: string, y: string)
    requires ' ' !in x && ' ' !in y
    ensures ReadUptime(Split(x + " " + y, ' ')) == PieceMs(x) + PieceMs(y)
  {
    ConsReads(x, y);
    SplitWhole(y);
    assert ReadUptime([y]) == PieceMs(y) + ReadUptime([]);
  }

  /** Three space-free pieces joined by spaces read back as their sum. */
  lemma ThreeReads(x: string, y: string, z: string)
    requires ' ' !in x && ' ' !in y && ' ' !in z
    ensures ReadUptime(Split(x + " " + y + " " + z, ' ')) == PieceMs(x) + PieceMs(y) + PieceMs(z)
  {
    ConsReads(x, y + " " + z);
    TwoReads(y, z);
    SpaceJoinAssoc(x, y, z);
  }

  /** Joining three pieces by spaces does not depend on grouping. */
  lemma SpaceJoinAssoc(x: string, y: string, z: string)
    ensures x + " " + y + " " + z == x + " " + (y + " " + z)
  {
  }

  /** A rendered count followed by a unit letter is one space-free piece worth that many units. */
  lemma UnitPiece(v: nat, c: char) returns (p: string)
    requires c in "dhm"
    ensures p == NatToString(v) + [c] && ' ' !in p
    ensures PieceMs(p) == v * (if c == 'd' then DayMs else if c == 'h' then HourMs else MinuteMs)
  {
    p := NatToString(v) + [c];
    PieceReadsBack(v, c);
  }

  /** "Hh Mm" reads back as the units it shows. */
  lemma HoursReadBack(h: nat, m: nat)
    ensures ReadUptime(Split(NatToString(h) + "h " + NatToString(m) + "m", ' ')) == h * HourMs + m * MinuteMs
  {
    var ph := UnitPiece(h, 'h');
    var pm := UnitPiece(m, 'm');
    TwoReads(ph, pm);
    RegroupTwo(NatToString(h), NatToString(m));
  }

  /** The hours text is its two pieces joined by a space. */
  lemma RegroupTwo(x: string, y: string)
    ensures x + "h " + y + "m" == (x + "h") + " " + (y + "m")
  {
  }

  /** The days text is its three pieces joined by spaces. */
  lemma RegroupThree(x: string, y: string, z: string)
    ensures x + "d " + y + "h " + z + "m" == (x + "d") + " " + (y + "h") + " " + (z + "m")
  {
  }

  /** "Dd Hh Mm" reads back as the units it shows. */
  lemma DaysReadBack(d: nat, h: nat, m: nat)
    ensures ReadUptime(Split(NatToString(d) + "d " + NatToString(h) + "h " + NatToString(m) + "m", ' '))
      == d * DayMs + h * HourMs + m * MinuteMs
  {
    var pd := UnitPiece(d, 'd');
    var ph := UnitPiece(h, 'h');
    var pm := UnitPiece(m, 'm');
    ThreeReads(pd, ph, pm);
    RegroupThree(NatToString(d), NatToString(h), NatToString(m));
  }

  /** The uptime text reads back as the days, hours and minutes it shows,
      which is the uptime to within a minute below. */
  lemma FormatUptimeReadsBack(ms: int)
    requires ms >= 0
    ensures var whole := Days(ms) * DayMs + Hours(ms) * HourMs + Minutes(ms) * MinuteMs;
      ReadUptime(Split(FormatUptime(ms), ' ')) == whole && whole <= ms < whole + MinuteMs
  {
    UptimeDecomposition(ms);
    var d: nat, h: nat, m: nat := Days(ms), Hours(ms), Minutes(ms);
    assert IntToString(d) == NatToString(d) && IntToString(h) == NatToString(h) && IntToString(m) == NatToString(m);
    if d > 0 {
      DaysReadBack(d, h, m);
    } else if h > 0 {
      HoursReadBack(h, m);
    } else {
      MinutesReadBack(m);
    }
  }

  // ------------------------------------------------------------ the service

  class StatisticsService {
    var stats: Snapshot

    ghost predicate Valid()
      reads this
    {
      Consistent(stats)
    }

    constructor(now: int)
      ensures stats == Fresh(now) && Valid()
    {
      stats := Fresh(now);
    }

    /** `trackEarning`: adds `amount` to one earning and to the hour's bucket
        (a bucket starts at zero). */
    method TrackEarning(kind: EarningKind, amount: int, hour: int)
      requires Valid()
      modifies this
      ensures Valid()
      ensures stats.earnings == match kind
        case Cowoncy => old(stats.earnings).(cowoncy := old(stats.earnings.cowoncy) + amount)
        case Gems => old(stats.earnings).(gems := old(stats.earnings.gems) + amount)
        case Lootboxes => old(stats.earnings).(lootboxes := old(stats.earnings.lootboxes) + amount)
      ensures stats.hourlyStats == old(stats.hourlyStats)[hour := Bucket(old(stats.hourlyStats), hour).(earnings := Bucket(old(stats.hourlyStats), hour).earnings + amount)]
      ensures stats.commands == old(stats.commands) && stats.captchas == old(stats.captchas)
      ensures stats.uptime == old(stats.uptime) && stats.animals == old(stats.animals)
    {
      var e := stats.earnings;
      match kind {
        case Cowoncy => e := e.(cowoncy := e.cowoncy + amount);
        case Gems => e := e.(gems := e.gems + amount);
        case Lootboxes => e := e.(lootboxes := e.lootboxes + amount);
      }
      var b := Bucket(stats.hourlyStats, hour);
      stats := stats.(earnings := e, hourlyStats := stats.hourlyStats[hour := b.(earnings := b.earnings + amount)]);
    }

    /** `trackCommand`: counts the command once in the total and once as a
        success or a failure, and once in the hour's bucket. */
    method TrackCommand(success: bool, hour: int)
      requires Valid()
      modifies this
      ensures Valid()
      ensures stats.commands.total == old(stats.commands.total) + 1
      ensures success ==> stats.commands.successful == old(stats.commands.successful) + 1 && stats.commands.failed == old(stats.commands.failed)
      ensures !success ==> stats.commands.failed == old(stats.commands.failed) + 1 && stats.commands.successful == old(stats.commands.successful)
      ensures stats.hourlyStats == old(stats.hourlyStats)[hour := Bucket(old(stats.hourlyStats), hour).(commands := Bucket(old(stats.hourlyStats), hour).commands + 1)]
      ensures stats.earnings == old(stats.earnings) && stats.captchas == old(stats.captchas)
      ensures stats.uptime == old(stats.uptime) && stats.animals == old(stats.animals)
    {
      var c := stats.commands;
      c := c.(total := c.total + 1);
      if success {
        c := c.(successful := c.successful + 1);
      } else {
        c := c.(failed := c.failed + 1);
      }
      var b := Bucket(stats.hourlyStats, hour);
      stats := stats.(commands := c, hourlyStats := stats.hourlyStats[hour := b.(commands := b.commands + 1)]);
    }

    /** `trackCaptcha`: a solve is counted and, when it comes with a non-zero
        time, recorded in the history and the average recomputed; a failure
        is counted. */
    method TrackCaptcha(solved: bool, solveTime: Option<int>)
      requires Valid()
      modifies this
      ensures Valid()
      ensures solved ==> stats.captchas.solved == old(stats.captchas.solved) + 1 && stats.captchas.failed == old(stats.captchas.failed)
      ensures !solved ==> stats.captchas.failed == old(stats.captchas.failed) + 1 && stats.captchas.solved == old(stats.captchas.solved)
      ensures solved && solveTime.Some? && solveTime.value != 0 ==>
        stats.captchas.solveTimeHistory == Record(old(stats.captchas.solveTimeHistory), solveTime.value)
      ensures !(solved && solveTime.Some? && solveTime.value != 0) ==>
        stats.captchas.solveTimeHistory == old(stats.captchas.solveTimeHistory) && stats.captchas.avgSolveTime == old(stats.captchas.avgSolveTime)
      ensures stats.earnings == old(stats.earnings) && stats.commands == old(stats.commands) && stats.hourlyStats == old(stats.hourlyStats)
      ensures stats.uptime == old(stats.uptime) && stats.animals == old(stats.animals)
    {
      var c := stats.captchas;
      if solved {
        c := c.(solved := c.solved + 1);
        if solveTime.Some? && solveTime.value != 0 {
          var h := Record(c.solveTimeHistory, solveTime.value);
          c := c.(solveTimeHistory := h, avgSolveTime := Round(Sum(h) as real / |h| as real));
        }
      } else {
        c := c.(failed := c.failed + 1);
      }
      stats := stats.(captchas := c);
    }

    /** `trackAnimal`: one more catch of this animal, the others unchanged. */
    method TrackAnimal(name: string)
      requires Valid()
      modifies this
      ensures Valid()
      ensures stats.animals == old(stats.animals)[name := CountOf(old(stats.animals), name) + 1]
      ensures stats.earnings == old(stats.earnings) && stats.commands == old(stats.commands) && stats.captchas == old(stats.captchas)
      ensures stats.uptime == old(stats.uptime) && stats.hourlyStats == old(stats.hourlyStats)
    {
      stats := stats.(animals := stats.animals[name := CountOf(stats.animals, name) + 1]);
    }

    /** `getStatsSummary`: the statistics with the runtime up to `now`. */
    method GetStatsSummary(now: int) returns (s: Snapshot)
      ensures s == stats.(uptime := stats.uptime.(totalRuntime := now - stats.uptime.startTime))
    {
      s := stats.(uptime := stats.uptime.(totalRuntime := now - stats.uptime.startTime));
    }

    /** `reset`: every counter back to zero and a new start time. */
    method Reset(now: int)
      modifies this
      ensures stats == Fresh(now) && Valid()
    {
      stats := Fresh(now);
    }
  }

  /** The hour's bucket, or an empty one. */
  function Bucket(hourly: map<int, HourStats>, hour: int): HourStats
  {
    if hour in hourly then hourly[hour] else HourStats(0, 0)
  }

  /** The animal's count, or zero. */
  function CountOf(animals: map<string, nat>, name: string): nat
  {
    if name in animals then animals[name] else 0
  }
}

=== FILE: text.dfy ===
/** String scanning used by the captcha coordinator and the feature parsers.
    Strings are sequences of UTF-16 code units' characters; the scanners below
    stand in for the few regular expressions and string methods the core uses,
    with JavaScript's own definitions of `\d` (ASCII digits only) and `\s`. */
module Text {
  import opened Common

  // ---------------------------------------------------------------- digits

  predicate IsDigit(c: char)
  {
    '0' <= c <= '9'
  }

  predicate AllDigits(s: string)
  {
    forall i :: 0 <= i < |s| ==> IsDigit(s[i])
  }

  function DigitValue(c: char): (d: nat)
    requires IsDigit(c)
    ensures d < 10
  {
    c as int - '0' as int
  }

  function DigitChar(d: nat): (c: char)
    requires d < 10
    ensures IsDigit(c) && DigitValue(c) == d
  {
    ('0' as int + d) as char
  }

  /** `parseInt` of a string made only of ASCII digits (most significant first). */
  function DigitsValue(s: string): nat
    requires AllDigits(s)
  {
    if s == [] then 0 else 10 * DigitsValue(s[..|s| - 1]) + DigitValue(s[|s| - 1])
  }

  /** Decimal rendering of a natural number, as `${n}` renders it; reading the
      digits back gives `n`. */
  function NatToString(n: nat): (s: string)
    ensures 1 <= |s| && AllDigits(s)
    ensures DigitsValue(s) == n
    // no leading zero: "0" is the only rendering that starts with '0'
    ensures |s| == 1 <==> n < 10
    ensures s[0] == '0' <==> n == 0
    ensures |s| > 1 ==> s[0] != '0'
  {
    if n < 10 then [DigitChar(n)]
    else
      var prefix := NatToString(n / 10);
      var s := prefix + [DigitChar(n % 10)];
      assert s[..|s| - 1] == prefix;
      s
  }

  /** A digit string without a leading zero has a positive value. */
  lemma {:induction false} LeadingDigitPositive(p: string)
    requires AllDigits(p) && |p| >= 1 && p[0] != '0'
    ensures DigitsValue(p) >= 1
    decreases |p|
  {
    if |p| > 1 {
      LeadingDigitPositive(p[..|p| - 1]);
    }
  }

  /** The rendering is the only digit string without a leading zero that
      reads back as `n`: every such string is `NatToString` of its value, so
      `NatToString(n)` is `String(n)`. */
  lemma {:induction false} NatToStringUnique(s: string)
    requires 1 <= |s| && AllDigits(s) && (|s| > 1 ==> s[0] != '0')
    ensures NatToString(DigitsValue(s)) == s
    decreases |s|
  {
    var n := DigitsValue(s);
    if |s| == 1 {
      assert s == [DigitChar(DigitValue(s[0]))];
    } else {
      var prefix := s[..|s| - 1];
      var d := DigitValue(s[|s| - 1]);
      assert n == 10 * DigitsValue(prefix) + d;
      LeadingDigitPositive(prefix);
      DivModUnique(n, 10, DigitsValue(prefix), d);
      NatToStringUnique(prefix);
      assert s == prefix + [DigitChar(d)];
    }
  }

  function IntToString(i: int): (s: string)
    ensures 1 <= |s|
  {
    if i < 0 then "-" + NatToString(-i) else NatToString(i)
  }

  // ---------------------------------------------------------- substrings

  predicate StartsWith(s: string, p: string)
  {
    |p| <= |s| && s[..|p|] == p
  }

  predicate EndsWith(s: string, p: string)
  {
    |p| <= |s| && s[|s| - |p|..] == p
  }

  /** `p` stands in `s` at index `i`. */
  predicate OccursAt(s: string, p: string, i: int)
  {
    0 <= i && i + |p| <= |s| && s[i..i + |p|] == p
  }

  /** `s.includes(p)`: some window of `s` equals `p`. */
  predicate Contains(s: string, p: string)
  {
    exists i :: 0 <= i <= |s| - |p| && OccursAt(s, p, i)
  }

  /** Whatever surrounds an occurrence, the occurrence is found. */
  lemma ContainsInside(pre: string, p: string, post: string)
    ensures Contains(pre + p + post, p)
  {
    var s := pre + p + post;
    assert OccursAt(s, p, |pre|);
  }

  /** A pattern holding a character that `s` lacks is not found in `s`. */
  lemma MissingCharNotContained(s: string, p: string, k: nat)
    requires k < |p| && p[k] !in s
    ensures !Contains(s, p)
  {
    assert forall j :: 0 <= j < |s| ==> s[j] != p[k];
    forall i | 0 <= i <= |s| - |p| ensures !OccursAt(s, p, i) {
      assert s[i..i + |p|][k] == s[i + k];
    }
  }

  // ----------------------------------------------------------- case folding

  /** ASCII lower-casing of one character. */
  function LowerChar(c: char): char
  {
    if 'A' <= c <= 'Z' then (c as int + 32) as char else c
  }

  function Lower(s: string): (r: string)
    ensures |r| == |s|
    ensures forall i :: 0 <= i < |s| ==> r[i] == LowerChar(s[i])
  {
    seq(|s|, i requires 0 <= i < |s| => LowerChar(s[i]))
  }

  /** A case-insensitive regular expression made of one ASCII literal, as in
      `/You can still claim a quest/i`: found iff the lower-cased text holds the
      lower-cased literal. */
  predicate ContainsIgnoreCase(s: string, p: string)
  {
    Contains(Lower(s), Lower(p))
  }

  // ---------------------------------------------------------- whitespace

  /** JavaScript's `\s`: the ECMAScript white space and line terminators. */
  predicate IsJsSpace(c: char)
  {
    c == ' ' || c == '\t' || c == '\n' || c == '\r' || c == '\U{000B}' || c == '\U{000C}'
    || c == '\U{00A0}' || c == '\U{1680}' || ('\U{2000}' <= c <= '\U{200A}')
    || c == '\U{2028}' || c == '\U{2029}' || c == '\U{202F}' || c == '\U{205F}'
    || c == '\U{3000}' || c == '\U{FEFF}'
  }

  // ------------------------------------------------------------- split

  /** `s.split(sep)` for a one-character separator: the pieces between
      separators, always at least one (the empty string splits to `[""]`). */
  function Split(s: string, sep: char): (r: seq<string>)
    ensures |r| >= 1
    decreases |s|
  {
    if s == [] then [""]
    else if s[0] == sep then [""] + Split(s[1..], sep)
    else
      var rest := Split(s[1..], sep);
      [[s[0]] + rest[0]] + rest[1..]
  }

  /** `w` stands in `s` at index `i` between two separators (or the ends of `s`). */
  predicate DelimitedAt(s: string, sep: char, w: string, i: int)
  {
    0 <= i && i + |w| <= |s| && s[i..i + |w|] == w
    && (i == 0 || s[i - 1] == sep)
    && (i + |w| == |s| || s[i + |w|] == sep)
  }

  /** The first piece of `s` is the text before its first separator. */
  lemma {:induction false} SplitHead(s: string, sep: char, k: nat)
    requires k <= |s| && sep !in s[..k] && (k == |s| || s[k] == sep)
    ensures Split(s, sep)[0] == s[..k]
    ensures k < |s| ==> Split(s, sep)[1..] == Split(s[k + 1..], sep)
    ensures k == |s| ==> |Split(s, sep)| == 1
    decreases k
  {
    if s == [] {
    } else if s[0] == sep {
      assert k == 0;
    } else {
      assert k > 0;
      assert s[1..][..k - 1] == s[1..k];
      assert sep !in s[1..k] by {
        forall j | 0 <= j < k - 1 ensures s[1..k][j] != sep {
          assert s[1..k][j] == s[..k][j + 1];
        }
      }
      SplitHead(s[1..], sep, k - 1);
      if k < |s| {
        assert s[1..][k..] == s[k + 1..];
      }
      assert [s[0]] + s[1..k] == s[..k];
    }
  }

  /** Without a separator, the only delimited occurrence is the whole text. */
  lemma DelimitedWithoutSep(s: string, sep: char, w: string, i: int)
    requires sep !in s
    requires DelimitedAt(s, sep, w, i)
    ensures i == 0 && w == s
  {
    assert forall j :: 0 <= j < |s| ==> s[j] != sep;
  }

  /** An occurrence delimited in the text after the first separator at `k` is
      delimited in the whole text, `k + 1` further on. */
  lemma DelimitedShift(s: string, sep: char, w: string, k: nat, j: nat)
    requires k < |s| && s[k] == sep
    requires DelimitedAt(s[k + 1..], sep, w, j)
    ensures DelimitedAt(s, sep, w, k + 1 + j)
  {
    var t := s[k + 1..];
    assert s[k + 1 + j..k + 1 + j + |w|] == t[j..j + |w|];
    if j > 0 { assert s[k + j] == t[j - 1]; }
    if j + |w| < |t| { assert s[k + 1 + j + |w|] == t[j + |w|]; }
  }

  /** An occurrence delimited in the whole text either is the first piece or lies
      after the first separator. */
  lemma DelimitedSplit(s: string, sep: char, w: string, k: nat, i: nat)
    requires k < |s| && s[k] == sep && sep !in s[..k]
    requires sep !in w
    requires DelimitedAt(s, sep, w, i)
    ensures (i == 0 && w == s[..k]) || (i > k && DelimitedAt(s[k + 1..], sep, w, i - (k + 1)))
  {
    assert forall j :: 0 <= j < k ==> s[j] != sep by {
      forall j | 0 <= j < k ensures s[j] != sep { assert s[j] == s[..k][j]; }
    }
    if i <= k {
      assert forall m :: 0 <= m < |w| ==> s[i + m] == w[m] != sep by {
        forall m | 0 <= m < |w| ensures s[i + m] == w[m] { assert s[i..i + |w|][m] == s[i + m]; }
      }
      assert s[..k] == s[i..i + |w|];
    } else {
      var t := s[k + 1..];
      var j := i - (k + 1);
      assert t[j..j + |w|] == s[i..i + |w|];
      if j > 0 { assert t[j - 1] == s[i - 1]; }
      if j + |w| < |t| { assert t[j + |w|] == s[i + |w|]; }
    }
  }

  /** Membership among the pieces of a split is exactly a delimited occurrence:
      `w` is a piece of `s.split(sep)` iff `w` occurs in `s` with a separator
      (or an end of `s`) on both sides. */
  lemma {:induction false} SplitMember(s: string, sep: char, w: string)
    requires sep !in w
    ensures w in Split(s, sep) <==> exists i :: DelimitedAt(s, sep, w, i)
    decreases |s|
  {
    var k := FirstIndex(s, sep);
    SplitHead(s, sep, k);
    if k == |s| {
      assert s[..k] == s;
      assert Split(s, sep) == [s];
      if w == s {
        assert DelimitedAt(s, sep, w, 0);
      }
      forall i | DelimitedAt(s, sep, w, i) ensures w == s {
        DelimitedWithoutSep(s, sep, w, i);
      }
    } else {
      var t := s[k + 1..];
      SplitMember(t, sep, w);
      assert Split(s, sep) == [s[..k]] + Split(t, sep);
      if w == s[..k] {
        assert DelimitedAt(s, sep, w, 0);
      } else if w in Split(t, sep) {
        var j :| DelimitedAt(t, sep, w, j);
        DelimitedShift(s, sep, w, k, j);
      } else {
        forall i | DelimitedAt(s, sep, w, i) ensures false {
          DelimitedSplit(s, sep, w, k, i);
        }
      }
    }
  }

  /** Index of the first `c` in `s`, or `|s|` when there is none. */
  function FirstIndex(s: string, c: char): (k: nat)
    ensures k <= |s| && c !in s[..k] && (k == |s| || s[k] == c)
    decreases |s|
  {
    if s == [] then 0
    else if s[0] == c then 0
    else
      var k := 1 + FirstIndex(s[1..], c);
      assert s[..k] == [s[0]] + s[1..][..k - 1];
      k
  }

  // ----------------------------------------------------- number scanning

  /** Index just past the run of ASCII digits that starts at `i`. */
  function DigitRunEnd(s: string, i: nat): (j: nat)
    requires i <= |s|
    ensures i <= j <= |s| && AllDigits(s[i..j]) && (j == |s| || !IsDigit(s[j]))
    decreases |s| - i
  {
    if i == |s| || !IsDigit(s[i]) then i
    else
      var j := DigitRunEnd(s, i + 1);
      assert s[i..j] == [s[i]] + s[i + 1..j];
      j
  }

  /** Index just past the run of `\s` characters that starts at `i`. */
  function SpaceRunEnd(s: string, i: nat): (j: nat)
    requires i <= |s|
    ensures i <= j <= |s| && (j == |s| || !IsJsSpace(s[j]))
    decreases |s| - i
  {
    if i == |s| || !IsJsSpace(s[i]) then i else SpaceRunEnd(s, i + 1)
  }

  /** Every start inside one digit run ends where the run ends. */
  lemma {:induction false} SameRun(s: string, i: nat, p: nat)
    requires i <= |s| && i <= p < DigitRunEnd(s, i)
    ensures DigitRunEnd(s, p) == DigitRunEnd(s, i)
    decreases p - i
  {
    if i < p {
      SameRun(s, i + 1, p);
    }
  }

  /** `kw` stands at index `k`, comparing ASCII letters without regard to case. */
  predicate KeywordAt(s: string, k: nat, kw: string)
  {
    k + |kw| <= |s| && forall m :: 0 <= m < |kw| ==> LowerChar(s[k + m]) == LowerChar(kw[m])
  }

  /** Where the `(\d+)` of the expression ends when the match starts at `p`. */
  function CaptureEnd(s: string, p: nat): nat
    requires p <= |s|
  {
    DigitRunEnd(s, p)
  }

  /** The regular expression `(\d+)\s*kw` (or `(\d+)kw` when `spaces` is false)
      matches at index `p`. Because `\d+` is greedy and `kw` starts with neither a
      digit nor a space, backtracking never helps: the match exists iff the whole
      digit run from `p`, then the whole run of spaces, is followed by `kw`. */
  predicate MatchAt(s: string, p: int, kw: string, spaces: bool)
  {
    0 <= p < |s| && IsDigit(s[p])
    && KeywordAt(s, if spaces then SpaceRunEnd(s, DigitRunEnd(s, p)) else DigitRunEnd(s, p), kw)
  }

  /** The leftmost match at or after `i`, scanning digit run by digit run. */
  function ScanFrom(s: string, kw: string, spaces: bool, i: nat): (r: Option<nat>)
    requires i <= |s|
    ensures r.Some? ==> i <= r.value < |s| && MatchAt(s, r.value, kw, spaces)
    ensures r.Some? ==> forall q :: i <= q < r.value ==> !MatchAt(s, q, kw, spaces)
    ensures r.None? ==> forall q :: i <= q < |s| ==> !MatchAt(s, q, kw, spaces)
    decreases |s| - i
  {
    if i == |s| then None
    else if !IsDigit(s[i]) then ScanFrom(s, kw, spaces, i + 1)
    else
      var j := DigitRunEnd(s, i);
      var k := if spaces then SpaceRunEnd(s, j) else j;
      if KeywordAt(s, k, kw) then Some(i)
      else
        var r := ScanFrom(s, kw, spaces, j);
        assert forall q :: i <= q < j ==> !MatchAt(s, q, kw, spaces) by {
          forall q | i <= q < j ensures !MatchAt(s, q, kw, spaces) {
            SameRun(s, i, q);
          }
        }
        r
  }

  /** A digit run that fills `s[i..j]` and stops before a non-digit ends at `j`. */
  lemma {:induction false} RunEndsAt(s: string, i: nat, j: nat)
    requires i < j <= |s| && AllDigits(s[i..j]) && (j == |s| || !IsDigit(s[j]))
    ensures DigitRunEnd(s, i) == j
    decreases j - i
  {
    assert IsDigit(s[i..j][0]);
    if i + 1 < j {
      assert s[i + 1..j] == s[i..j][1..];
      RunEndsAt(s, i + 1, j);
    }
  }

  /** The scan passes over text without digits. */
  lemma {:induction false} ScanSkipsText(s: string, kw: string, spaces: bool, i: nat, j: nat)
    requires i <= j <= |s| && forall k :: i <= k < j ==> !IsDigit(s[k])
    ensures ScanFrom(s, kw, spaces, i) == ScanFrom(s, kw, spaces, j)
    decreases j - i
  {
    if i < j {
      ScanSkipsText(s, kw, spaces, i + 1, j);
    }
  }

  /** A scan passes two characters that are not digits. */
  lemma ScanSkipsPair(s: string, kw: string, spaces: bool, i: nat)
    requires i + 2 <= |s| && !IsDigit(s[i]) && !IsDigit(s[i + 1])
    ensures ScanFrom(s, kw, spaces, i) == ScanFrom(s, kw, spaces, i + 2)
  {
    ScanSkipsText(s, kw, spaces, i, i + 2);
  }

  /** The scan passes over a digit run not followed by the keyword. */
  lemma ScanSkipsRun(s: string, kw: string, spaces: bool, i: nat, j: nat)
    requires i < j <= |s| && AllDigits(s[i..j]) && (j == |s| || !IsDigit(s[j]))
    requires !KeywordAt(s, if spaces then SpaceRunEnd(s, j) else j, kw)
    ensures ScanFrom(s, kw, spaces, i) == ScanFrom(s, kw, spaces, j)
  {
    RunEndsAt(s, i, j);
    assert IsDigit(s[i..j][0]);
  }

  /** The scan stops at a digit run followed by the keyword. */
  lemma ScanHits(s: string, kw: string, spaces: bool, i: nat, j: nat)
    requires i < j <= |s| && AllDigits(s[i..j]) && (j == |s| || !IsDigit(s[j]))
    requires KeywordAt(s, if spaces then SpaceRunEnd(s, j) else j, kw)
    ensures ScanFrom(s, kw, spaces, i) == Some(i)
  {
    RunEndsAt(s, i, j);
    assert IsDigit(s[i..j][0]);
  }

  /** The number captured by `(\d+)\s*kw` (case-insensitive) at its leftmost
      match, as `parseInt(match[1])` reads it; `None` when there is no match. */
  function NumberBefore(s: string, kw: string, spaces: bool): (r: Option<nat>)
    ensures r.None? <==> forall q :: 0 <= q < |s| ==> !MatchAt(s, q, kw, spaces)
  {
    match ScanFrom(s, kw, spaces, 0)
    case None => None
    case Some(p) => Some(DigitsValue(s[p..CaptureEnd(s, p)]))
  }

  // ------------------------------------------------------------------ URLs

  /** `/(https?:\/\/[^\s]+)/` matches at index `i`. */
  predicate UrlAt(s: string, i: nat)
  {
    i <= |s|
    && ((StartsWith(s[i..], "http://") && i + 7 < |s| && !IsJsSpace(s[i + 7]))
        || (StartsWith(s[i..], "https://") && i + 8 < |s| && !IsJsSpace(s[i + 8])))
  }

  /** The text holds an http(s) URL with at least one character after `//`. */
  predicate HasUrl(s: string)
  {
    exists i :: 0 <= i <= |s| && UrlAt(s, i)
  }
}

=== FILE: two_crawler.dfy ===
/** The 2Crawler adapter: hCaptcha only. A task is created, then polled
    until the server reports a solution. Every HTTP reply is an oracle; the
    `k`-th poll receives `polls[k]`. */
module TwoCrawler {
  import opened Common
  import opened Text
  import opened Polling

  const InitialDelay: real := 5000.0
  const MaxDelay: real := 15000.0
  const BackoffFactor: real := 1.15
  const MaxAttempts: nat := 60
  const TimeoutMs: real := 480000.0

  const ImageUnsupportedError: string := "[2Crawler] Image captcha solving is not supported"

  /** A poll either gets the task record (`status` is "pr", "su" or "fa") or
      fails (network error, timeout). */
  datatype PollReply = Replied(status: string, solution: Option<string>) | RequestFailed(error: string)

  /** A poll past the end of the oracle fails. */
  const NoReply: PollReply := RequestFailed("")

  function PollAt(polls: seq<Timed<PollReply>>, k: nat): Timed<PollReply>
  {
    At(polls, k, NoReply)
  }

  /** How the loop treats one poll. */
  datatype Verdict = Solved(token: string) | Failed | Processing

  /** "su" with a non-empty solution returns it; "fa" throws inside the try
      and so counts as a failed poll, like a request that fails; anything
      else, "su" without a solution included, is still processing. */
  function Classify(reply: PollReply): (v: Verdict)
    ensures v.Solved? <==> reply.Replied? && reply.status == "su" && Truthy(reply.solution)
    ensures v.Solved? ==> v.token == reply.solution.value
    ensures v.Failed? <==> reply.RequestFailed? || (reply.Replied? && reply.status == "fa")
  {
    match reply
    case Replied(status, solution) =>
      if status == "su" && Truthy(solution) then Solved(solution.value)
      else if status == "fa" then Failed
      else Processing
    case RequestFailed(_) => Failed
  }

  function VerdictAt(polls: seq<Timed<PollReply>>, k: nat): Verdict
  {
    Classify(PollAt(polls, k).reply)
  }

  /** After the `attempt`-th poll (counted from 1), the loop goes on: the task
      is still processing, or the poll failed before the last two. */
  predicate KeepsPolling(v: Verdict, attempt: nat)
  {
    v.Processing? || (v.Failed? && attempt < MaxAttempts - 1)
  }

  function TimedOutMessage(taskId: int): string
  {
    "[2Crawler] Task " + IntToString(taskId) + " timed out"
  }

  function FailedToPollMessage(taskId: int, attempts: nat): string
  {
    "[2Crawler] Failed to poll task " + IntToString(taskId) + " after " + NatToString(attempts) + " attempts"
  }

  function ExhaustedMessage(taskId: int): string
  {
    "[2Crawler] Max polling attempts (60) reached for task " + IntToString(taskId)
  }

  /** The polls made so far: at most 60, each after a wait grown from the
      previous one and started before the time limit, and each but the last
      one keeping the loop going. */
  predicate Timeline(polls: seq<Timed<PollReply>>, waits: seq<real>, elapsed: real)
  {
    |waits| <= MaxAttempts
    && Backoff(waits, InitialDelay, BackoffFactor, MaxDelay)
    && elapsed == Spent(polls, waits, NoReply)
    && (forall k :: 0 <= k < |waits| ==> Spent(polls, waits[..k], NoReply) < TimeoutMs)
    && (forall k :: 0 <= k < |waits| - 1 ==> KeepsPolling(VerdictAt(polls, k), k + 1))
  }

  /** The state of `pollTaskResult` at the head of its loop: the last poll, if
      any, kept the loop going, and `delay` is the next wait. */
  predicate Polled(polls: seq<Timed<PollReply>>, waits: seq<real>, elapsed: real, delay: real)
  {
    Timeline(polls, waits, elapsed)
    && delay == (if |waits| == 0 then InitialDelay else Grow(waits[|waits| - 1], BackoffFactor, MaxDelay))
    && (|waits| == 0 || KeepsPolling(VerdictAt(polls, |waits| - 1), |waits|))
  }

  /** How the loop ended after the given waits: the last poll returned a
      solution, or failed once too late to retry; or the loop ran out of time
      or of attempts. */
  predicate Ended(taskId: int, polls: seq<Timed<PollReply>>, waits: seq<real>, elapsed: real, r: Result<string>)
  {
    var n := |waits|;
    (r.Ok? <==> n > 0 && VerdictAt(polls, n - 1).Solved?)
    && (r.Ok? ==> r.value == VerdictAt(polls, n - 1).token)
    && (n > 0 && VerdictAt(polls, n - 1).Failed? && !KeepsPolling(VerdictAt(polls, n - 1), n) ==>
          r == Err(FailedToPollMessage(taskId, n)))
    && ((n == 0 || KeepsPolling(VerdictAt(polls, n - 1), n)) && n < MaxAttempts ==>
          elapsed >= TimeoutMs && r == Err(TimedOutMessage(taskId)))
    && ((n == 0 || KeepsPolling(VerdictAt(polls, n - 1), n)) && n == MaxAttempts ==>
          r == Err(ExhaustedMessage(taskId)))
  }

  /** `pollTaskResult`: wait, poll, and decide, at most 60 times. `waits` are
      the waits before each poll made and `elapsed` the time spent. */
  method PollTaskResult(taskId: int, polls: seq<Timed<PollReply>>)
    returns (r: Result<string>, waits: seq<real>, elapsed: real)
    ensures Timeline(polls, waits, elapsed)
    ensures Ended(taskId, polls, waits, elapsed, r)
  {
    waits := [];
    elapsed := 0.0;
    var delay := InitialDelay;
    var done: Option<Result<string>> := None;
    while |waits| < MaxAttempts && elapsed < TimeoutMs && done.None?
      invariant done.None? ==> Polled(polls, waits, elapsed, delay)
      invariant done.Some? ==> Timeline(polls, waits, elapsed) && Ended(taskId, polls, waits, elapsed, done.value)
      decreases MaxAttempts - |waits|, if done.None? then 1 else 0
    {
      done, waits, elapsed, delay := PollOnce(taskId, polls, waits, elapsed, delay);
    }
    if done.Some? {
      r := done.value;
    } else if elapsed >= TimeoutMs && |waits| < MaxAttempts {
      r := Err(TimedOutMessage(taskId));
    } else {
      r := Err(ExhaustedMessage(taskId));
    }
  }

  /** One pass of the loop: wait, poll, and either finish or go on with a
      longer wait. */
  method PollOnce(taskId: int, polls: seq<Timed<PollReply>>, waits0: seq<real>, elapsed0: real, delay0: real)
    returns (done: Option<Result<string>>, waits: seq<real>, elapsed: real, delay: real)
    requires Polled(polls, waits0, elapsed0, delay0) && |waits0| < MaxAttempts && elapsed0 < TimeoutMs
    ensures waits == waits0 + [delay0]
    ensures Timeline(polls, waits, elapsed)
    ensures done.None? ==> Polled(polls, waits, elapsed, delay)
    ensures done.Some? ==> Ended(taskId, polls, waits, elapsed, done.value)
  {
    var p := PollAt(polls, |waits0|);
    TimelineStep(polls, waits0, elapsed0, delay0);
    waits := waits0 + [delay0];
    elapsed := elapsed0 + delay0 + p.tookMs as real;
    var v := Classify(p.reply);
    delay := Grow(delay0, BackoffFactor, MaxDelay);
    if v.Solved? {
      done := Some(Ok(v.token));
    } else if v.Failed? && |waits| >= MaxAttempts - 1 {
      done := Some(Err(FailedToPollMessage(taskId, |waits|)));
    } else {
      done := None;
    }
  }

  /** A poll made from the head of the loop, before the time limit, extends
      the timeline. */
  lemma TimelineStep(polls: seq<Timed<PollReply>>, waits: seq<real>, elapsed: real, delay: real)
    requires Polled(polls, waits, elapsed, delay) && |waits| < MaxAttempts && elapsed < TimeoutMs
    ensures Timeline(polls, waits + [delay], elapsed + delay + PollAt(polls, |waits|).tookMs as real)
  {
    SpentStep(polls, waits, delay, NoReply);
    var w := waits + [delay];
    forall k | 0 <= k < |w| - 1
      ensures KeepsPolling(VerdictAt(polls, k), k + 1)
    {
    }
  }

  /** The waits between polls never decrease and stay within [5 s, 15 s]. */
  lemma PollDelayWindow(ws: seq<real>)
    requires Backoff(ws, InitialDelay, BackoffFactor, MaxDelay)
    ensures forall k :: 0 <= k < |ws| ==> 5000.0 <= ws[k] <= 15000.0
    ensures forall j, k :: 0 <= j <= k < |ws| ==> ws[j] <= ws[k]
  {
    BackoffWindow(ws, InitialDelay, BackoffFactor, MaxDelay);
  }

  /** A "fa" poll before the 59th does not end the loop: the error it throws
      is caught like a network failure. */
  lemma ServerFailureKeepsPolling(attempt: nat)
    requires attempt < MaxAttempts - 1
    ensures KeepsPolling(Classify(Replied("fa", None)), attempt)
  {
  }

  // ------------------------------------------------------------ tasks

  /** The reply to the task-creation request: HTTP status and status text,
      and the body's `detail` (on errors) and `id` (on success). */
  datatype CreateResponse = CreateResponse(httpStatus: int, statusText: string, detail: Option<string>, id: Option<int>)

  /** `createTask`: the task id, unless the status is not 200 or 201, or the
      id is missing or zero. */
  function CreateTask(response: Result<CreateResponse>): (r: Result<int>)
    ensures r.Ok? <==>
      (response.Ok? && (response.value.httpStatus == 200 || response.value.httpStatus == 201)
       && response.value.id.Some? && response.value.id.value != 0)
    ensures r.Ok? ==> r.value == response.value.id.value
    ensures response.Err? ==> r == Err(response.message)
  {
    match response
    case Err(e) => Err(e)
    case Ok(resp) =>
      if resp.httpStatus != 200 && resp.httpStatus != 201 then
        Err("[2Crawler] Task creation failed: " + (if Truthy(resp.detail) then resp.detail.value else resp.statusText))
      else if resp.id.None? || resp.id.value == 0 then
        Err("[2Crawler] Invalid response: missing task ID")
      else Ok(resp.id.value)
  }

  /** `solveImage`: 2Crawler has no image tasks; every call throws. */
  function SolveImage(image: seq<bv8>): (r: Result<string>)
    ensures r == Err(ImageUnsupportedError)
  {
    Err(ImageUnsupportedError)
  }

  /** `solveHcaptcha`: create the task and return the polled solution; any
      error from either step is thrown unchanged. The polling took `waits` and
      `elapsed` ms. */
  method SolveHcaptcha(response: Result<CreateResponse>, polls: seq<Timed<PollReply>>)
    returns (r: Result<string>, waits: seq<real>, elapsed: real)
    ensures CreateTask(response).Err? ==> r == Err(CreateTask(response).message) && waits == [] && elapsed == 0.0
    // once the task exists it is polled exactly as `pollTaskResult` polls, and its outcome is the answer
    ensures CreateTask(response).Ok? ==>
      Timeline(polls, waits, elapsed) && Ended(CreateTask(response).value, polls, waits, elapsed, r)
    ensures r.Ok? <==> CreateTask(response).Ok? && |waits| > 0 && VerdictAt(polls, |waits| - 1).Solved?
    ensures r.Ok? ==> r.value == VerdictAt(polls, |waits| - 1).token
    ensures |waits| <= MaxAttempts
  {
    var task := CreateTask(response);
    if task.Err? {
      return Err(task.message), [], 0.0;
    }
    r, waits, elapsed := PollTaskResult(task.value, polls);
  }
}

=== FILE: yes_captcha.dfy ===
/** The YesCaptcha adapter: an image task answered at once, and an hCaptcha
    task created and then polled until ready. Every HTTP reply is an oracle;
    the `k`-th result request receives `polls[k]`. */
module YesCaptcha {
  import opened Common
  import opened Text
  import opened Polling

  const InitialDelay: real := 3000.0
  const MaxDelay: real := 10000.0
  const BackoffFactor: real := 1.2
  const MaxAttempts: nat := 40
  const TimeoutMs: real := 120000.0

  /** The body of a `/getTaskResult` reply. */
  datatype TaskResult = TaskResult(errorId: int, status: string, errorDescription: Option<string>, solution: Option<Solution>)
  datatype Solution = Solution(gRecaptchaResponse: string)

  /** A result request either gets a reply or fails (network error, timeout). */
  datatype PollReply = Replied(data: TaskResult) | RequestFailed(error: string)

  /** A result request past the end of the oracle fails without a message. */
  const NoReply: PollReply := RequestFailed("")

  function PollAt(polls: seq<Timed<PollReply>>, k: nat): Timed<PollReply>
  {
    At(polls, k, NoReply)
  }

  /** A template string's rendering of an optional description. */
  function Rendered(d: Option<string>): string
  {
    if d.Some? then d.value else "undefined"
  }

  /** The error thrown for a reply with a non-zero `errorId`. */
  function TaskErrorMessage(d: Option<string>): (m: string)
    ensures Contains(m, "Task error")
  {
    var detail := if Truthy(d) then d.value else "Unknown error";
    ContainsInside("[YesCaptcha] ", "Task error", ": " + detail);
    "[YesCaptcha] " + "Task error" + (": " + detail)
  }

  function TimedOutMessage(taskId: string, attempts: nat): string
  {
    "[YesCaptcha] Task " + taskId + " timed out (" + NatToString(attempts) + " attempts)"
  }

  function FailedToPollMessage(taskId: string, attempts: nat, error: string): string
  {
    "[YesCaptcha] Failed to poll task " + taskId + " after " + NatToString(attempts) + " attempts: " + error
  }

  function ExhaustedMessage(taskId: string): string
  {
    "[YesCaptcha] Max polling attempts (40) reached for task " + taskId
  }

  /** How the loop treats one result request. */
  datatype Verdict = Ready(result: TaskResult) | Fatal(message: string) | Processing | Retry(message: string)

  /** A non-zero `errorId` throws a "Task error", which the catch rethrows; a
      ready reply is returned; any other reply keeps polling; a failed request
      is rethrown when its message mentions "Task error", else retried. */
  function Classify(reply: PollReply): (v: Verdict)
    ensures v.Ready? <==> reply.Replied? && reply.data.errorId == 0 && reply.data.status == "ready"
    ensures v.Ready? ==> v.result == reply.data
    ensures v.Fatal? <==> (reply.Replied? && reply.data.errorId != 0) || (reply.RequestFailed? && Contains(reply.error, "Task error"))
    ensures v.Fatal? ==> Contains(v.message, "Task error")
    ensures v.Retry? ==> reply.RequestFailed? && v.message == reply.error
  {
    match reply
    case Replied(d) =>
      if d.errorId != 0 then Fatal(TaskErrorMessage(d.errorDescription))
      else if d.status == "ready" then Ready(d)
      else Processing
    case RequestFailed(e) =>
      if Contains(e, "Task error") then Fatal(e) else Retry(e)
  }

  function VerdictAt(polls: seq<Timed<PollReply>>, k: nat): Verdict
  {
    Classify(PollAt(polls, k).reply)
  }

  /** After the `attempt`-th request (counted from 1), the loop goes on: the
      task is still processing, or the request failed before the last two. */
  predicate KeepsPolling(v: Verdict, attempt: nat)
  {
    v.Processing? || (v.Retry? && attempt < MaxAttempts - 1)
  }

  /** The requests made so far: at most 40, each after a wait grown from the
      previous one and started before the time limit, and each but the last
      one keeping the loop going. */
  predicate Timeline(polls: seq<Timed<PollReply>>, waits: seq<real>, elapsed: real)
  {
    |waits| <= MaxAttempts
    && Backoff(waits, InitialDelay, BackoffFactor, MaxDelay)
    && elapsed == Spent(polls, waits, NoReply)
    && (forall k :: 0 <= k < |waits| ==> Spent(polls, waits[..k], NoReply) < TimeoutMs)
    && (forall k :: 0 <= k < |waits| - 1 ==> KeepsPolling(VerdictAt(polls, k), k + 1))
  }

  /** The state of `pollTaskResult` at the head of its loop: the last request,
      if any, kept the loop going, and `delay` is the next wait. */
  predicate Polled(polls: seq<Timed<PollReply>>, waits: seq<real>, elapsed: real, delay: real)
  {
    Timeline(polls, waits, elapsed)
    && delay == (if |waits| == 0 then InitialDelay else Grow(waits[|waits| - 1], BackoffFactor, MaxDelay))
    && (|waits| == 0 || KeepsPolling(VerdictAt(polls, |waits| - 1), |waits|))
  }

  /** How the loop ended after the given waits: the last request returned a
      ready reply, or threw a "Task error", or failed once too late to retry;
      or the loop ran out of time or of attempts. */
  predicate Ended(taskId: string, polls: seq<Timed<PollReply>>, waits: seq<real>, elapsed: real, r: Result<TaskResult>)
  {
    var n := |waits|;
    (r.Ok? <==> n > 0 && VerdictAt(polls, n - 1).Ready?)
    && (r.Ok? ==> r.value == VerdictAt(polls, n - 1).result)
    && (n > 0 && VerdictAt(polls, n - 1).Fatal? ==> r == Err(VerdictAt(polls, n - 1).message))
    && (n > 0 && VerdictAt(polls, n - 1).Retry? && !KeepsPolling(VerdictAt(polls, n - 1), n) ==>
          r == Err(FailedToPollMessage(taskId, n, VerdictAt(polls, n - 1).message)))
    && ((n == 0 || KeepsPolling(VerdictAt(polls, n - 1), n)) && n < MaxAttempts ==>
          elapsed >= TimeoutMs && r == Err(TimedOutMessage(taskId, n)))
    && ((n == 0 || KeepsPolling(VerdictAt(polls, n - 1), n)) && n == MaxAttempts ==>
          r == Err(ExhaustedMessage(taskId)))
  }

  /** `pollTaskResult`: wait, request, and decide, at most 40 times. `waits`
      are the waits before each request made (one per request) and `elapsed`
      the time spent. */
  method PollTaskResult(taskId: string, polls: seq<Timed<PollReply>>)
    returns (r: Result<TaskResult>, waits: seq<real>, elapsed: real)
    ensures |waits| <= MaxAttempts
    ensures Backoff(waits, InitialDelay, BackoffFactor, MaxDelay)
    // the time check passed before every request, and all but the last request kept the loop going
    ensures elapsed == Spent(polls, waits, NoReply)
    ensures forall k :: 0 <= k < |waits| ==> Spent(polls, waits[..k], NoReply) < TimeoutMs
    ensures forall k :: 0 <= k < |waits| - 1 ==> KeepsPolling(VerdictAt(polls, k), k + 1)
    // how the last request ended the loop
    ensures r.Ok? <==> |waits| > 0 && VerdictAt(polls, |waits| - 1).Ready?
    ensures r.Ok? ==> r.value == VerdictAt(polls, |waits| - 1).result
    ensures |waits| > 0 && VerdictAt(polls, |waits| - 1).Fatal? ==> r == Err(VerdictAt(polls, |waits| - 1).message)
    ensures |waits| > 0 && VerdictAt(polls, |waits| - 1).Retry? && !KeepsPolling(VerdictAt(polls, |waits| - 1), |waits|) ==>
      r == Err(FailedToPollMessage(taskId, |waits|, VerdictAt(polls, |waits| - 1).message))
    // or the loop ran out of time or of attempts
    ensures (|waits| == 0 || KeepsPolling(VerdictAt(polls, |waits| - 1), |waits|)) && |waits| < MaxAttempts ==>
      elapsed >= TimeoutMs && r == Err(TimedOutMessage(taskId, |waits|))
    ensures (|waits| == 0 || KeepsPolling(VerdictAt(polls, |waits| - 1), |waits|)) && |waits| == MaxAttempts ==>
      r == Err(ExhaustedMessage(taskId))
  {
    waits := [];
    elapsed := 0.0;
    var delay := InitialDelay;
    var done: Option<Result<TaskResult>> := None;
    while |waits| < MaxAttempts && elapsed < TimeoutMs && done.None?
      invariant done.None? ==> Polled(polls, waits, elapsed, delay)
      invariant done.Some? ==> Timeline(polls, waits, elapsed) && Ended(taskId, polls, waits, elapsed, done.value)
      decreases MaxAttempts - |waits|, if done.None? then 1 else 0
    {
      done, waits, elapsed, delay := PollOnce(taskId, polls, waits, elapsed, delay);
    }
    if done.Some? {
      r := done.value;
    } else if elapsed >= TimeoutMs && |waits| < MaxAttempts {
      r := Err(TimedOutMessage(taskId, |waits|));
    } else {
      r := Err(ExhaustedMessage(taskId));
    }
  }

  /** One pass of the loop: wait, request, and either finish or go on with a
      longer wait. */
  method PollOnce(taskId: string, polls: seq<Timed<PollReply>>, waits0: seq<real>, elapsed0: real, delay0: real)
    returns (done: Option<Result<TaskResult>>, waits: seq<real>, elapsed: real, delay: real)
    requires Polled(polls, waits0, elapsed0, delay0) && |waits0| < MaxAttempts && elapsed0 < TimeoutMs
    ensures waits == waits0 + [delay0]
    ensures Timeline(polls, waits, elapsed)
    ensures done.None? ==> Polled(polls, waits, elapsed, delay)
    ensures done.Some? ==> Ended(taskId, polls, waits, elapsed, done.value)
  {
    var p := PollAt(polls, |waits0|);
    TimelineStep(polls, waits0, elapsed0, delay0);
    waits := waits0 + [delay0];
    elapsed := elapsed0 + delay0 + p.tookMs as real;
    var v := Classify(p.reply);
    delay := Grow(delay0, BackoffFactor, MaxDelay);
    if v.Ready? {
      done := Some(Ok(v.result));
    } else if v.Fatal? {
      done := Some(Err(v.message));
    } else if v.Retry? && |waits| >= MaxAttempts - 1 {
      done := Some(Err(FailedToPollMessage(taskId, |waits|, v.message)));
    } else {
      done := None;
    }
  }

  /** A request made from the head of the loop, before the time limit,
      extends the timeline. */
  lemma TimelineStep(polls: seq<Timed<PollReply>>, waits: seq<real>, elapsed: real, delay: real)
    requires Polled(polls, waits, elapsed, delay) && |waits| < MaxAttempts && elapsed < TimeoutMs
    ensures Timeline(polls, waits + [delay], elapsed + delay + PollAt(polls, |waits|).tookMs as real)
  {
    SpentStep(polls, waits, delay, NoReply);
    var w := waits + [delay];
    forall k | 0 <= k < |w| - 1
      ensures KeepsPolling(VerdictAt(polls, k), k + 1)
    {
    }
  }

  /** The waits between polls never decrease and stay within [3 s, 10 s]. */
  lemma PollDelayWindow(ws: seq<real>)
    requires Backoff(ws, InitialDelay, BackoffFactor, MaxDelay)
    ensures forall k :: 0 <= k < |ws| ==> 3000.0 <= ws[k] <= 10000.0
    ensures forall j, k :: 0 <= j <= k < |ws| ==> ws[j] <= ws[k]
  {
    BackoffWindow(ws, InitialDelay, BackoffFactor, MaxDelay);
  }

  // ------------------------------------------------------------ tasks

  /** The body of a `/createTask` reply for an image task. */
  datatype ImageReply = ImageReply(errorId: int, errorDescription: Option<string>, text: string)

  /** `solveImage`: the recognised text when the task reply has no error;
      otherwise the request's own error or the task failure. */
  function SolveImage(created: Result<ImageReply>): (r: Result<string>)
    ensures r.Ok? <==> created.Ok? && created.value.errorId == 0
    ensures r.Ok? ==> r.value == created.value.text
    ensures created.Err? ==> r == Err(created.message)
    ensures created.Ok? && created.value.errorId != 0 ==>
      r == Err("[YesCaptcha] Image-to-text task failed: " + Rendered(created.value.errorDescription))
  {
    match created
    case Err(e) => Err(e)
    case Ok(d) =>
      if d.errorId != 0 then Err("[YesCaptcha] Image-to-text task failed: " + Rendered(d.errorDescription))
      else Ok(d.text)
  }

  /** The body of a `/createTask` reply for an hCaptcha task. */
  datatype TaskCreated = TaskCreated(errorId: int, errorDescription: Option<string>, taskId: string)

  /** `solveHcaptcha`: create the task, poll it, and return the token of the
      ready reply; a creation error, a polling error or a ready reply without
      a solution is thrown. `polled` is how the polling ended, after `waits`
      and `elapsed` ms. */
  method SolveHcaptcha(created: Result<TaskCreated>, polls: seq<Timed<PollReply>>)
    returns (r: Result<string>, polled: Result<TaskResult>, waits: seq<real>, elapsed: real)
    ensures created.Err? ==> r == Err(created.message) && waits == [] && elapsed == 0.0
    ensures created.Ok? && created.value.errorId != 0 ==>
      r == Err("[YesCaptcha] HCaptcha task creation failed: " + Rendered(created.value.errorDescription))
      && waits == [] && elapsed == 0.0
    // once the task exists it is polled exactly as `pollTaskResult` polls
    ensures created.Ok? && created.value.errorId == 0 ==>
      Timeline(polls, waits, elapsed) && Ended(created.value.taskId, polls, waits, elapsed, polled)
    // and the answer is the polling error, or the solution failure, or the token
    ensures created.Ok? && created.value.errorId == 0 && polled.Err? ==> r == Err(polled.message)
    ensures created.Ok? && created.value.errorId == 0 && polled.Ok?
            && (polled.value.errorId != 0 || polled.value.solution.None?) ==>
      r == Err("[YesCaptcha] HCaptcha solution failed: " + Rendered(polled.value.errorDescription))
    ensures r.Ok? <==>
      (created.Ok? && created.value.errorId == 0 && polled.Ok? && polled.value.errorId == 0
       && polled.value.solution.Some?)
    ensures r.Ok? ==> r.value == polled.value.solution.value.gRecaptchaResponse
    ensures r.Ok? ==> |waits| > 0 && polled.value == VerdictAt(polls, |waits| - 1).result
    ensures |waits| <= MaxAttempts
  {
    if created.Err? {
      return Err(created.message), Err(created.message), [], 0.0;
    }
    var task := created.value;
    if task.errorId != 0 {
      var e := "[YesCaptcha] HCaptcha task creation failed: " + Rendered(task.errorDescription);
      return Err(e), Err(e), [], 0.0;
    }
    polled, waits, elapsed := PollTaskResult(task.taskId, polls);
    if polled.Err? {
      return Err(polled.message), polled, waits, elapsed;
    }
    var data := polled.value;
    if data.errorId != 0 || data.solution.None? {
      return Err("[YesCaptcha] HCaptcha solution failed: " + Rendered(data.errorDescription)), polled, waits, elapsed;
    }
    r := Ok(data.solution.value.gRecaptchaResponse);
  }
}
